=== FILE: README.md ===
# File sync engine and branch reconciliation, modelled in Dafny

This project models two parts of the repository.

- **The sandbox worker's file-sync engine** (`packages/sandbox-worker/src/sync`). It mirrors a sandbox's working directory into an S3-compatible object store. The engine has four parts:
  - a **file watcher**: the ignore and immediate-sync pattern lists, a home-made glob matcher, the shaping of change events and the initial directory scan;
  - a **sync queue**: per-path deduplication, immediate and batch priorities, batching, chunked dispatch, bounded exponential-backoff retry, flush, and stop/start;
  - an **object-store client**: the `{sandboxId}/{path}` key scheme, paginated listing with prefix stripping, not-found handling, and batched cleanup;
  - the **`FileSync` orchestrator**: `.gitignore` translation, restoring from the store, the initial local-versus-remote diff, lifecycle guards and statistics.
- **Branch reconciliation** in the Convex backend (`packages/convex/branches.ts`): `upsertBranch`, and `syncBranchesFromGitHub`, which aligns a project's branch records with the list the code host reports.

Everything is pure functions over immutable datatypes, with a few methods where the source loops.

- I/O, the store and time become inputs:
  - the local file tree is a map from path to readable content;
  - the store is a map from key to stored object;
  - the answers of the store's list and get requests are explicit parameters;
  - timer and callback firings are separate transition functions.
- SHA-256 (FIPS 180-4) is a parameter `hash: Bytes -> string`.
- The Convex table is a sequence of rows in creation order with unique ids.

Modules, one per file:

| file | module | models |
|---|---|---|
| base.dfy | Base | `Option`, `Result`, bytes, the hash parameter |
| seqs.dfy | Seqs | concatenation, `chunkArray`, filtering, prefixes |
| glob.dfy | Glob | `matchesPattern`: the text rewrite, its token reading, and anchored matching |
| watcher.dfy | Watcher | `FileWatcher` |
| gitignore.dfy | Gitignore | `readGitignorePatterns` and `mergeIgnorePatterns` |
| store.dfy | ObjectStore | `R2Client` |
| queue.dfy | Queue | `SyncQueue` |
| orchestrator.dfy | Orchestrator | `FileSync` |
| branches.dfy | Branches | `upsertBranch`, `syncBranchesFromGitHub` |

Some behaviour of the code is not what its names and pattern lists suggest. The model follows the code:

- **An upload without content is retried.** `syncFile` throws its missing-content error inside the same `try` as the store call, so the change takes the normal retry path (`Queue.MissingContentIsRetried`).
- **A root-level `package.json` is not immediate, even though the immediate list names `package.json`.** The pattern `**/package.json` is rewritten to `^.[^/]*/package.json$`, which needs a `/` after the first character (`Glob.PackageJsonDepths`). The same rewrite makes `**/*.log` match `lib/catalog`, because `.` is never escaped (`Glob.CatalogIsIgnoredAsLog`).
- **A batch that leaves batch entries behind does not reschedule itself.** `processBatchFiles` asks for a new timer while its own processing flag is still set, so the request is refused (`Queue.OverflowIsNotRescheduled`).
- **The hash comparisons of restore and initial sync compare different hashes.** The listed hash is the store's entity tag with its quotes removed (`packages/sandbox-worker/src/sync/r2-client.ts:108`), while the local hash is the hexadecimal SHA-256 of the content (`packages/sandbox-worker/src/sync/file-watcher.ts:213-215`). An entity tag is not a SHA-256 digest, so in deployment they never agree: the skip branch of `Orchestrator.RestoreFile` and the premise of `Orchestrator.MirroredStateQueuesNothing` only hold for a store whose tags are the content's SHA-256. The model keeps the comparison as the code writes it.
- **A retried entry is appended without deduplication.** Per-path uniqueness holds after `addFile` (`Queue.Enqueue`) but not after a retry (`Queue.RetryCanDuplicatePath`).
- **The reconciliation judges every reported branch against the snapshot it took before writing.** A new name reported twice is therefore inserted twice (`Branches.DuplicateNewNameInsertedTwice`). The project's set of branch names still equals the reported set.

## Model

| member | source | states |
|---|---|---|
| Seqs.Chunks | packages/sandbox-worker/src/sync/sync-queue.ts:246-252 | chunks of size n ≥ 1 concatenate back to the input, each is non-empty and at most n long, all but the last have exactly n, and there are none only for empty input |
| Glob.CompileMatchesRegexSource | packages/sandbox-worker/src/sync/file-watcher.ts:202-211 | the three text replacements of a pattern, anchored, equal the rendering of the token reading of the pattern: `**` becomes `.` followed by `[^/]*`, `*` becomes `[^/]*`, `?` becomes `[^/]`, and everything else including `.` is copied |
| Glob.RegexSource | packages/sandbox-worker/src/sync/file-watcher.ts:202-209 | the expression text is anchored by `^` and `$`, and a pattern without `*` and `?` appears between them unchanged |
| Glob.WithoutWildcardsUnchanged | packages/sandbox-worker/src/sync/file-watcher.ts:204-207 | the three replacements leave a text without `*` and `?` as it is |
| Glob.CompileTokenwise | packages/sandbox-worker/src/sync/file-watcher.ts:202-211 | the token reading has one token per pattern character: a character other than `*` gives its own token (`?` a non-slash, `.` any character but a line terminator, anything else itself), and a `*` gives a run of non-slashes or, as the first half of `**`, the `.` wildcard |
| Glob.FixedTokensMatchPointwise | packages/sandbox-worker/src/sync/file-watcher.ts:209-210 | an expression without `[^/]*` matches a path iff the path has one character per token and each token accepts its character |
| Glob.DoubleStarRendering | packages/sandbox-worker/src/sync/file-watcher.ts:204-208 | `**` ends up as the regular expression text `.[^/]*` |
| Glob.NotSlashRunSplits | packages/sandbox-worker/src/sync/file-watcher.ts:202-211 | `[^/]*` followed by the rest matches a path iff some slash-free prefix can be skipped and the rest matches what follows |
| Glob.DoubleStarSlashSplits | packages/sandbox-worker/src/sync/file-watcher.ts:202-211 | a pattern `**/` + rest matches a path iff the path has a non-line-terminator first character, then slash-free characters, then a `/`, and rest matches what follows that `/` |
| Glob.DoubleStarSlashNeedsSlash | packages/sandbox-worker/src/sync/file-watcher.ts:202-211 | a path matched by a `**/` pattern contains a `/` after its first character |
| Glob.FixedWidthPattern | packages/sandbox-worker/src/sync/file-watcher.ts:202-211 | a pattern without `*` and `?` only matches paths of its own length |
| Glob.LiteralMatchesItself | packages/sandbox-worker/src/sync/file-watcher.ts:202-211 | a pattern without `*`, `?` and line terminators matches its own text |
| Glob.SlashFreeNeverMatchesDoubleStarSlash | packages/sandbox-worker/src/sync/file-watcher.ts:202-211 | no `**/` pattern matches a root-level path |
| Glob.OneLevelDownMatched | packages/sandbox-worker/src/sync/file-watcher.ts:202-211 | `**/name` matches `dir/name` for a plain name and a one-segment directory |
| Glob.TwoLevelsDownNotMatched | packages/sandbox-worker/src/sync/file-watcher.ts:202-211 | `**/name` never matches `dir/sub/name` |
| Glob.PackageJsonDepths | packages/sandbox-worker/src/sync/file-watcher.ts:51-53 | `**/package.json` rejects `package.json`, accepts `src/package.json` and rejects `src/app/package.json` |
| Glob.UnescapedDotMatchesAnyCharacter | packages/sandbox-worker/src/sync/file-watcher.ts:40 | `**/*.log` matches any one-directory-down name that has a character before a final `log` |
| Glob.CatalogIsIgnoredAsLog | packages/sandbox-worker/src/sync/file-watcher.ts:40 | `**/*.log` matches `lib/catalog` |
| Watcher.Configure | packages/sandbox-worker/src/sync/file-watcher.ts:29-81 | the effective ignore list is the 18 defaults followed by the caller's patterns, and the immediate list is the 15 defaults followed by the caller's |
| Watcher.AnyMatchesExists | packages/sandbox-worker/src/sync/file-watcher.ts:186-194 | the left-to-right pattern scan succeeds iff some pattern in the list matches |
| Watcher.AnyMatchesAppend | packages/sandbox-worker/src/sync/file-watcher.ts:186-194 | scanning two concatenated lists succeeds iff scanning either does |
| Watcher.IsIgnored | packages/sandbox-worker/src/sync/file-watcher.ts:186-194 | a path is ignored iff some ignore pattern matches it |
| Watcher.IsImmediateSync | packages/sandbox-worker/src/sync/file-watcher.ts:196-200 | a path is immediate iff some immediate pattern matches it |
| Watcher.LeadingLiteral | packages/sandbox-worker/src/sync/file-watcher.ts:202-211 | a pattern that starts with an ordinary character only matches paths starting with it |
| Watcher.DefaultImmediatesStartWithDoubleStarSlash | packages/sandbox-worker/src/sync/file-watcher.ts:51-66 | the first 14 default immediate patterns start with `**/`, and the 15th is `/tmp/worker.log` |
| Watcher.DoubleStarSlashListsSkipRootFiles | packages/sandbox-worker/src/sync/file-watcher.ts:186-194 | a list of `**/` patterns matches no root-level path |
| Watcher.DefaultIgnoresSkipRootFiles | packages/sandbox-worker/src/sync/file-watcher.ts:30-49 | no default ignore pattern matches a root-level path |
| Watcher.DefaultImmediatesSkipRootFiles | packages/sandbox-worker/src/sync/file-watcher.ts:51-66 | no default immediate pattern matches a root-level path |
| Watcher.RootFilesUnderDefaults | packages/sandbox-worker/src/sync/file-watcher.ts:69-81 | with no caller patterns, a root-level path is neither ignored nor immediate |
| Watcher.NestedPackageJsonIsImmediate | packages/sandbox-worker/src/sync/file-watcher.ts:196-200 | under the defaults `src/package.json` is immediate and `package.json` is not |
| Watcher.HandleFileEvent | packages/sandbox-worker/src/sync/file-watcher.ts:143-184 | an event yields nothing iff its path is ignored; otherwise a change with its path and kind: unlinks and failed reads carry no content, hash or size; successful reads carry content, hash(content) and the stat size |
| Watcher.AddChange | packages/sandbox-worker/src/sync/file-watcher.ts:241-251 | a readable entry becomes an `add` with its path, content, the hash of that content and the stat size |
| Watcher.IgnoreTakesPrecedence | packages/sandbox-worker/src/sync/file-watcher.ts:146-149 | an ignored path yields nothing even when it is also immediate |
| Watcher.ScanExistingFiles | packages/sandbox-worker/src/sync/file-watcher.ts:217-263 | the loop computes `Watcher.Scanned`: every result is an `add` whose hash is the hash of its content and that came from an entry with a non-empty path, a set root and a successful read, and every such entry yields one; unreadable entries are skipped |
| Watcher.ScannedSound | packages/sandbox-worker/src/sync/file-watcher.ts:231-255 | every scanned change is the well-hashed `add` of some entry that is reported |
| Watcher.ScannedComplete | packages/sandbox-worker/src/sync/file-watcher.ts:231-255 | every reported entry's `add` is among the scanned changes |
| Watcher.Start | packages/sandbox-worker/src/sync/file-watcher.ts:83-123 | a no-op while watching; otherwise a watch is opened but not yet watching |
| Watcher.OnReady | packages/sandbox-worker/src/sync/file-watcher.ts:114-117 | the ready event of an open watch turns watching on |
| Watcher.Stop | packages/sandbox-worker/src/sync/file-watcher.ts:125-141 | a no-op unless a watch is open and ready; then everything is closed |
| Watcher.StopBeforeReadyLeavesWatchOpen | packages/sandbox-worker/src/sync/file-watcher.ts:125-128 | a stop before the ready event does nothing, so a later ready event still starts watching |
| Gitignore.SplitLines | packages/sandbox-worker/src/sync/file-sync.ts:438 | splitting at newlines gives at least one piece and no piece contains a newline |
| Gitignore.SplitLinesRoundTrip | packages/sandbox-worker/src/sync/file-sync.ts:438 | joining the pieces with newlines gives back the content |
| Gitignore.Trim | packages/sandbox-worker/src/sync/file-sync.ts:439 | the trimmed line is a slice with only white space cut off on either side, and it neither starts nor ends with white space |
| Gitignore.KeptLines | packages/sandbox-worker/src/sync/file-sync.ts:438-440 | the kept lines are exactly the trimmed lines that are non-empty and do not start with `#`: each such trimmed line is in the result, and every result is the trimmed text of some line |
| Gitignore.SplitLinesAppend | packages/sandbox-worker/src/sync/file-sync.ts:438 | splitting `a` + newline + `b` gives the pieces of `a` followed by those of `b` |
| Gitignore.KeptLinesInOrder | packages/sandbox-worker/src/sync/file-sync.ts:438-440 | the kept lines of `a` + newline + `b` are those of `a` followed by those of `b`, and a single line is kept, trimmed, iff it passes the filter; so the kept lines follow file order |
| Gitignore.LinePatterns | packages/sandbox-worker/src/sync/file-sync.ts:443-455 | `/x` gives `x`; otherwise `x/` gives `x/**` and `x`; otherwise `x` gives `x` and `**/x` |
| Gitignore.TranslateLines | packages/sandbox-worker/src/sync/file-sync.ts:442-456 | the lines give at least one and at most two patterns each, counted over the whole list |
| Gitignore.TranslateLinesAppend | packages/sandbox-worker/src/sync/file-sync.ts:442-456 | translating two runs of lines gives the patterns of the first followed by those of the second |
| Gitignore.TranslateLinesSingle | packages/sandbox-worker/src/sync/file-sync.ts:442-456 | one line translates to exactly its `LinePatterns`; with `Gitignore.TranslateLinesAppend`, the result is each line's patterns in line order |
| Gitignore.TranslateLinesCovers | packages/sandbox-worker/src/sync/file-sync.ts:442-456 | every pattern of every line is in the result, and every pattern in the result comes from some line |
| Gitignore.ReadGitignorePatterns | packages/sandbox-worker/src/sync/file-sync.ts:431-465 | a missing or unreadable file gives no patterns; a readable file gives exactly the patterns of its kept lines |
| Gitignore.GitignorePatternsInOrder | packages/sandbox-worker/src/sync/file-sync.ts:431-465 | the patterns of `a` + newline + `b` are those of `a` followed by those of `b` |
| Gitignore.MergeIgnorePatterns | packages/sandbox-worker/src/sync/file-sync.ts:423-426 | the caller's patterns come first, followed by the file's patterns |
| Gitignore.PlainLineIgnoresItsPath | packages/sandbox-worker/src/sync/file-sync.ts:443-455 | a line without wildcards has a pattern that matches the root-level path it names |
| Gitignore.DirectoryLineCoversOneLevel | packages/sandbox-worker/src/sync/file-sync.ts:447-450 | `dir/` makes `dir/**`, which matches `dir/child` but never `dir/child/sub` |
| ObjectStore.Key | packages/sandbox-worker/src/sync/r2-client.ts:36 | a key is the sandbox prefix (id and `/`) followed by the path |
| ObjectStore.CutFront | packages/sandbox-worker/src/sync/r2-client.ts:105 | cutting n characters leaves the rest of the key, or nothing when the key is shorter |
| ObjectStore.StripQuotes | packages/sandbox-worker/src/sync/r2-client.ts:108 | the result has no `"` and is the text itself when it had none |
| ObjectStore.QuotedTagUnquoted | packages/sandbox-worker/src/sync/r2-client.ts:108 | a quoted entity tag loses exactly its quotes |
| ObjectStore.Entry | packages/sandbox-worker/src/sync/r2-client.ts:103-112 | an object is skipped iff its key is missing, empty or the bare prefix; otherwise the path is the key without the prefix, the hash is the tag without quotes (or empty) and the size defaults to 0 |
| ObjectStore.PageFiles | packages/sandbox-worker/src/sync/r2-client.ts:102-114 | every non-skipped object of a page gives a file, and every file comes from such an object |
| ObjectStore.ListFrom | packages/sandbox-worker/src/sync/r2-client.ts:91-124 | a failed first request fails the listing with that error, and a successful listing began with a page |
| ObjectStore.ListFiles | packages/sandbox-worker/src/sync/r2-client.ts:86-125 | a failed first request fails the listing with its error, a single last page gives that page's files with the prefix cut off, and no answer at all is an error |
| ObjectStore.ListingStopsAtLastPage | packages/sandbox-worker/src/sync/r2-client.ts:93-117 | when page k is the first without a continuation token, the listing is the files of pages 0..k in order and later answers are never used |
| ObjectStore.ListingFailsAtFailedPage | packages/sandbox-worker/src/sync/r2-client.ts:121-124 | a failed request after continuing pages fails the listing with its error |
| ObjectStore.ListAll | packages/sandbox-worker/src/sync/r2-client.ts:86-125 | the request loop yields exactly the listing |
| ObjectStore.KeyRoundTrip | packages/sandbox-worker/src/sync/r2-client.ts:87-111 | listing the key of a non-empty path gives that path back; the key of the empty path is skipped |
| ObjectStore.UploadFile | packages/sandbox-worker/src/sync/r2-client.ts:35-57 | the object under the file's key holds the content, its hash and its length; no other key changes |
| ObjectStore.DeleteFile | packages/sandbox-worker/src/sync/r2-client.ts:127-142 | the file's key is gone and no other key changes |
| ObjectStore.GetObject | packages/sandbox-worker/src/sync/r2-client.ts:63-68 | a read yields the stored body iff the key exists, and `NoSuchKey` otherwise |
| ObjectStore.DownloadFile | packages/sandbox-worker/src/sync/r2-client.ts:59-84 | bytes iff the answer has a body; nothing for a missing body or `NoSuchKey`; any other error is passed on |
| ObjectStore.FileExists | packages/sandbox-worker/src/sync/r2-client.ts:144-161 | true iff the read succeeded, false iff it answered `NoSuchKey`, and any other error is passed on |
| ObjectStore.UploadThenDownload | packages/sandbox-worker/src/sync/r2-client.ts:35-84 | what is uploaded downloads unchanged and exists |
| ObjectStore.DeleteThenDownload | packages/sandbox-worker/src/sync/r2-client.ts:59-161 | a deleted file downloads as nothing and does not exist |
| ObjectStore.KeysSeparateSandboxes | packages/sandbox-worker/src/sync/r2-client.ts:36 | for sandbox ids without `/`, two keys are equal iff both sandbox and path are |
| ObjectStore.Cleanup | packages/sandbox-worker/src/sync/r2-client.ts:167-192 | a failed listing fails the cleanup; otherwise the deletion groups cover every listed key once, in order, at most ten at a time, and there are none iff the listing is empty |
| ObjectStore.DeleteKeys | packages/sandbox-worker/src/sync/r2-client.ts:180-185 | deleting a sequence of keys removes exactly those keys, and every other object keeps its value |
| ObjectStore.CleanupEmptiesListedFiles | packages/sandbox-worker/src/sync/r2-client.ts:167-192 | after a cleanup no listed file remains and every other object is unchanged |
| Queue.OfPriority | packages/sandbox-worker/src/sync/sync-queue.ts:62 | the entries of one priority, each from the queue, and every such entry present |
| Queue.PriorityPartition | packages/sandbox-worker/src/sync/sync-queue.ts:234-235 | the immediate and the batch entries together are the queue, as a multiset and by count |
| Queue.WithoutPath | packages/sandbox-worker/src/sync/sync-queue.ts:39 | no remaining entry has the path, and every entry for another path remains |
| Queue.Enqueue | packages/sandbox-worker/src/sync/sync-queue.ts:38-48 | every entry for the path is removed, one fresh entry with retry count 0 and the given priority is appended, and unique paths stay unique |
| Queue.EnqueueKeepsOthers | packages/sandbox-worker/src/sync/sync-queue.ts:38-48 | an entry for another path survives enqueueing |
| Queue.LastWriteWins | packages/sandbox-worker/src/sync/sync-queue.ts:38-48 | queueing two changes for one path keeps only the second |
| Queue.ScheduleBatch | packages/sandbox-worker/src/sync/sync-queue.ts:82-90 | a timer is armed afterwards iff one already was or no batch is processing; nothing else changes |
| Queue.ProcessImmediate | packages/sandbox-worker/src/sync/sync-queue.ts:61-80 | exactly the immediate entries are dispatched, in order, in groups of at most five; the batch entries remain in order |
| Queue.AddFile | packages/sandbox-worker/src/sync/sync-queue.ts:32-59 | a stopped queue is unchanged and dispatches nothing; a batch change is enqueued and the timer scheduled; for an immediate change exactly the immediates of the enqueued queue are dispatched, in groups of one to five, the batch entries stay queued, and no flag changes |
| Queue.AddFileKeepsOthers | packages/sandbox-worker/src/sync/sync-queue.ts:32-59 | an entry for another path is still queued afterwards or was just dispatched |
| Queue.AddFileDeliversItself | packages/sandbox-worker/src/sync/sync-queue.ts:38-59 | on a running queue the added change is afterwards queued or dispatched as a fresh entry with its priority |
| Queue.DropBatch | packages/sandbox-worker/src/sync/sync-queue.ts:111-113 | taking out the first n batch entries leaves the immediates and the remaining batch entries in order, nothing else lost |
| Queue.BeginBatch | packages/sandbox-worker/src/sync/sync-queue.ts:92-122 | nothing happens while processing or stopped; otherwise the first min(batchSize, #batch) batch entries are taken out and dispatched in groups of at most three |
| Queue.EndBatch | packages/sandbox-worker/src/sync/sync-queue.ts:124-131 | processing ends and the timer stays as it was |
| Queue.ProcessBatch | packages/sandbox-worker/src/sync/sync-queue.ts:92-132 | nothing happens while processing or stopped; otherwise one batch is dispatched and processing ends |
| Queue.OverflowIsNotRescheduled | packages/sandbox-worker/src/sync/sync-queue.ts:124-127 | when more batch entries are queued than one batch takes, batch entries remain and no timer is armed |
| Queue.SyncFile | packages/sandbox-worker/src/sync/sync-queue.ts:134-182 | an unlink deletes its key and other changes upload only with content; success iff a call was made and succeeded; otherwise a retry with count+1 after 2^(count+1) seconds iff the count is below the limit, else giving up |
| Queue.AlwaysFailing | packages/sandbox-worker/src/sync/sync-queue.ts:156-181 | a file that always fails is retried until its count reaches the limit, with delays 2^1, 2^2, … seconds, and then given up once |
| Queue.MissingContentIsRetried | packages/sandbox-worker/src/sync/sync-queue.ts:143-145 | an upload without content is retried like any failure |
| Queue.RetryFire | packages/sandbox-worker/src/sync/sync-queue.ts:165-174 | the retry timer does nothing on a stopped queue. Otherwise the entry is appended as it is and processed by its priority. A batch retry re-arms the timer. An immediate retry dispatches the queued immediates followed by the retried entry, and leaves only the batch entries with the rest of the state unchanged |
| Queue.RetryCanDuplicatePath | packages/sandbox-worker/src/sync/sync-queue.ts:167 | a retried batch entry whose path is queued again leaves two entries for the path |
| Queue.Stop | packages/sandbox-worker/src/sync/sync-queue.ts:202-214 | the queue is stopped, emptied and its timer cleared; the processing flag is kept |
| Queue.StoppedQueueTakesNothing | packages/sandbox-worker/src/sync/sync-queue.ts:33-36 | after stop, neither a new change nor a retry enters the queue |
| Queue.Start | packages/sandbox-worker/src/sync/sync-queue.ts:216-225 | the queue runs again. Leftover immediates are dispatched in groups of one to five, and the batch entries stay in order. The timer is scheduled for the batch entries unless a flush is in progress, and the processing flag is unchanged |
| Queue.RestartAfterStop | packages/sandbox-worker/src/sync/sync-queue.ts:202-225 | stop followed by start leaves an empty, running queue with no timer |
| Queue.Status | packages/sandbox-worker/src/sync/sync-queue.ts:227-244 | the total equals immediate plus batch counts, and the flags are reported as they are |
| Queue.ProcessImmediateConserves | packages/sandbox-worker/src/sync/sync-queue.ts:61-80 | immediate processing neither loses nor invents an entry |
| Queue.ProcessBatchConserves | packages/sandbox-worker/src/sync/sync-queue.ts:92-132 | batch processing neither loses nor invents an entry |
| Queue.FlushPass | packages/sandbox-worker/src/sync/sync-queue.ts:194-197 | one pass of the flush loop does nothing on an empty or stopped queue, conserves the entries, and ends with no batch processing |
| Queue.FlushPassProgresses | packages/sandbox-worker/src/sync/sync-queue.ts:194-197 | with no batch running and a positive batch size, a pass shortens a non-empty running queue |
| Queue.FlushStallsWhileProcessing | packages/sandbox-worker/src/sync/sync-queue.ts:93-95 | while a batch runs, a pass over only batch entries changes nothing |
| Queue.FlushStallsWithEmptyBatches | packages/sandbox-worker/src/sync/sync-queue.ts:101-107 | with batch size 0, a pass over only batch entries dispatches nothing |
| Queue.Flush | packages/sandbox-worker/src/sync/sync-queue.ts:184-200 | with no batch running and a positive batch size, the queue ends empty (or was stopped) and every entry is dispatched exactly once |
| Orchestrator.OrDefault | packages/sandbox-worker/src/sync/file-sync.ts:39-46 | a missing setting takes its default value, and a given one is kept |
| Orchestrator.Construct | packages/sandbox-worker/src/sync/file-sync.ts:38-77 | the queue gets batch size 10, interval 30000 and 3 retries unless given, and the watcher gets the root, the ignore list made of the 18 built-in patterns, the caller's patterns and the `.gitignore` patterns in that order, and the immediate list made of the 15 built-in patterns followed by the caller's |
| Orchestrator.ConstructedIgnores | packages/sandbox-worker/src/sync/file-sync.ts:58-66 | a path is ignored iff a default, a caller's or a `.gitignore` pattern matches it |
| Orchestrator.PriorityFor | packages/sandbox-worker/src/sync/file-sync.ts:349 | the priority is immediate iff the path is immediate |
| Orchestrator.RestoreFile | packages/sandbox-worker/src/sync/file-sync.ts:210-250 | an empty path or root fails with its message; the file is skipped iff a readable local copy has the listed hash; otherwise it is written iff the download delivers bytes, and fails otherwise |
| Orchestrator.Apply | packages/sandbox-worker/src/sync/file-sync.ts:248 | only a restore writes the local file |
| Orchestrator.RestoreAll | packages/sandbox-worker/src/sync/file-sync.ts:171-191 | every listed file counts as restored or as one error, and paths not listed are untouched |
| Orchestrator.RestoreBringsFile | packages/sandbox-worker/src/sync/file-sync.ts:174-191 | with distinct paths, a file the store delivers ends up local: an up-to-date local copy is kept, anything else is replaced by the downloaded content |
| Orchestrator.ListsManifest | packages/sandbox-worker/src/sync/file-sync.ts:200 | true iff some listed path is `package.json` |
| Orchestrator.DetectPackageManager | packages/sandbox-worker/src/sync/file-sync.ts:330-344 | pnpm iff its lockfile exists, yarn iff only the yarn one does, npm otherwise |
| Orchestrator.RestoreFromStore | packages/sandbox-worker/src/sync/file-sync.ts:158-208 | a listing failure is reported as "R2 restore" and not rethrown and leaves the tree as it was; otherwise the tree, the restored count and the errors are those of restoring every listed file in turn (so every file is restored or recorded as an error), paths not listed are untouched, and the package manager is detected on the restored tree |
| Orchestrator.RestoreFromStoreBringsFile | packages/sandbox-worker/src/sync/file-sync.ts:171-191 | with distinct listed paths, a file the store delivers is in the restored tree: an up-to-date local copy is kept, anything else is replaced by the downloaded content |
| Orchestrator.RemoteHash | packages/sandbox-worker/src/sync/file-sync.ts:261-268 | a path has a remote hash iff the listing has an entry for it |
| Orchestrator.RemoteHashIsLastEntry | packages/sandbox-worker/src/sync/file-sync.ts:261 | the hash found is that of the last listing entry for the path, as in a `Map` built from the listing |
| Orchestrator.Uploads | packages/sandbox-worker/src/sync/file-sync.ts:266-272 | exactly the local files that have no remote entry or a different hash are uploaded, each taken from the scan |
| Orchestrator.UploadsInScanOrder | packages/sandbox-worker/src/sync/file-sync.ts:266-272 | the uploads of two consecutive parts of the scan are those of the first part followed by those of the second, so uploads keep scan order |
| Orchestrator.UploadsSingle | packages/sandbox-worker/src/sync/file-sync.ts:266-272 | a single file is uploaded iff it needs uploading |
| Orchestrator.Deletions | packages/sandbox-worker/src/sync/file-sync.ts:275-282 | exactly the remote paths without a local file are queued as unlinks |
| Orchestrator.Diff | packages/sandbox-worker/src/sync/file-sync.ts:260-282 | the changes start with exactly the uploads and continue only with unlinks of remote-only paths; every needed upload and every remote-only path is among them |
| Orchestrator.OneSidedPathsAreSynced | packages/sandbox-worker/src/sync/file-sync.ts:266-282 | a local-only file is uploaded and a remote-only path is unlinked |
| Orchestrator.MirroredStateQueuesNothing | packages/sandbox-worker/src/sync/file-sync.ts:260-287 | when every local file has the hash listed for its path and every listed path is local, there is nothing to sync |
| Orchestrator.QueueAll | packages/sandbox-worker/src/sync/file-sync.ts:292-295 | queueing neither starts nor stops the queue, and a stopped queue takes nothing |
| Orchestrator.QueueAllKeeps | packages/sandbox-worker/src/sync/file-sync.ts:292-295 | an entry for a path none of the changes touch stays queued or is dispatched |
| Orchestrator.QueueAllDelivers | packages/sandbox-worker/src/sync/file-sync.ts:292-295 | a change not overtaken by a later one for its path reaches the queue with its path's priority |
| Orchestrator.InitialSync | packages/sandbox-worker/src/sync/file-sync.ts:252-304 | a scan failure, or else a listing failure, is reported as "Initial sync" and its own error is rethrown; an empty diff changes nothing; otherwise the diff is queued and the total becomes the local count |
| Orchestrator.Walked | packages/sandbox-worker/src/sync/file-watcher.ts:234-250 | the walk reads each path from the local tree: readable files give their content and length, others fail |
| Orchestrator.Initialize | packages/sandbox-worker/src/sync/file-sync.ts:79-103 | a no-op when initialized; otherwise restore, then initial sync; the flag is set iff both phases succeed, a failure rethrows the walk's error, or else the listing's, and is reported as "FileSync initialization", and on success the queue, statistics and dispatches are those of the initial sync over the scan of the restored tree |
| Orchestrator.Start | packages/sandbox-worker/src/sync/file-sync.ts:105-128 | refused iff not initialized, a no-op while running, otherwise queue then watcher are started |
| Orchestrator.Stop | packages/sandbox-worker/src/sync/file-sync.ts:130-156 | a no-op unless running; otherwise the watcher stops, the queue is flushed with every entry dispatched once, and the queue is stopped |
| Orchestrator.Cleanup | packages/sandbox-worker/src/sync/file-sync.ts:397-414 | the engine ends not running, and a non-running engine is unchanged. For a running engine, the watcher is stopped and every queued entry is flushed (the same multiset). The queue ends stopped, empty and with no timer. The initialized flag and the statistics are unchanged |
| Orchestrator.IsActive | packages/sandbox-worker/src/sync/file-sync.ts:416-418 | active iff running and the watcher is watching |
| Orchestrator.ActiveOnlyAfterReady | packages/sandbox-worker/src/sync/file-sync.ts:105-128 | a freshly started engine is not active until the watcher's ready event |
| Orchestrator.OnFileChange | packages/sandbox-worker/src/sync/file-sync.ts:346-357 | the change is offered to the queue with its path's priority, and the queued counter goes up either way |
| Orchestrator.HandleSyncResult | packages/sandbox-worker/src/sync/file-sync.ts:359-375 | a success or a failure is counted, and the queued counter goes down but never below zero |
| Orchestrator.OnSyncOutcome | packages/sandbox-worker/src/sync/sync-queue.ts:154-179 | success and giving up are reported to the statistics, a scheduled retry is not |
| Orchestrator.GetStats | packages/sandbox-worker/src/sync/file-sync.ts:389-395 | the stored counters, with queuedFiles replaced by the queue's length |
| Orchestrator.ChangeWhileStoppedIsInvisible | packages/sandbox-worker/src/sync/file-sync.ts:346-357 | a change while the queue is stopped raises the stored counter but not the reported statistics |
| Branches.Patch | packages/convex/branches.ts:47-52 | only the row with the id gets the new commit, url, protection and organisation; ids are unchanged and validity is kept |
| Branches.Insert | packages/convex/branches.ts:56-63 | a row with a fresh id is appended and validity is kept |
| Branches.Delete | packages/convex/branches.ts:98 | the rows with the id disappear, every other row stays, and validity is kept |
| Branches.ProjectRows | packages/convex/branches.ts:85-88 | the project's rows: each is in the table, and every row of the project is included |
| Branches.FindByName | packages/convex/branches.ts:39-43 | nothing iff no row has the name; otherwise the first row with that name |
| Branches.UpsertBranch | packages/convex/branches.ts:38-65 | patches the project's first branch of that name and returns its id, and the table is then exactly that patch (other rows unchanged; id, project and name kept); otherwise inserts one row and returns the fresh id; either way a row with exactly the given fields exists afterwards |
| Branches.UpsertKeepsOtherProjects | packages/convex/branches.ts:45-63 | the upsert adds the name to its project, changes no other project's names, and leaves other projects' rows untouched |
| Branches.UpsertAddsAtMostOne | packages/convex/branches.ts:45-63 | the upsert grows its project's branch count by at most one |
| Branches.SyncBranches | packages/convex/branches.ts:83-130 | reconciliation keeps the table valid; the values written are those of `Branches.SyncWritesReport` |
| Branches.SyncLeavesOtherProjects | packages/convex/branches.ts:85-88 | other projects' rows are exactly as before |
| Branches.PrunedRows | packages/convex/branches.ts:95-100 | after the deletions, a project row remains iff its name is reported, and other projects' rows are untouched |
| Branches.PrunedNames | packages/convex/branches.ts:95-100 | after the deletions the project's names are its old names that are still reported |
| Branches.SyncDeletesExactlyMissing | packages/convex/branches.ts:90-100 | a project branch's id survives iff its name is reported |
| Branches.SyncNamesMatchIncoming | packages/convex/branches.ts:96-127 | afterwards the project's branch names are exactly the reported names |
| Branches.DeleteMissing | packages/convex/branches.ts:95-100 | keeps exactly the rows whose id is not that of a snapshot branch with an unreported name, and keeps validity and the id counter |
| Branches.ApplyOne | packages/convex/branches.ts:104-126 | for one report, rows it does not target are unchanged and the targeted row (a known branch whose commit or protection differs) is patched; a known name adds no row, and an unknown name appends one row with the counter's id |
| Branches.ApplyIncoming | packages/convex/branches.ts:103-127 | the upsert loop never lowers the id counter and keeps the table valid |
| Branches.ReportWritten | packages/convex/branches.ts:108-114 | the written branch keeps its id, project and name, and carries the report's commit and protection |
| Branches.ApplyIncomingWritesReport | packages/convex/branches.ts:103-127 | a known branch reported once ends the loop carrying its report's commit and protection |
| Branches.ApplyIncomingInsertsReport | packages/convex/branches.ts:116-126 | an unknown reported name ends the loop as a row with the report's fields under an id at or beyond the counter |
| Branches.SyncWritesReport | packages/convex/branches.ts:83-127 | after reconciliation a name reported once has a project row with the report's commit and protection: a changed known branch is patched under its id, an unchanged one stays as stored, and a new name gets a row with an id not used before |
| Branches.UrlOnlyChangeNotWritten | packages/convex/branches.ts:104-115 | a matched branch whose reports all agree on commit and protection is left as stored, old url included |
| Branches.DuplicateNewNameInsertedTwice | packages/convex/branches.ts:103-126 | a new name reported twice gets two rows with consecutive fresh ids |
| Branches.ApplyIncomingEffect | packages/convex/branches.ts:103-127 | the upsert loop leaves other projects' rows alone, keeps every row no patch targets, and adds exactly the names the snapshot does not know |
| Branches.ApplyIncomingIds | packages/convex/branches.ts:103-127 | the upsert loop keeps every id and adds only fresh ones |

## Left out

- File system, directory walking and watching (chokidar, fast-glob, `readFile`, `stat`, `existsSync`, `mkdir`, `writeFile`) are inputs: a map from path to readable content, the walker's list of paths and the watch events.
- `path.relative`, `path.join` and `path.resolve` are not modelled: paths are already root-relative and are not normalised.
- Failures of `mkdir` and `writeFile` during a restore are not modelled; a download that delivers bytes always lands.
- SHA-256 is a parameter, not computed.
- The S3 SDK is not modelled beyond the answers it returns (pages, bodies, error names); its retries and credentials are not part of this model.
- Timers and `Promise.all` interleaving are left out. Each timer firing is its own transition, and the syncs of a group are treated as happening one after another.
- `Date` fields (`addedAt`, `lastSyncTime`, upload `lastModified`, listing `LastModified`) and all logging are left out.
- `runPackageInstall` only logs; the model keeps only the package-manager detection it would use.
- Queue.Flush: requires a positive batch size and no batch in flight, because otherwise the source loop can run forever (`Queue.FlushStallsWhileProcessing`, `Queue.FlushStallsWithEmptyBatches` show both cases).
- Orchestrator.Stop: has the same requirement as `Queue.Flush`, since it runs the flush loop.
- Orchestrator.Stop: a failure to close the watcher is not modelled. In the source it is rethrown (file-watcher.ts:137-140), and `stop` then reports "FileSync stop" and rethrows without flushing or stopping the queue (file-sync.ts:151-155); the model always flushes.
- Orchestrator.Cleanup: has the same requirement as `Queue.Flush`, since it runs the flush loop.
- ObjectStore.ListFrom: when the supplied answers run out before a last page, it returns an error, because the real store always eventually answers a page without a continuation token.
- Glob.Matches: regular-expression metacharacters other than `.` (`+ ( ) [ ] { } ^ $ | \`) are read as literal characters; none occurs in the default patterns.
- Glob.Matches: a pattern with an unbalanced `(` or `[` (possible from a `.gitignore` line) makes `new RegExp` throw a `SyntaxError` (packages/sandbox-worker/src/sync/file-watcher.ts:209), which `handleFileEvent` catches and reports (file-watcher.ts:180-183); the model reads the character literally and matches instead.
- Glob.Matches: JavaScript expressions without the `u` flag match one UTF-16 code unit per `.`, `[^/]` and `?`, while a Dafny `char` is a whole Unicode scalar value; so `?` rejects a character outside the Basic Multilingual Plane (such as an emoji) in the source but accepts it here.
- Watcher.Start: failures thrown while creating the watch, and the watcher's `error` events, are not modelled.
- Restores inside one concurrency group run in listing order; the model does not explore other orders.
- Cleanup's individual delete failures (which abort the cleanup) are not modelled; every delete of a group succeeds.
- `handleSyncError` and `handleError` forward errors to a caller-supplied callback; the model records the reports but not the callback.
- The Convex `orgId` field being absent versus `undefined` is not distinguished; it is an `Option`.

=== FILE: base.dfy ===
/** Shared vocabulary of the file-sync model: optional values, results with
    an error payload, byte buffers and the content hash. */
module Base {

  /** A value that may be absent (a TypeScript `T | undefined` or `T | null`). */
  datatype Option<+T> = None | Some(value: T)

  /** The outcome of an operation that may throw: `Err` carries the error's
      name or message. */
  datatype Result<+T> = Ok(value: T) | Err(error: string)

  /** A Node.js `Buffer`. */
  type Bytes = seq<bv8>

  /** The content addressor: hex SHA-256 (FIPS 180-4, section 6.2) of a buffer.
      It is a parameter of every operation that hashes, so nothing beyond
      determinism is assumed of it. */
  type Hasher = Bytes -> string
}

=== FILE: branches.dfy ===
/** Branch records of a project (convex/branches.ts): the single-branch
    upsert and the reconciliation of a project's branches with the list the
    code host reports. The database table is a sequence of rows in creation
    order, each with a unique id, and a counter that provides fresh ids. */
module Branches {
  import opened Base

  datatype Branch = Branch(
    id: nat,
    projectId: string,
    name: string,
    commitSha: string,
    commitUrl: string,
    protected: bool,
    orgId: Option<string>)

  datatype Table = Table(rows: seq<Branch>, nextId: nat)

  /** Ids are unique and below the counter. */
  predicate Valid(t: Table)
  {
    (forall i :: 0 <= i < |t.rows| ==> t.rows[i].id < t.nextId) && DistinctIds(t.rows)
  }

  predicate DistinctIds(rows: seq<Branch>)
  {
    forall i, j :: 0 <= i < j < |rows| ==> rows[i].id != rows[j].id
  }

  // ------------------------------------------------ table primitives

  /** A row with new commit, protection and organisation fields. */
  function Patched(b: Branch, sha: string, url: string, prot: bool, org: Option<string>): Branch
  {
    b.(commitSha := sha, commitUrl := url, protected := prot, orgId := org)
  }

  /** `db.patch`: the row with the id gets the new fields; ids, projects and
      names of all rows stay as they are. */
  function Patch(t: Table, id: nat, sha: string, url: string, prot: bool, org: Option<string>): (r: Table)
    ensures r.nextId == t.nextId && |r.rows| == |t.rows|
    ensures forall i :: 0 <= i < |t.rows| ==>
              r.rows[i] == (if t.rows[i].id == id then Patched(t.rows[i], sha, url, prot, org) else t.rows[i])
    ensures Valid(t) ==> Valid(r)
  {
    Table(seq(|t.rows|, i requires 0 <= i < |t.rows| =>
                if t.rows[i].id == id then Patched(t.rows[i], sha, url, prot, org) else t.rows[i]),
          t.nextId)
  }

  /** `db.insert`: a new row with a fresh id at the end. */
  function Insert(t: Table, projectId: string, name: string, sha: string, url: string,
                  prot: bool, org: Option<string>): (r: Table)
    ensures r.rows == t.rows + [Branch(t.nextId, projectId, name, sha, url, prot, org)]
    ensures r.nextId == t.nextId + 1
    ensures Valid(t) ==> Valid(r)
  {
    Table(t.rows + [Branch(t.nextId, projectId, name, sha, url, prot, org)], t.nextId + 1)
  }

  function DeleteRows(rows: seq<Branch>, id: nat): (r: seq<Branch>)
    ensures forall x :: x in r ==> x in rows && x.id != id
    ensures forall x :: x in rows && x.id != id ==> x in r
  {
    if |rows| == 0 then []
    else if rows[0].id == id then DeleteRows(rows[1..], id)
    else [rows[0]] + DeleteRows(rows[1..], id)
  }

  /** Deleting keeps ids distinct. */
  lemma {:induction false} DeleteRowsDistinct(rows: seq<Branch>, id: nat)
    requires DistinctIds(rows)
    ensures DistinctIds(DeleteRows(rows, id))
  {
    if |rows| > 0 {
      var tl := rows[1..];
      DistinctTail(rows);
      DeleteRowsDistinct(tl, id);
      var rest := DeleteRows(tl, id);
      if rows[0].id != id {
        assert DeleteRows(rows, id) == [rows[0]] + rest;
        forall y | y in rest ensures y.id != rows[0].id {
          HeadIdDistinct(rows, y);
        }
        DistinctCons(rows[0], rest);
      }
    }
  }

  lemma DistinctTail(rows: seq<Branch>)
    requires DistinctIds(rows) && |rows| > 0
    ensures DistinctIds(rows[1..])
  {
    var tl := rows[1..];
    forall i, j | 0 <= i < j < |tl| ensures tl[i].id != tl[j].id {
      assert tl[i] == rows[i + 1] && tl[j] == rows[j + 1];
    }
  }

  lemma DistinctCons(x: Branch, rest: seq<Branch>)
    requires DistinctIds(rest)
    requires forall y :: y in rest ==> y.id != x.id
    ensures DistinctIds([x] + rest)
  {
    var r := [x] + rest;
    forall i, j | 0 <= i < j < |r| ensures r[i].id != r[j].id {
      assert r[j] == rest[j - 1];
      if i > 0 {
        assert r[i] == rest[i - 1];
      }
    }
  }

  lemma HeadIdDistinct(rows: seq<Branch>, x: Branch)
    requires DistinctIds(rows) && |rows| > 0 && x in rows[1..]
    ensures x.id != rows[0].id
  {
    var k :| 0 <= k < |rows| - 1 && rows[1..][k] == x;
    assert rows[k + 1] == x;
  }

  /** `db.delete`: the row with the id disappears, every other row stays. */
  function Delete(t: Table, id: nat): (r: Table)
    ensures r.nextId == t.nextId
    ensures forall x :: x in r.rows ==> x in t.rows && x.id != id
    ensures forall x :: x in t.rows && x.id != id ==> x in r.rows
    ensures Valid(t) ==> Valid(r)
  {
    var rows := DeleteRows(t.rows, id);
    assert Valid(t) ==> Valid(Table(rows, t.nextId)) by {
      if Valid(t) {
        DeleteRowsDistinct(t.rows, id);
        forall i | 0 <= i < |rows| ensures rows[i].id < t.nextId {
          assert rows[i] in t.rows;
        }
      }
    }
    Table(rows, t.nextId)
  }

  // ------------------------------------------------------------ queries

  /** The rows of a project in table order (the `by_project` index). */
  function ProjectRows(rows: seq<Branch>, projectId: string): (r: seq<Branch>)
    ensures forall i :: 0 <= i < |r| ==> r[i].projectId == projectId && r[i] in rows
    ensures forall i :: 0 <= i < |rows| && rows[i].projectId == projectId ==> rows[i] in r
  {
    if |rows| == 0 then []
    else if rows[0].projectId == projectId then [rows[0]] + ProjectRows(rows[1..], projectId)
    else ProjectRows(rows[1..], projectId)
  }

  /** The first row with the name. */
  function FindByName(rows: seq<Branch>, name: string): (r: Option<Branch>)
    ensures r.None? <==> forall i :: 0 <= i < |rows| ==> rows[i].name != name
    ensures r.Some? ==> r.value in rows && r.value.name == name
    ensures r.Some? ==> exists i :: 0 <= i < |rows| && rows[i] == r.value &&
                          forall k :: 0 <= k < i ==> rows[k].name != name
  {
    if |rows| == 0 then None
    else if rows[0].name == name then Some(rows[0])
    else
      var r := FindByName(rows[1..], name);
      assert forall i :: 1 <= i < |rows| ==> rows[1..][i - 1] == rows[i];
      assert r.Some? ==> exists i :: 0 <= i < |rows| && rows[i] == r.value &&
                            forall k :: 0 <= k < i ==> rows[k].name != name by {
        if r.Some? {
          var i :| 0 <= i < |rows[1..]| && rows[1..][i] == r.value &&
                   forall k :: 0 <= k < i ==> rows[1..][k].name != name;
          assert rows[i + 1] == r.value;
          assert forall k :: 1 <= k < i + 1 ==> rows[k] == rows[1..][k - 1];
        }
      }
      r
  }

  /** The branch names a project has. */
  function NameSet(rows: seq<Branch>, projectId: string): set<string>
  {
    set i | 0 <= i < |rows| && rows[i].projectId == projectId :: rows[i].name
  }

  /** Rows of other projects are the same before and after. */
  ghost predicate SameOthers(a: seq<Branch>, b: seq<Branch>, projectId: string)
  {
    forall x: Branch :: x.projectId != projectId ==> (x in a <==> x in b)
  }

  // ------------------------------------------------------- upsertBranch

  datatype UpsertResult = UpsertResult(table: Table, id: nat)

  /** `upsertBranch`: the project's first branch of that name gets the new
      commit, url, protection and organisation and its id is returned;
      without one, a new branch is inserted and its id returned. Either way
      the project then has a branch with exactly these fields. */
  function UpsertBranch(t: Table, projectId: string, name: string, sha: string, url: string,
                        prot: bool, org: Option<string>): (r: UpsertResult)
    requires Valid(t)
    ensures Valid(r.table)
    ensures Branch(r.id, projectId, name, sha, url, prot, org) in r.table.rows
    ensures FindByName(ProjectRows(t.rows, projectId), name).Some? ==>
              r.id == FindByName(ProjectRows(t.rows, projectId), name).value.id &&
              r.table == Patch(t, r.id, sha, url, prot, org)
    ensures FindByName(ProjectRows(t.rows, projectId), name).None? ==>
              r.id == t.nextId && |r.table.rows| == |t.rows| + 1 && r.table.rows[..|t.rows|] == t.rows
  {
    match FindByName(ProjectRows(t.rows, projectId), name)
    case Some(e) =>
      var r := Patch(t, e.id, sha, url, prot, org);
      assert Branch(e.id, projectId, name, sha, url, prot, org) in r.rows by {
        var i :| 0 <= i < |t.rows| && t.rows[i] == e;
        assert r.rows[i] == Branch(e.id, projectId, name, sha, url, prot, org);
      }
      UpsertResult(r, e.id)
    case None =>
      var r := Insert(t, projectId, name, sha, url, prot, org);
      assert r.rows[..|t.rows|] == t.rows;
      UpsertResult(r, t.nextId)
  }

  /** An upsert adds the name to its project (where it may already be) and
      changes no other project's names or rows. */
  lemma UpsertKeepsOtherProjects(t: Table, projectId: string, name: string, sha: string, url: string,
                                 prot: bool, org: Option<string>)
    requires Valid(t)
    ensures var r := UpsertBranch(t, projectId, name, sha, url, prot, org);
            (forall p :: NameSet(r.table.rows, p) == NameSet(t.rows, p) + (if p == projectId then {name} else {})) &&
            SameOthers(r.table.rows, t.rows, projectId)
  {
    match FindByName(ProjectRows(t.rows, projectId), name) {
      case Some(e) =>
        PatchKeepsNames(t, e.id, sha, url, prot, org);
        forall p ensures NameSet(t.rows, p) == NameSet(t.rows, p) + (if p == projectId then {name} else {}) {
          if p == projectId {
            var i :| 0 <= i < |t.rows| && t.rows[i] == e;
            assert name in NameSet(t.rows, p);
          }
        }
        ProjectIdOutside(t, e);
        PatchKeepsOthers(t, projectId, e.id, sha, url, prot, org);
      case None =>
        InsertAddsName(t, projectId, name, sha, url, prot, org);
    }
  }

  /** An upsert adds at most one row to its project. */
  lemma UpsertAddsAtMostOne(t: Table, projectId: string, name: string, sha: string, url: string,
                            prot: bool, org: Option<string>)
    requires Valid(t)
    ensures var r := UpsertBranch(t, projectId, name, sha, url, prot, org);
            |ProjectRows(r.table.rows, projectId)| <= |ProjectRows(t.rows, projectId)| + 1
  {
    match FindByName(ProjectRows(t.rows, projectId), name) {
      case Some(e) =>
        PatchProjectCount(t.rows, projectId, e.id, sha, url, prot, org);
      case None =>
        ProjectRowsAppend(t.rows, [Branch(t.nextId, projectId, name, sha, url, prot, org)], projectId);
    }
  }

  lemma {:induction false} ProjectRowsAppend(a: seq<Branch>, b: seq<Branch>, projectId: string)
    ensures ProjectRows(a + b, projectId) == ProjectRows(a, projectId) + ProjectRows(b, projectId)
  {
    if |a| > 0 {
      assert (a + b)[1..] == a[1..] + b;
      ProjectRowsAppend(a[1..], b, projectId);
    } else {
      assert a + b == b;
    }
  }

  lemma {:induction false} PatchProjectCount(rows: seq<Branch>, projectId: string, id: nat, sha: string, url: string,
                                             prot: bool, org: Option<string>)
    ensures |ProjectRows(Patch(Table(rows, 0), id, sha, url, prot, org).rows, projectId)| == |ProjectRows(rows, projectId)|
  {
    var r := Patch(Table(rows, 0), id, sha, url, prot, org).rows;
    if |rows| > 0 {
      assert r[1..] == Patch(Table(rows[1..], 0), id, sha, url, prot, org).rows;
      PatchProjectCount(rows[1..], projectId, id, sha, url, prot, org);
    }
  }

  lemma PatchKeepsNames(t: Table, id: nat, sha: string, url: string, prot: bool, org: Option<string>)
    ensures forall p :: NameSet(Patch(t, id, sha, url, prot, org).rows, p) == NameSet(t.rows, p)
  {
    var r := Patch(t, id, sha, url, prot, org);
    forall p ensures NameSet(r.rows, p) == NameSet(t.rows, p) {
      forall n | n in NameSet(r.rows, p) ensures n in NameSet(t.rows, p) {
        var i :| 0 <= i < |r.rows| && r.rows[i].projectId == p && r.rows[i].name == n;
        assert t.rows[i].name == n;
      }
      forall n | n in NameSet(t.rows, p) ensures n in NameSet(r.rows, p) {
        var i :| 0 <= i < |t.rows| && t.rows[i].projectId == p && t.rows[i].name == n;
        assert r.rows[i].name == n;
      }
    }
  }

  lemma InsertAddsName(t: Table, projectId: string, name: string, sha: string, url: string,
                       prot: bool, org: Option<string>)
    ensures forall p :: NameSet(Insert(t, projectId, name, sha, url, prot, org).rows, p) ==
                        NameSet(t.rows, p) + (if p == projectId then {name} else {})
  {
    var r := Insert(t, projectId, name, sha, url, prot, org);
    forall p ensures NameSet(r.rows, p) == NameSet(t.rows, p) + (if p == projectId then {name} else {}) {
      forall n | n in NameSet(r.rows, p) ensures n in NameSet(t.rows, p) + (if p == projectId then {name} else {}) {
        var i :| 0 <= i < |r.rows| && r.rows[i].projectId == p && r.rows[i].name == n;
        if i < |t.rows| {
          assert t.rows[i] == r.rows[i];
        }
      }
      forall n | n in NameSet(t.rows, p) ensures n in NameSet(r.rows, p) {
        var i :| 0 <= i < |t.rows| && t.rows[i].projectId == p && t.rows[i].name == n;
        assert r.rows[i] == t.rows[i];
      }
      if p == projectId {
        assert r.rows[|t.rows|].name == name;
      }
    }
  }

  /** No row of another project carries the id. */
  predicate IdOutside(rows: seq<Branch>, projectId: string, id: nat)
  {
    forall i :: 0 <= i < |rows| && rows[i].projectId != projectId ==> rows[i].id != id
  }

  lemma PatchKeepsOthers(t: Table, projectId: string, id: nat, sha: string, url: string, prot: bool, org: Option<string>)
    requires IdOutside(t.rows, projectId, id)
    ensures SameOthers(Patch(t, id, sha, url, prot, org).rows, t.rows, projectId)
  {
    var r := Patch(t, id, sha, url, prot, org);
    forall x: Branch | x.projectId != projectId ensures x in r.rows <==> x in t.rows {
      if x in r.rows {
        var i :| 0 <= i < |r.rows| && r.rows[i] == x;
        assert t.rows[i].projectId == x.projectId;
      }
      if x in t.rows {
        var i :| 0 <= i < |t.rows| && t.rows[i] == x;
        assert r.rows[i] == x;
      }
    }
  }

  lemma IdOutsideCarries(a: seq<Branch>, b: seq<Branch>, projectId: string, id: nat)
    requires SameOthers(a, b, projectId) && IdOutside(b, projectId, id)
    ensures IdOutside(a, projectId, id)
  {
    forall i | 0 <= i < |a| && a[i].projectId != projectId ensures a[i].id != id {
      assert a[i] in a;
      var j :| 0 <= j < |b| && b[j] == a[i];
    }
  }

  /** In a valid table, the id of a project's row is used by no other project. */
  lemma ProjectIdOutside(t: Table, e: Branch)
    requires Valid(t) && e in t.rows
    ensures IdOutside(t.rows, e.projectId, e.id)
  {
    var k :| 0 <= k < |t.rows| && t.rows[k] == e;
  }

  // -------------------------------------------- syncBranchesFromGitHub

  /** A branch as the code host reports it. */
  datatype BranchInfo = BranchInfo(name: string, commitSha: string, commitUrl: string, protected: bool)

  function IncomingNames(incoming: seq<BranchInfo>): set<string>
  {
    set i | 0 <= i < |incoming| :: incoming[i].name
  }

  /** Ids of the snapshot rows whose names are no longer reported. */
  function DoomedIds(existing: seq<Branch>, names: set<string>): set<nat>
  {
    set k | 0 <= k < |existing| && existing[k].name !in names :: existing[k].id
  }

  /** The deletion loop over the snapshot: every snapshot row whose name is
      not reported is deleted by id. */
  function DeleteMissing(t: Table, existing: seq<Branch>, names: set<string>): (r: Table)
    ensures r.nextId == t.nextId
    ensures forall x :: x in r.rows ==> x in t.rows && x.id !in DoomedIds(existing, names)
    ensures forall x :: x in t.rows && x.id !in DoomedIds(existing, names) ==> x in r.rows
    ensures Valid(t) ==> Valid(r)
    decreases |existing|
  {
    if |existing| == 0 then t
    else
      var next := if existing[0].name in names then t else Delete(t, existing[0].id);
      var r := DeleteMissing(next, existing[1..], names);
      assert DoomedIds(existing, names) ==
             DoomedIds(existing[1..], names) + (if existing[0].name in names then {} else {existing[0].id}) by {
        forall id | id in DoomedIds(existing, names)
          ensures id in DoomedIds(existing[1..], names) + (if existing[0].name in names then {} else {existing[0].id})
        {
          var k :| 0 <= k < |existing| && existing[k].name !in names && existing[k].id == id;
          if k > 0 {
            assert existing[1..][k - 1] == existing[k];
          }
        }
        forall id | id in DoomedIds(existing[1..], names) ensures id in DoomedIds(existing, names) {
          var k :| 0 <= k < |existing[1..]| && existing[1..][k].name !in names && existing[1..][k].id == id;
          assert existing[k + 1] == existing[1..][k];
        }
      }
      r
  }

  /** The write the upsert loop makes for one reported branch, judged
      against the snapshot: a known branch is patched only when its commit
      or protection changed; an unknown one is inserted. */
  function ApplyOne(t: Table, existing: seq<Branch>, b: BranchInfo, projectId: string, org: Option<string>): (r: Table)
    ensures |r.rows| >= |t.rows|
    ensures forall i :: 0 <= i < |t.rows| && t.rows[i].id !in PatchTarget(existing, b) ==> r.rows[i] == t.rows[i]
    ensures forall i :: 0 <= i < |t.rows| && t.rows[i].id in PatchTarget(existing, b) ==>
              r.rows[i] == Patched(t.rows[i], b.commitSha, b.commitUrl, b.protected, org)
    ensures FindByName(existing, b.name).Some? ==> |r.rows| == |t.rows| && r.nextId == t.nextId
    ensures FindByName(existing, b.name).None? ==>
              r.rows == t.rows + [Branch(t.nextId, projectId, b.name, b.commitSha, b.commitUrl, b.protected, org)] &&
              r.nextId == t.nextId + 1
  {
    match FindByName(existing, b.name)
    case Some(e) =>
      if e.commitSha != b.commitSha || e.protected != b.protected
      then Patch(t, e.id, b.commitSha, b.commitUrl, b.protected, org)
      else t
    case None => Insert(t, projectId, b.name, b.commitSha, b.commitUrl, b.protected, org)
  }

  /** The upsert loop over the reported branches, in order. */
  function ApplyIncoming(t: Table, existing: seq<Branch>, incoming: seq<BranchInfo>,
                         projectId: string, org: Option<string>): (r: Table)
    ensures r.nextId >= t.nextId
    ensures Valid(t) ==> Valid(r)
    decreases |incoming|
  {
    if |incoming| == 0 then t
    else ApplyIncoming(ApplyOne(t, existing, incoming[0], projectId, org), existing, incoming[1..], projectId, org)
  }

  /** `syncBranchesFromGitHub`: snapshot the project's branches, delete the
      ones no longer reported, then upsert every reported branch against
      the snapshot. */
  function SyncBranches(t: Table, projectId: string, incoming: seq<BranchInfo>, org: Option<string>): (r: Table)
    ensures Valid(t) ==> Valid(r)
  {
    var existing := ProjectRows(t.rows, projectId);
    ApplyIncoming(DeleteMissing(t, existing, IncomingNames(incoming)), existing, incoming, projectId, org)
  }

  /** Ids of snapshot rows that some reported branch patches. */
  function PatchedIds(existing: seq<Branch>, incoming: seq<BranchInfo>): set<nat>
  {
    set k | 0 <= k < |incoming| && FindByName(existing, incoming[k].name).Some? &&
            (FindByName(existing, incoming[k].name).value.commitSha != incoming[k].commitSha ||
             FindByName(existing, incoming[k].name).value.protected != incoming[k].protected)
          :: FindByName(existing, incoming[k].name).value.id
  }

  /** Ids the write for one reported branch patches. */
  function PatchTarget(existing: seq<Branch>, b: BranchInfo): set<nat>
  {
    if FindByName(existing, b.name).Some? &&
       (FindByName(existing, b.name).value.commitSha != b.commitSha ||
        FindByName(existing, b.name).value.protected != b.protected)
    then {FindByName(existing, b.name).value.id} else {}
  }

  /** Reported names the snapshot does not know. */
  function Added(existing: seq<Branch>, incoming: seq<BranchInfo>): set<string>
  {
    set k | 0 <= k < |incoming| && FindByName(existing, incoming[k].name).None? :: incoming[k].name
  }

  lemma SplitAdded(existing: seq<Branch>, incoming: seq<BranchInfo>)
    requires |incoming| > 0
    ensures Added(existing, incoming) ==
            Added(existing, incoming[1..]) + (if FindByName(existing, incoming[0].name).None? then {incoming[0].name} else {})
  {
    var b := incoming[0];
    forall n | n in Added(existing, incoming)
      ensures n in Added(existing, incoming[1..]) + (if FindByName(existing, b.name).None? then {b.name} else {})
    {
      var k :| 0 <= k < |incoming| && FindByName(existing, incoming[k].name).None? && incoming[k].name == n;
      if k > 0 {
        assert incoming[1..][k - 1] == incoming[k];
      }
    }
    forall n | n in Added(existing, incoming[1..]) ensures n in Added(existing, incoming) {
      var k :| 0 <= k < |incoming[1..]| && FindByName(existing, incoming[1..][k].name).None? && incoming[1..][k].name == n;
      assert incoming[k + 1] == incoming[1..][k];
    }
  }

  /** The write for one reported branch: other projects' rows stay, only
      the patch target changes, and an unknown name is added. */
  lemma ApplyOneEffect(t: Table, existing: seq<Branch>, b: BranchInfo, projectId: string, org: Option<string>)
    requires forall k :: 0 <= k < |existing| ==> IdOutside(t.rows, projectId, existing[k].id)
    ensures var r := ApplyOne(t, existing, b, projectId, org);
            SameOthers(r.rows, t.rows, projectId) &&
            (forall x :: x in t.rows && x.id !in PatchTarget(existing, b) ==> x in r.rows) &&
            NameSet(r.rows, projectId) ==
              NameSet(t.rows, projectId) + (if FindByName(existing, b.name).None? then {b.name} else {})
  {
    var r := ApplyOne(t, existing, b, projectId, org);
    match FindByName(existing, b.name) {
      case Some(e) =>
        if e.commitSha != b.commitSha || e.protected != b.protected {
          var k :| 0 <= k < |existing| && existing[k] == e;
          PatchKeepsOthers(t, projectId, e.id, b.commitSha, b.commitUrl, b.protected, org);
          PatchKeepsNames(t, e.id, b.commitSha, b.commitUrl, b.protected, org);
          forall x | x in t.rows && x.id != e.id ensures x in r.rows {
            var i :| 0 <= i < |t.rows| && t.rows[i] == x;
            assert r.rows[i] == x;
          }
        }
      case None =>
        InsertAddsName(t, projectId, b.name, b.commitSha, b.commitUrl, b.protected, org);
    }
  }

  /** What the upsert loop does to the table, given that the snapshot's ids
      belong to no other project: other projects' rows are untouched, rows
      no patch is aimed at stay, and each name without a snapshot row is
      added to the project's names. */
  lemma {:induction false} ApplyIncomingEffect(t: Table, existing: seq<Branch>, incoming: seq<BranchInfo>,
                                               projectId: string, org: Option<string>)
    requires forall k :: 0 <= k < |existing| ==> IdOutside(t.rows, projectId, existing[k].id)
    ensures var r := ApplyIncoming(t, existing, incoming, projectId, org);
            SameOthers(r.rows, t.rows, projectId) &&
            (forall x :: x in t.rows && x.id !in PatchedIds(existing, incoming) ==> x in r.rows) &&
            NameSet(r.rows, projectId) == NameSet(t.rows, projectId) + Added(existing, incoming)
    decreases |incoming|
  {
    if |incoming| > 0 {
      var next := ApplyOne(t, existing, incoming[0], projectId, org);
      ApplyOneEffect(t, existing, incoming[0], projectId, org);
      SplitPatchedIds(existing, incoming);
      SplitAdded(existing, incoming);
      forall k | 0 <= k < |existing| ensures IdOutside(next.rows, projectId, existing[k].id) {
        IdOutsideCarries(next.rows, t.rows, projectId, existing[k].id);
      }
      ApplyIncomingEffect(next, existing, incoming[1..], projectId, org);
    } else {
      assert Added(existing, incoming) == {};
    }
  }

  lemma SplitPatchedIds(existing: seq<Branch>, incoming: seq<BranchInfo>)
    requires |incoming| > 0
    ensures var b := incoming[0];
            PatchedIds(existing, incoming) == PatchedIds(existing, incoming[1..]) + PatchTarget(existing, b)
  {
    var b := incoming[0];
    var extra := if FindByName(existing, b.name).Some? &&
                    (FindByName(existing, b.name).value.commitSha != b.commitSha ||
                     FindByName(existing, b.name).value.protected != b.protected)
                 then {FindByName(existing, b.name).value.id} else {};
    forall id | id in PatchedIds(existing, incoming) ensures id in PatchedIds(existing, incoming[1..]) + extra {
      var k :| 0 <= k < |incoming| && FindByName(existing, incoming[k].name).Some? &&
               (FindByName(existing, incoming[k].name).value.commitSha != incoming[k].commitSha ||
                FindByName(existing, incoming[k].name).value.protected != incoming[k].protected) &&
               FindByName(existing, incoming[k].name).value.id == id;
      if k > 0 {
        assert incoming[1..][k - 1] == incoming[k];
      }
    }
    forall id | id in PatchedIds(existing, incoming[1..]) ensures id in PatchedIds(existing, incoming) {
      var k :| 0 <= k < |incoming[1..]| && FindByName(existing, incoming[1..][k].name).Some? &&
               (FindByName(existing, incoming[1..][k].name).value.commitSha != incoming[1..][k].commitSha ||
                FindByName(existing, incoming[1..][k].name).value.protected != incoming[1..][k].protected) &&
               FindByName(existing, incoming[1..][k].name).value.id == id;
      assert incoming[k + 1] == incoming[1..][k];
    }
  }

  /** Reconciliation never reads or writes another project's branches. */
  lemma SyncLeavesOtherProjects(t: Table, projectId: string, incoming: seq<BranchInfo>, org: Option<string>)
    requires Valid(t)
    ensures SameOthers(SyncBranches(t, projectId, incoming, org).rows, t.rows, projectId)
  {
    var pruned := DeleteMissing(t, ProjectRows(t.rows, projectId), IncomingNames(incoming));
    PrunedRows(t, projectId, IncomingNames(incoming));
    SyncEffect(t, projectId, incoming, org);
  }

  /** The whole reconciliation in terms of its two phases: what the upsert
      loop keeps and adds, applied to the pruned table. */
  lemma SyncEffect(t: Table, projectId: string, incoming: seq<BranchInfo>, org: Option<string>)
    requires Valid(t)
    ensures var existing := ProjectRows(t.rows, projectId);
            var pruned := DeleteMissing(t, existing, IncomingNames(incoming));
            var r := SyncBranches(t, projectId, incoming, org);
            SameOthers(r.rows, pruned.rows, projectId) &&
            (forall x :: x in pruned.rows && x.id !in PatchedIds(existing, incoming) ==> x in r.rows) &&
            NameSet(r.rows, projectId) == NameSet(pruned.rows, projectId) + Added(existing, incoming)
  {
    var existing := ProjectRows(t.rows, projectId);
    var names := IncomingNames(incoming);
    var pruned := DeleteMissing(t, existing, names);
    PrunedRows(t, projectId, names);
    forall k | 0 <= k < |existing| ensures IdOutside(pruned.rows, projectId, existing[k].id) {
      ProjectIdOutside(t, existing[k]);
      IdOutsideCarries(pruned.rows, t.rows, projectId, existing[k].id);
    }
    ApplyIncomingEffect(pruned, existing, incoming, projectId, org);
  }

  /** In a valid table, a row's id is doomed exactly when the row is one of
      the project's and its name is not reported. */
  lemma DoomedMeans(t: Table, projectId: string, names: set<string>, x: Branch)
    requires Valid(t) && x in t.rows
    ensures x.id in DoomedIds(ProjectRows(t.rows, projectId), names) <==>
            x.projectId == projectId && x.name !in names
  {
    var existing := ProjectRows(t.rows, projectId);
    if x.id in DoomedIds(existing, names) {
      DoomedRow(t, projectId, names, x);
    }
    if x.projectId == projectId && x.name !in names {
      var k :| 0 <= k < |existing| && existing[k] == x;
    }
  }

  lemma DoomedRow(t: Table, projectId: string, names: set<string>, x: Branch)
    requires Valid(t) && x in t.rows
    requires x.id in DoomedIds(ProjectRows(t.rows, projectId), names)
    ensures x.projectId == projectId && x.name !in names
  {
    var existing := ProjectRows(t.rows, projectId);
    var k :| 0 <= k < |existing| && existing[k].name !in names && existing[k].id == x.id;
    var y := existing[k];
    assert y in t.rows && y.projectId == projectId;
    SameIdSameRow(t.rows, x, y);
  }

  /** In rows with distinct ids, a row is determined by its id. */
  lemma SameIdSameRow(rows: seq<Branch>, x: Branch, y: Branch)
    requires DistinctIds(rows) && x in rows && y in rows && x.id == y.id
    ensures x == y
  {
    var i :| 0 <= i < |rows| && rows[i] == x;
    var j :| 0 <= j < |rows| && rows[j] == y;
  }

  /** What deleting the unreported snapshot rows leaves in a valid table:
      other projects' rows, and exactly those rows of the project whose
      names are reported. */
  lemma PrunedRows(t: Table, projectId: string, names: set<string>)
    requires Valid(t)
    ensures var pruned := DeleteMissing(t, ProjectRows(t.rows, projectId), names);
            SameOthers(pruned.rows, t.rows, projectId) &&
            forall x :: x in t.rows && x.projectId == projectId ==> (x in pruned.rows <==> x.name in names)
  {
    var pruned := DeleteMissing(t, ProjectRows(t.rows, projectId), names);
    forall x | x in t.rows
      ensures x in pruned.rows <==> !(x.projectId == projectId && x.name !in names)
    {
      DoomedMeans(t, projectId, names, x);
    }
  }

  /** After the deletions the project's names are its old names that are
      still reported. */
  lemma PrunedNames(t: Table, projectId: string, names: set<string>)
    requires Valid(t)
    ensures NameSet(DeleteMissing(t, ProjectRows(t.rows, projectId), names).rows, projectId) ==
            NameSet(t.rows, projectId) * names
  {
    PrunedNamesKept(t, projectId, names);
    PrunedNamesReported(t, projectId, names);
  }

  lemma PrunedNamesReported(t: Table, projectId: string, names: set<string>)
    requires Valid(t)
    ensures NameSet(DeleteMissing(t, ProjectRows(t.rows, projectId), names).rows, projectId) <=
            NameSet(t.rows, projectId) * names
  {
    var pruned := DeleteMissing(t, ProjectRows(t.rows, projectId), names);
    PrunedRows(t, projectId, names);
    forall n | n in NameSet(pruned.rows, projectId) ensures n in NameSet(t.rows, projectId) * names {
      var x := NameSetMember(pruned.rows, projectId, n);
      assert x in t.rows;
      InNameSet(t.rows, projectId, x);
    }
  }

  lemma PrunedNamesKept(t: Table, projectId: string, names: set<string>)
    requires Valid(t)
    ensures NameSet(t.rows, projectId) * names <=
            NameSet(DeleteMissing(t, ProjectRows(t.rows, projectId), names).rows, projectId)
  {
    var pruned := DeleteMissing(t, ProjectRows(t.rows, projectId), names);
    PrunedRows(t, projectId, names);
    forall n | n in NameSet(t.rows, projectId) * names ensures n in NameSet(pruned.rows, projectId) {
      var x := NameSetMember(t.rows, projectId, n);
      assert x in pruned.rows;
      InNameSet(pruned.rows, projectId, x);
    }
  }

  /** A row of the project puts its name in the project's names. */
  lemma InNameSet(rows: seq<Branch>, projectId: string, x: Branch)
    requires x in rows && x.projectId == projectId
    ensures x.name in NameSet(rows, projectId)
  {
    var i :| 0 <= i < |rows| && rows[i] == x;
  }

  /** A row that carries a name of the project. */
  lemma NameSetMember(rows: seq<Branch>, projectId: string, n: string) returns (x: Branch)
    requires n in NameSet(rows, projectId)
    ensures x in rows && x.projectId == projectId && x.name == n
  {
    var i :| 0 <= i < |rows| && rows[i].projectId == projectId && rows[i].name == n;
    x := rows[i];
  }

  /** Afterwards the project's branch names are exactly the reported names. */
  lemma SyncNamesMatchIncoming(t: Table, projectId: string, incoming: seq<BranchInfo>, org: Option<string>)
    requires Valid(t)
    ensures NameSet(SyncBranches(t, projectId, incoming, org).rows, projectId) == IncomingNames(incoming)
  {
    var existing := ProjectRows(t.rows, projectId);
    var names := IncomingNames(incoming);
    var pruned := DeleteMissing(t, existing, names);
    PrunedNames(t, projectId, names);
    SyncEffect(t, projectId, incoming, org);
    AddedReported(existing, incoming);
    ReportedCovered(t, projectId, incoming);
  }

  lemma AddedReported(existing: seq<Branch>, incoming: seq<BranchInfo>)
    ensures Added(existing, incoming) <= IncomingNames(incoming)
  {
    forall n | n in Added(existing, incoming) ensures n in IncomingNames(incoming) {
      var k :| 0 <= k < |incoming| && FindByName(existing, incoming[k].name).None? && incoming[k].name == n;
    }
  }

  /** Every reported name is either an old name of the project or one the
      snapshot does not know. */
  lemma ReportedCovered(t: Table, projectId: string, incoming: seq<BranchInfo>)
    ensures var existing := ProjectRows(t.rows, projectId);
            IncomingNames(incoming) <= (NameSet(t.rows, projectId) * IncomingNames(incoming)) + Added(existing, incoming)
  {
    var existing := ProjectRows(t.rows, projectId);
    var names := IncomingNames(incoming);
    forall n | n in names ensures n in (NameSet(t.rows, projectId) * names) + Added(existing, incoming) {
      var k :| 0 <= k < |incoming| && incoming[k].name == n;
      if FindByName(existing, n).Some? {
        var e := FindByName(existing, n).value;
        var j :| 0 <= j < |t.rows| && t.rows[j] == e;
        assert n in NameSet(t.rows, projectId);
      }
    }
  }

  /** A reported branch whose commit and protection equal the snapshot's
      is not written, even when its url changed: the stored row, old url
      included, is still there. */
  lemma UrlOnlyChangeNotWritten(t: Table, projectId: string, incoming: seq<BranchInfo>, org: Option<string>, k: nat)
    requires Valid(t) && k < |incoming|
    requires FindByName(ProjectRows(t.rows, projectId), incoming[k].name).Some?
    requires var e := FindByName(ProjectRows(t.rows, projectId), incoming[k].name).value;
             forall j :: 0 <= j < |incoming| && incoming[j].name == e.name ==>
               incoming[j].commitSha == e.commitSha && incoming[j].protected == e.protected
    ensures FindByName(ProjectRows(t.rows, projectId), incoming[k].name).value in SyncBranches(t, projectId, incoming, org).rows
  {
    var existing := ProjectRows(t.rows, projectId);
    var e := FindByName(existing, incoming[k].name).value;
    var names := IncomingNames(incoming);
    PrunedRows(t, projectId, names);
    assert e.name in names;
    SyncEffect(t, projectId, incoming, org);
    AgreeingNotPatched(t, projectId, incoming, k);
  }

  /** The snapshot row every report of its name agrees with is no patch
      target: in a valid table no other snapshot row shares its id. */
  lemma AgreeingNotPatched(t: Table, projectId: string, incoming: seq<BranchInfo>, k: nat)
    requires Valid(t) && k < |incoming|
    requires FindByName(ProjectRows(t.rows, projectId), incoming[k].name).Some?
    requires var e := FindByName(ProjectRows(t.rows, projectId), incoming[k].name).value;
             forall j :: 0 <= j < |incoming| && incoming[j].name == e.name ==>
               incoming[j].commitSha == e.commitSha && incoming[j].protected == e.protected
    ensures FindByName(ProjectRows(t.rows, projectId), incoming[k].name).value.id
            !in PatchedIds(ProjectRows(t.rows, projectId), incoming)
  {
    var existing := ProjectRows(t.rows, projectId);
    var e := FindByName(existing, incoming[k].name).value;
    forall j | 0 <= j < |incoming| && FindByName(existing, incoming[j].name).Some? &&
               FindByName(existing, incoming[j].name).value.id == e.id
      ensures FindByName(existing, incoming[j].name).value.commitSha == incoming[j].commitSha &&
              FindByName(existing, incoming[j].name).value.protected == incoming[j].protected
    {
      var e2 := FindByName(existing, incoming[j].name).value;
      var a :| 0 <= a < |t.rows| && t.rows[a] == e;
      var b :| 0 <= b < |t.rows| && t.rows[b] == e2;
      assert e2 == e;
    }
  }

  function Ids(rows: seq<Branch>): set<nat>
  {
    set x | x in rows :: x.id
  }

  /** The upsert loop keeps every id and adds only fresh ones. */
  lemma {:induction false} ApplyIncomingIds(t: Table, existing: seq<Branch>, incoming: seq<BranchInfo>,
                                            projectId: string, org: Option<string>)
    ensures var r := ApplyIncoming(t, existing, incoming, projectId, org);
            forall id :: id in Ids(r.rows) <==> id in Ids(t.rows) || t.nextId <= id < r.nextId
    decreases |incoming|
  {
    if |incoming| > 0 {
      var next := ApplyOne(t, existing, incoming[0], projectId, org);
      ApplyOneIds(t, existing, incoming[0], projectId, org);
      ApplyIncomingIds(next, existing, incoming[1..], projectId, org);
    }
  }

  /** One write either keeps the ids and the counter, or adds the id the
      counter held and advances it. */
  lemma ApplyOneIds(t: Table, existing: seq<Branch>, b: BranchInfo, projectId: string, org: Option<string>)
    ensures var r := ApplyOne(t, existing, b, projectId, org);
            (r.nextId == t.nextId && Ids(r.rows) == Ids(t.rows)) ||
            (r.nextId == t.nextId + 1 && Ids(r.rows) == Ids(t.rows) + {t.nextId})
  {
    match FindByName(existing, b.name) {
      case Some(e) =>
        if e.commitSha != b.commitSha || e.protected != b.protected {
          PatchIds(t, e.id, b.commitSha, b.commitUrl, b.protected, org);
        }
      case None =>
        InsertIds(t, projectId, b.name, b.commitSha, b.commitUrl, b.protected, org);
    }
  }

  lemma PatchIds(t: Table, id: nat, sha: string, url: string, prot: bool, org: Option<string>)
    ensures Ids(Patch(t, id, sha, url, prot, org).rows) == Ids(t.rows)
  {
    var r := Patch(t, id, sha, url, prot, org);
    forall i | i in Ids(r.rows) ensures i in Ids(t.rows) {
      var x :| x in r.rows && x.id == i;
      var k :| 0 <= k < |r.rows| && r.rows[k] == x;
      assert t.rows[k].id == i && t.rows[k] in t.rows;
    }
    forall i | i in Ids(t.rows) ensures i in Ids(r.rows) {
      var x :| x in t.rows && x.id == i;
      var k :| 0 <= k < |t.rows| && t.rows[k] == x;
      assert r.rows[k].id == i && r.rows[k] in r.rows;
    }
  }

  lemma InsertIds(t: Table, projectId: string, name: string, sha: string, url: string,
                  prot: bool, org: Option<string>)
    ensures Ids(Insert(t, projectId, name, sha, url, prot, org).rows) == Ids(t.rows) + {t.nextId}
  {
    var r := Insert(t, projectId, name, sha, url, prot, org);
    assert r.rows[|t.rows|] in r.rows;
    forall i | i in Ids(r.rows) ensures i in Ids(t.rows) + {t.nextId} {
      var x :| x in r.rows && x.id == i;
      var k :| 0 <= k < |r.rows| && r.rows[k] == x;
      if k < |t.rows| {
        assert t.rows[k] in t.rows;
      }
    }
    forall i | i in Ids(t.rows) ensures i in Ids(r.rows) {
      var x :| x in t.rows && x.id == i;
      assert x in r.rows;
    }
  }

  /** Reconciliation deletes exactly the project's branches whose names are
      no longer reported: a branch's id survives iff its name is reported. */
  lemma SyncDeletesExactlyMissing(t: Table, projectId: string, incoming: seq<BranchInfo>,
                                  org: Option<string>, e: Branch)
    requires Valid(t) && e in t.rows && e.projectId == projectId
    ensures e.id in Ids(SyncBranches(t, projectId, incoming, org).rows) <==> e.name in IncomingNames(incoming)
  {
    var existing := ProjectRows(t.rows, projectId);
    var names := IncomingNames(incoming);
    var pruned := DeleteMissing(t, existing, names);
    PrunedRows(t, projectId, names);
    ApplyIncomingIds(pruned, existing, incoming, projectId, org);
    DoomedMeans(t, projectId, names, e);
    if e.name in names {
      assert e in pruned.rows;
      assert e.id in Ids(pruned.rows);
    } else {
      var k :| 0 <= k < |t.rows| && t.rows[k] == e;
      assert e.id < t.nextId;
      assert e.id !in Ids(pruned.rows);
    }
  }

  /** The upsert loop judges against the snapshot taken before it, so a new
      name reported twice is inserted twice, as two rows with fresh ids. */
  lemma DuplicateNewNameInsertedTwice(t: Table, projectId: string, b: BranchInfo, org: Option<string>)
    requires FindByName(ProjectRows(t.rows, projectId), b.name).None?
    ensures var r := SyncBranches(t, projectId, [b, b], org);
            |r.rows| >= 2 &&
            r.rows[|r.rows| - 2] == Branch(t.nextId, projectId, b.name, b.commitSha, b.commitUrl, b.protected, org) &&
            r.rows[|r.rows| - 1] == Branch(t.nextId + 1, projectId, b.name, b.commitSha, b.commitUrl, b.protected, org)
  {
    var existing := ProjectRows(t.rows, projectId);
    var pruned := DeleteMissing(t, existing, IncomingNames([b, b]));
    var once := ApplyOne(pruned, existing, b, projectId, org);
    var twice := ApplyOne(once, existing, b, projectId, org);
    assert [b, b][0] == b && [b, b][1..] == [b];
    assert [b][0] == b && [b][1..] == [];
    assert ApplyIncoming(once, existing, [b], projectId, org) == ApplyIncoming(twice, existing, [], projectId, org);
    assert ApplyIncoming(pruned, existing, [b, b], projectId, org) == ApplyIncoming(once, existing, [b], projectId, org);
  }

  /** A row no write of the loop is aimed at survives the loop. */
  lemma ApplyOneKeepsRow(t: Table, existing: seq<Branch>, b: BranchInfo, projectId: string,
                         org: Option<string>, x: Branch)
    requires x in t.rows && x.id !in PatchTarget(existing, b)
    ensures x in ApplyOne(t, existing, b, projectId, org).rows
  {
    var i :| 0 <= i < |t.rows| && t.rows[i] == x;
    assert ApplyOne(t, existing, b, projectId, org).rows[i] == x;
  }

  lemma {:induction false} ApplyIncomingKeepsRow(t: Table, existing: seq<Branch>, incoming: seq<BranchInfo>,
                                                 projectId: string, org: Option<string>, x: Branch)
    requires x in t.rows
    requires forall j :: 0 <= j < |incoming| ==> x.id !in PatchTarget(existing, incoming[j])
    ensures x in ApplyIncoming(t, existing, incoming, projectId, org).rows
    decreases |incoming|
  {
    if |incoming| > 0 {
      ApplyOneKeepsRow(t, existing, incoming[0], projectId, org, x);
      assert forall j :: 0 <= j < |incoming[1..]| ==> incoming[1..][j] == incoming[j + 1];
      ApplyIncomingKeepsRow(ApplyOne(t, existing, incoming[0], projectId, org), existing, incoming[1..],
                            projectId, org, x);
    }
  }

  /** Rows of the snapshot that share an id are the same row, as in a valid
      table. */
  predicate IdsDetermineRows(rows: seq<Branch>)
  {
    forall i, j :: 0 <= i < |rows| && 0 <= j < |rows| && rows[i].id == rows[j].id ==> rows[i] == rows[j]
  }

  lemma SnapshotIdsDetermineRows(t: Table, projectId: string)
    requires Valid(t)
    ensures IdsDetermineRows(ProjectRows(t.rows, projectId))
  {
    var existing := ProjectRows(t.rows, projectId);
    forall i, j | 0 <= i < |existing| && 0 <= j < |existing| && existing[i].id == existing[j].id
      ensures existing[i] == existing[j]
    {
      var a :| 0 <= a < |t.rows| && t.rows[a] == existing[i];
      var b :| 0 <= b < |t.rows| && t.rows[b] == existing[j];
    }
  }

  /** A report of another name never aims its write at a snapshot row. */
  lemma OtherNameNotTarget(existing: seq<Branch>, e: Branch, c: BranchInfo)
    requires IdsDetermineRows(existing) && e in existing && c.name != e.name
    ensures e.id !in PatchTarget(existing, c)
  {
    if FindByName(existing, c.name).Some? {
      var f := FindByName(existing, c.name).value;
      var i :| 0 <= i < |existing| && existing[i] == e;
      var j :| 0 <= j < |existing| && existing[j] == f;
    }
  }

  /** The row a report leaves behind for a snapshot row of its name: patched
      with the report's commit, url, protection and the organisation when
      the commit or protection differ, untouched otherwise. */
  function ReportWritten(e: Branch, b: BranchInfo, org: Option<string>): (r: Branch)
    ensures r.id == e.id && r.projectId == e.projectId && r.name == e.name
    ensures r.commitSha == b.commitSha && r.protected == b.protected
  {
    if e.commitSha != b.commitSha || e.protected != b.protected then Patched(e, b.commitSha, b.commitUrl, b.protected, org)
    else
      assert e.commitSha == b.commitSha;
      e
  }

  /** A report whose name the snapshot knows, and no other report shares,
      leaves its written row in the table. */
  lemma {:induction false} ApplyIncomingWritesReport(t: Table, existing: seq<Branch>, incoming: seq<BranchInfo>,
                                                     projectId: string, org: Option<string>, k: nat)
    requires k < |incoming| && IdsDetermineRows(existing)
    requires FindByName(existing, incoming[k].name).Some?
    requires FindByName(existing, incoming[k].name).value in t.rows
    requires forall j :: 0 <= j < |incoming| && j != k ==> incoming[j].name != incoming[k].name
    ensures ReportWritten(FindByName(existing, incoming[k].name).value, incoming[k], org)
            in ApplyIncoming(t, existing, incoming, projectId, org).rows
    decreases |incoming|
  {
    if k == 0 {
      FirstReportWritten(t, existing, incoming, projectId, org);
    } else {
      var e := FindByName(existing, incoming[k].name).value;
      var next := ApplyOne(t, existing, incoming[0], projectId, org);
      assert forall j :: 0 <= j < |incoming[1..]| ==> incoming[1..][j] == incoming[j + 1];
      OtherNameNotTarget(existing, e, incoming[0]);
      ApplyOneKeepsRow(t, existing, incoming[0], projectId, org, e);
      ApplyIncomingWritesReport(next, existing, incoming[1..], projectId, org, k - 1);
    }
  }

  /** The first report writes its row, and the later ones, all of other
      names, leave it alone. */
  lemma FirstReportWritten(t: Table, existing: seq<Branch>, incoming: seq<BranchInfo>,
                           projectId: string, org: Option<string>)
    requires |incoming| > 0 && IdsDetermineRows(existing)
    requires FindByName(existing, incoming[0].name).Some?
    requires FindByName(existing, incoming[0].name).value in t.rows
    requires forall j :: 1 <= j < |incoming| ==> incoming[j].name != incoming[0].name
    ensures ReportWritten(FindByName(existing, incoming[0].name).value, incoming[0], org)
            in ApplyIncoming(t, existing, incoming, projectId, org).rows
  {
    var b := incoming[0];
    var e := FindByName(existing, b.name).value;
    var w := ReportWritten(e, b, org);
    var next := ApplyOne(t, existing, b, projectId, org);
    var rest := incoming[1..];
    var i :| 0 <= i < |t.rows| && t.rows[i] == e;
    assert next.rows[i] == w;
    forall j | 0 <= j < |rest| ensures w.id !in PatchTarget(existing, rest[j]) {
      assert rest[j] == incoming[j + 1];
      OtherNameNotTarget(existing, e, rest[j]);
    }
    ApplyIncomingKeepsRow(next, existing, rest, projectId, org, w);
  }

  /** A report whose name the snapshot does not know leaves a new row with
      its fields and an id the counter had not yet handed out. */
  lemma {:induction false} ApplyIncomingInsertsReport(t: Table, existing: seq<Branch>, incoming: seq<BranchInfo>,
                                                      projectId: string, org: Option<string>, k: nat)
    returns (id: nat)
    requires k < |incoming| && FindByName(existing, incoming[k].name).None?
    requires forall i :: 0 <= i < |existing| ==> existing[i].id < t.nextId
    ensures id >= t.nextId
    ensures var b := incoming[k];
            Branch(id, projectId, b.name, b.commitSha, b.commitUrl, b.protected, org)
            in ApplyIncoming(t, existing, incoming, projectId, org).rows
    decreases |incoming|
  {
    var next := ApplyOne(t, existing, incoming[0], projectId, org);
    assert forall j :: 0 <= j < |incoming[1..]| ==> incoming[1..][j] == incoming[j + 1];
    if k == 0 {
      var b := incoming[0];
      var x := Branch(t.nextId, projectId, b.name, b.commitSha, b.commitUrl, b.protected, org);
      assert next.rows[|t.rows|] == x;
      forall j | 0 <= j < |incoming[1..]| ensures x.id !in PatchTarget(existing, incoming[1..][j]) {
        var c := incoming[1..][j];
        if FindByName(existing, c.name).Some? {
          var f := FindByName(existing, c.name).value;
          var i :| 0 <= i < |existing| && existing[i] == f;
        }
      }
      ApplyIncomingKeepsRow(next, existing, incoming[1..], projectId, org, x);
      id := t.nextId;
    } else {
      id := ApplyIncomingInsertsReport(next, existing, incoming[1..], projectId, org, k - 1);
    }
  }

  /** What reconciliation writes for a branch reported once: afterwards the
      project has a branch of that name with the reported commit and
      protection. A branch the snapshot knew keeps its id and is patched
      with the reported commit, url and protection and the organisation
      exactly when its commit or protection changed; a new name is inserted
      with all reported fields and a fresh id. */
  lemma SyncWritesReport(t: Table, projectId: string, incoming: seq<BranchInfo>, org: Option<string>, k: nat)
    requires Valid(t) && k < |incoming|
    requires forall j :: 0 <= j < |incoming| && j != k ==> incoming[j].name != incoming[k].name
    ensures var r := SyncBranches(t, projectId, incoming, org);
            exists x :: x in r.rows && x.projectId == projectId && x.name == incoming[k].name &&
                        x.commitSha == incoming[k].commitSha && x.protected == incoming[k].protected
    ensures var r := SyncBranches(t, projectId, incoming, org);
            var b := incoming[k];
            var found := FindByName(ProjectRows(t.rows, projectId), b.name);
            found.Some? ==>
              if found.value.commitSha != b.commitSha || found.value.protected != b.protected
              then Patched(found.value, b.commitSha, b.commitUrl, b.protected, org) in r.rows
              else found.value in r.rows
    ensures var r := SyncBranches(t, projectId, incoming, org);
            var b := incoming[k];
            FindByName(ProjectRows(t.rows, projectId), b.name).None? ==>
              exists id :: id !in Ids(t.rows) && Branch(id, projectId, b.name, b.commitSha, b.commitUrl, b.protected, org) in r.rows
  {
    var existing := ProjectRows(t.rows, projectId);
    var names := IncomingNames(incoming);
    var pruned := DeleteMissing(t, existing, names);
    var b := incoming[k];
    assert b.name in names;
    match FindByName(existing, b.name) {
      case Some(e) =>
        PrunedRows(t, projectId, names);
        assert e in pruned.rows;
        SnapshotIdsDetermineRows(t, projectId);
        ApplyIncomingWritesReport(pruned, existing, incoming, projectId, org, k);
        assert ReportWritten(e, b, org).projectId == projectId;
      case None =>
        forall i | 0 <= i < |existing| ensures existing[i].id < pruned.nextId {
          var a :| 0 <= a < |t.rows| && t.rows[a] == existing[i];
        }
        var id := ApplyIncomingInsertsReport(pruned, existing, incoming, projectId, org, k);
        assert forall x :: x in t.rows ==> x.id < t.nextId;
    }
  }
}

=== FILE: gitignore.dfy ===
/** Translation of a root `.gitignore` into watcher ignore patterns
    (`readGitignorePatterns` and `mergeIgnorePatterns`, file-sync.ts). The
    file's existence and content are inputs: `None` stands for a missing or
    unreadable file, both of which yield no patterns. */
module Gitignore {
  import opened Base
  import opened Seqs
  import opened Glob

  // ---------------------------------------------------------------------
  // String.prototype.split("\n") and String.prototype.trim()
  // ---------------------------------------------------------------------

  /** `content.split('\n')`: the pieces between newlines, always at least one. */
  function SplitLines(s: string): (r: seq<string>)
    ensures |r| >= 1
    ensures forall i :: 0 <= i < |r| ==> '\n' !in r[i]
    decreases |s|
  {
    if |s| == 0 then [""]
    else if s[0] == '\n' then [""] + SplitLines(s[1..])
    else
      var rest := SplitLines(s[1..]);
      [[s[0]] + rest[0]] + rest[1..]
  }

  /** `lines.join('\n')`. */
  function JoinLines(lines: seq<string>): string
    requires |lines| >= 1
    decreases |lines|
  {
    if |lines| == 1 then lines[0] else lines[0] + "\n" + JoinLines(lines[1..])
  }

  /** Splitting loses nothing: joining the pieces back gives the content. */
  lemma {:induction false} SplitLinesRoundTrip(s: string)
    ensures JoinLines(SplitLines(s)) == s
    decreases |s|
  {
    if |s| > 0 {
      SplitLinesRoundTrip(s[1..]);
      var rest := SplitLines(s[1..]);
      if s[0] == '\n' {
        var r := [""] + rest;
        assert r[1..] == rest;
        assert s == "\n" + s[1..];
      } else {
        var r := [[s[0]] + rest[0]] + rest[1..];
        if |rest| == 1 {
          assert JoinLines(r) == [s[0]] + rest[0];
        } else {
          assert r[1..] == rest[1..];
          assert JoinLines(rest) == rest[0] + "\n" + JoinLines(rest[1..]);
        }
        assert s == [s[0]] + s[1..];
      }
    }
  }

  /** The characters `trim` removes: ECMAScript WhiteSpace and
      LineTerminator code points. */
  predicate IsTrimmable(c: char)
  {
    c in TrimmableChars
  }

  const TrimmableChars: set<char> :=
    {'\t', '\n', '\U{000B}', '\U{000C}', '\r', ' ', '\U{00A0}', '\U{1680}',
     '\U{2000}', '\U{2001}', '\U{2002}', '\U{2003}', '\U{2004}', '\U{2005}',
     '\U{2006}', '\U{2007}', '\U{2008}', '\U{2009}', '\U{200A}',
     '\U{2028}', '\U{2029}', '\U{202F}', '\U{205F}', '\U{3000}', '\U{FEFF}'}

  predicate AllTrimmable(s: string)
  {
    forall i :: 0 <= i < |s| ==> IsTrimmable(s[i])
  }

  function TrimStart(s: string): (r: string)
    ensures |r| <= |s| && r == s[|s| - |r|..]
    ensures AllTrimmable(s[..|s| - |r|])
    ensures |r| > 0 ==> !IsTrimmable(r[0])
    decreases |s|
  {
    if |s| > 0 && IsTrimmable(s[0]) then
      var r := TrimStart(s[1..]);
      assert s[1..][..|s| - 1 - |r|] == s[1..|s| - |r|];
      r
    else s
  }

  function TrimEnd(s: string): (r: string)
    ensures |r| <= |s| && r == s[..|r|]
    ensures AllTrimmable(s[|r|..])
    ensures |r| > 0 ==> !IsTrimmable(r[|r| - 1])
    decreases |s|
  {
    if |s| > 0 && IsTrimmable(s[|s| - 1]) then
      var r := TrimEnd(s[..|s| - 1]);
      assert s[|r|..] == s[..|s| - 1][|r|..] + [s[|s| - 1]];
      r
    else s
  }

  /** `trim`: the slice of `s` left after removing white space from both
      ends; what was removed is white space, and the slice neither starts
      nor ends with white space. */
  function Trim(s: string): (r: string)
    ensures exists a, b :: 0 <= a <= b <= |s| && r == s[a..b] && AllTrimmable(s[..a]) && AllTrimmable(s[b..])
    ensures |r| > 0 ==> !IsTrimmable(r[0]) && !IsTrimmable(r[|r| - 1])
  {
    var t := TrimStart(s);
    var r := TrimEnd(t);
    TrimSlice(s, t, r);
    assert |r| > 0 ==> r[0] == t[0];
    r
  }

  /** A trimmed slice: `t` is `s` without a white-space prefix and `r` is `t`
      without a white-space suffix, so `r` is a slice of `s` between white
      space. */
  lemma TrimSlice(s: string, t: string, r: string)
    requires |t| <= |s| && t == s[|s| - |t|..] && AllTrimmable(s[..|s| - |t|])
    requires |r| <= |t| && r == t[..|r|] && AllTrimmable(t[|r|..])
    ensures exists a, b :: 0 <= a <= b <= |s| && r == s[a..b] && AllTrimmable(s[..a]) && AllTrimmable(s[b..])
  {
    var a := |s| - |t|;
    var b := a + |r|;
    assert s[a..b] == r;
    assert s[b..] == t[|r|..];
  }

  // ---------------------------------------------------------------------
  // The translation
  // ---------------------------------------------------------------------

  /** A line survives when, trimmed, it is non-empty and not a comment. */
  predicate Kept(line: string)
  {
    |line| > 0 && line[0] != '#'
  }

  predicate AllKept(lines: seq<string>)
  {
    forall i :: 0 <= i < |lines| ==> |lines[i]| > 0 && lines[i][0] != '#'
  }

  /** The trimmed, non-blank, non-comment lines of the file: every line of
      the file that survives trimming is among them, and each of them is a
      trimmed line of the file. */
  function KeptLines(content: string): (r: seq<string>)
    ensures AllKept(r)
    ensures forall i :: 0 <= i < |SplitLines(content)| && Kept(Trim(SplitLines(content)[i])) ==>
              Trim(SplitLines(content)[i]) in r
    ensures forall l :: l in r ==> IsTrimmedLine(SplitLines(content), l)
  {
    var lines := SplitLines(content);
    var r := Filter(Map(lines, Trim), Kept);
    FilterMapMembers(lines, Trim, Kept);
    assert forall i :: 0 <= i < |r| ==> Kept(r[i]);
    r
  }

  /** `l` is one of the lines, trimmed. */
  predicate IsTrimmedLine(lines: seq<string>, l: string)
  {
    exists i :: 0 <= i < |lines| && l == Trim(lines[i])
  }

  /** `split` cuts at every newline, so the lines of two texts joined by a
      newline are the lines of the first followed by those of the second. */
  lemma {:induction false} SplitLinesAppend(a: string, b: string)
    ensures SplitLines(a + "\n" + b) == SplitLines(a) + SplitLines(b)
    decreases |a|
  {
    var s := a + "\n" + b;
    if |a| == 0 {
      assert s[0] == '\n' && s[1..] == b;
    } else {
      assert s[0] == a[0] && s[1..] == a[1..] + "\n" + b;
      SplitLinesAppend(a[1..], b);
      if a[0] != '\n' {
        var x := SplitLines(a[1..]);
        assert (x + SplitLines(b))[0] == x[0];
        assert (x + SplitLines(b))[1..] == x[1..] + SplitLines(b);
      }
    }
  }

  /** Text without a newline is a single line. */
  lemma {:induction false} SplitLinesSingle(l: string)
    requires '\n' !in l
    ensures SplitLines(l) == [l]
    decreases |l|
  {
    if |l| > 0 {
      assert l[0] in l;
      assert forall c :: c in l[1..] ==> c in l;
      SplitLinesSingle(l[1..]);
      assert [l[0]] + l[1..] == l;
    }
  }

  /** The kept lines keep the file's line order: the kept lines of two texts
      joined by a newline are those of the first followed by those of the
      second, and a single line is kept, trimmed, exactly when it survives
      trimming. */
  lemma KeptLinesInOrder(a: string, b: string)
    ensures KeptLines(a + "\n" + b) == KeptLines(a) + KeptLines(b)
    ensures '\n' !in a ==> KeptLines(a) == if Kept(Trim(a)) then [Trim(a)] else []
  {
    SplitLinesAppend(a, b);
    var x := SplitLines(a);
    var y := SplitLines(b);
    MapAppend(x, y, Trim);
    FilterAppend(Map(x, Trim), Map(y, Trim), Kept);
    if '\n' !in a {
      SplitLinesSingle(a);
      assert Map([a], Trim) == [Trim(a)];
      assert [Trim(a)][1..] == [];
    }
  }

  lemma AllKeptTail(lines: seq<string>)
    requires AllKept(lines) && |lines| > 0
    ensures AllKept(lines[1..])
  {
    forall i | 0 <= i < |lines[1..]| ensures |lines[1..][i]| > 0 && lines[1..][i][0] != '#' {
      assert lines[1..][i] == lines[i + 1];
    }
  }

  lemma AllKeptAppend(a: seq<string>, b: seq<string>)
    requires AllKept(a) && AllKept(b)
    ensures AllKept(a + b)
  {
    forall i | 0 <= i < |a + b| ensures |(a + b)[i]| > 0 && (a + b)[i][0] != '#' {
      if i < |a| {
        assert (a + b)[i] == a[i];
      } else {
        assert (a + b)[i] == b[i - |a|];
      }
    }
  }

  /** The glob patterns one `.gitignore` line becomes. */
  function LinePatterns(line: string): (r: seq<string>)
    requires |line| > 0
    ensures line[0] == '/' ==> r == [line[1..]]
    ensures line[0] != '/' && line[|line| - 1] == '/' ==> r == [line + "**", line[..|line| - 1]]
    ensures line[0] != '/' && line[|line| - 1] != '/' ==> r == [line, "**/" + line]
  {
    if line[0] == '/' then [line[1..]]
    else if line[|line| - 1] == '/' then [line + "**", line[..|line| - 1]]
    else [line, "**/" + line]
  }

  /** The patterns of the kept lines, line after line. */
  function TranslateLines(lines: seq<string>): (r: seq<string>)
    requires AllKept(lines)
    ensures |r| >= |lines|
    ensures |r| <= 2 * |lines|
    decreases |lines|
  {
    if |lines| == 0 then []
    else
      assert AllKept(lines[1..]) by {
        forall i | 0 <= i < |lines[1..]| ensures |lines[1..][i]| > 0 && lines[1..][i][0] != '#' {
          assert lines[1..][i] == lines[i + 1];
        }
      }
      LinePatterns(lines[0]) + TranslateLines(lines[1..])
  }

  /** Every pattern comes from a line, and every line contributes all of its
      patterns: the translation is the line-by-line translation, in order. */
  lemma {:induction false} TranslateLinesCovers(lines: seq<string>)
    requires AllKept(lines)
    ensures forall i, p :: 0 <= i < |lines| && p in LinePatterns(lines[i]) ==> p in TranslateLines(lines)
    ensures forall p :: p in TranslateLines(lines) ==>
              exists i :: 0 <= i < |lines| && p in LinePatterns(lines[i])
    decreases |lines|
  {
    if |lines| > 0 {
      assert AllKept(lines[1..]) by {
        forall i | 0 <= i < |lines[1..]| ensures |lines[1..][i]| > 0 && lines[1..][i][0] != '#' {
          assert lines[1..][i] == lines[i + 1];
        }
      }
      TranslateLinesCovers(lines[1..]);
      forall p | p in TranslateLines(lines)
        ensures exists i :: 0 <= i < |lines| && p in LinePatterns(lines[i])
      {
        if p !in LinePatterns(lines[0]) {
          var i :| 0 <= i < |lines[1..]| && p in LinePatterns(lines[1..][i]);
          assert lines[1..][i] == lines[i + 1];
        }
      }
      forall i, p | 0 <= i < |lines| && p in LinePatterns(lines[i])
        ensures p in TranslateLines(lines)
      {
        if i > 0 {
          assert lines[1..][i - 1] == lines[i];
        }
      }
    }
  }

  /** Translating two runs of lines one after the other gives the patterns
      of the first run followed by those of the second: each line
      contributes its own one or two patterns, in line order. */
  lemma {:induction false} TranslateLinesAppend(a: seq<string>, b: seq<string>)
    requires AllKept(a) && AllKept(b)
    ensures AllKept(a + b)
    ensures TranslateLines(a + b) == TranslateLines(a) + TranslateLines(b)
    decreases |a|
  {
    AllKeptAppend(a, b);
    if |a| == 0 {
      assert a + b == b;
    } else {
      AllKeptTail(a);
      TranslateLinesAppend(a[1..], b);
      assert (a + b)[0] == a[0];
      assert (a + b)[1..] == a[1..] + b;
    }
  }

  /** A single line translates to its own patterns. */
  lemma TranslateLinesSingle(line: string)
    requires Kept(line)
    ensures AllKept([line])
    ensures TranslateLines([line]) == LinePatterns(line)
  {
    assert [line][0] == line && [line][1..] == [];
  }

  /** `readGitignorePatterns`: no file (or an unreadable one) gives no
      patterns; a readable file gives exactly the patterns of its kept
      lines. */
  function ReadGitignorePatterns(gitignore: Option<string>): (r: seq<string>)
    ensures gitignore.None? ==> r == []
    ensures gitignore.Some? ==>
              forall p :: p in r <==>
                exists i :: 0 <= i < |KeptLines(gitignore.value)| && p in LinePatterns(KeptLines(gitignore.value)[i])
  {
    match gitignore
    case None => []
    case Some(content) =>
      TranslateLinesCovers(KeptLines(content));
      TranslateLines(KeptLines(content))
  }

  /** The patterns of a file follow its line order: a file made of two
      texts joined by a newline gives the first text's patterns, then the
      second's. */
  lemma GitignorePatternsInOrder(a: string, b: string)
    ensures ReadGitignorePatterns(Some(a + "\n" + b)) == ReadGitignorePatterns(Some(a)) + ReadGitignorePatterns(Some(b))
  {
    KeptLinesInOrder(a, b);
    TranslateLinesAppend(KeptLines(a), KeptLines(b));
  }

  /** `mergeIgnorePatterns`: the caller's patterns precede the file's. */
  function MergeIgnorePatterns(userIgnore: seq<string>, gitignore: Option<string>): (r: seq<string>)
    ensures |r| == |userIgnore| + |ReadGitignorePatterns(gitignore)|
    ensures r[..|userIgnore|] == userIgnore
    ensures r[|userIgnore|..] == ReadGitignorePatterns(gitignore)
  {
    userIgnore + ReadGitignorePatterns(gitignore)
  }

  // ---------------------------------------------------------------------
  // What the translated patterns match
  // ---------------------------------------------------------------------

  /** The root-relative path a `.gitignore` line names: the line without its
      leading slash, or without its trailing slash. */
  function NamedPath(line: string): string
    requires |line| > 0
  {
    if line[0] == '/' then line[1..]
    else if line[|line| - 1] == '/' then line[..|line| - 1]
    else line
  }

  /** A line without wildcards ignores the root-level path it names: one of
      its patterns matches that path. */
  lemma {:induction false} PlainLineIgnoresItsPath(line: string)
    requires Kept(line) && PlainName(line)
    ensures exists p :: p in LinePatterns(line) && MatchesPattern(NamedPath(line), p)
  {
    var named := NamedPath(line);
    assert PlainName(named);
    LiteralMatchesItself(named);
    assert named in LinePatterns(line);
  }

  // For a directory line `d/`, the pattern `d/` followed by `**` matches the
  // direct children of `d` but, since `**` became `.[^/]*`, nothing deeper.
  lemma {:induction false} DirectoryLineCoversOneLevel(dir: string, child: string, sub: string)
    requires |dir| > 0 && dir[0] != '/' && PlainName(dir)
    requires |child| > 0 && SlashFree(child) && !IsLineTerminator(child[0])
    ensures MatchesPattern(dir + "/" + child, (dir + "/") + "**")
    ensures !MatchesPattern(dir + "/" + child + "/" + sub, (dir + "/") + "**")
  {
    var tail := [AnyChar, NotSlashRun];
    CompileAppend(dir + "/", "**");
    assert Compile("**") == tail;
    LiteralMatchesItself(dir + "/") by {
      assert PlainName(dir + "/");
    }
    FixedPrefixSplits(dir + "/", tail, dir + "/" + child);
    assert (dir + "/" + child)[..|dir| + 1] == dir + "/";
    assert (dir + "/" + child)[|dir| + 1..] == child;
    AnyThenRunMatches(child);
    var deep := dir + "/" + child + "/" + sub;
    FixedPrefixSplits(dir + "/", tail, deep);
    assert deep[|dir| + 1..] == child + "/" + sub;
    SlashStopsRun(child, sub);
  }

  /** `.[^/]*` matches a non-empty slash-free name. */
  lemma AnyThenRunMatches(c: string)
    requires |c| > 0 && SlashFree(c) && !IsLineTerminator(c[0])
    ensures Matches([AnyChar, NotSlashRun], c)
  {
    assert [AnyChar, NotSlashRun][1..] == [NotSlashRun];
    NotSlashRunSplits([], c[1..]);
    assert [NotSlashRun] + [] == [NotSlashRun];
    assert c[1..][|c[1..]|..] == [];
    assert SlashFree(c[1..][..|c[1..]|]);
  }

  /** `.[^/]*` cannot reach past a slash after the first character. */
  lemma SlashStopsRun(child: string, sub: string)
    requires |child| > 0
    ensures !Matches([AnyChar, NotSlashRun], child + "/" + sub)
  {
    var rest := child + "/" + sub;
    var after := rest[1..];
    assert after[|child| - 1] == '/';
    forall k | 0 <= k <= |after| && SlashFree(after[..k]) ensures !Matches([], after[k..]) {
      assert k <= |child| - 1 || after[..k][|child| - 1] == '/';
    }
    NotSlashRunSplits([], after);
    assert [NotSlashRun] + [] == [NotSlashRun];
    assert [AnyChar, NotSlashRun][1..] == [NotSlashRun];
  }

  lemma {:induction false} CompileAppend(a: string, b: string)
    requires |b| >= 2 && b[0] == '*' && b[1] == '*'
    requires |a| == 0 || a[|a| - 1] != '*'
    ensures Compile(a + b) == Compile(a) + Compile(b)
    decreases |a|
  {
    var ab := a + b;
    if |a| == 0 {
      assert ab == b;
    } else if |a| >= 2 && a[0] == '*' && a[1] == '*' {
      assert ab[0] == '*' && ab[1] == '*';
      assert ab[2..] == a[2..] + b;
      CompileAppend(a[2..], b);
      assert Compile(ab) == [AnyChar, NotSlashRun] + Compile(ab[2..]);
      assert Compile(a) == [AnyChar, NotSlashRun] + Compile(a[2..]);
      ConsAppend([AnyChar, NotSlashRun], Compile(a[2..]), Compile(b));
    } else {
      assert ab[0] == a[0];
      assert !(ab[0] == '*' && ab[1] == '*') by {
        if |a| == 1 {
          assert a[0] != '*';
        } else {
          assert ab[1] == a[1];
        }
      }
      assert ab[1..] == a[1..] + b;
      CompileAppend(a[1..], b);
      assert Compile(ab) == [CharToken(a[0])] + Compile(ab[1..]);
      assert Compile(a) == [CharToken(a[0])] + Compile(a[1..]);
      ConsAppend([CharToken(a[0])], Compile(a[1..]), Compile(b));
    }
  }

  lemma ConsAppend(x: seq<Token>, y: seq<Token>, z: seq<Token>)
    ensures x + (y + z) == (x + y) + z
  {
  }

  /** Matching a wildcard-free prefix followed by more tokens: the path must
      start with something the prefix matches, of the prefix's length. */
  lemma {:induction false} FixedPrefixSplits(prefix: string, ts: seq<Token>, s: string)
    requires forall i :: 0 <= i < |prefix| ==> !Wildcard(prefix[i])
    ensures Matches(Compile(prefix) + ts, s) <==>
            |s| >= |prefix| && MatchesPattern(s[..|prefix|], prefix) && Matches(ts, s[|prefix|..])
    decreases |prefix|
  {
    if |prefix| == 0 {
      assert Compile(prefix) + ts == ts;
      assert s[..0] == [] && s[0..] == s;
    } else {
      var t := CharToken(prefix[0]);
      assert Compile(prefix) == [t] + Compile(prefix[1..]);
      var all := Compile(prefix) + ts;
      assert all[0] == t && all[1..] == Compile(prefix[1..]) + ts;
      if |s| > 0 {
        FixedPrefixSplits(prefix[1..], ts, s[1..]);
        if |s| >= |prefix| {
          assert s[..|prefix|][1..] == s[1..][..|prefix| - 1];
          assert s[1..][|prefix| - 1..] == s[|prefix|..];
          assert s[..|prefix|][0] == s[0];
        }
      }
    }
  }
}

=== FILE: glob.dfy ===
/** The watcher's home-made glob matcher (`matchesPattern`,
    file-watcher.ts). A pattern is turned into a regular expression by three
    global text replacements, `**` -> `.*`, then `*` -> `[^/]*`, then
    `?` -> `[^/]`, and the result is tested anchored as `^...$`.

    Because the second replacement also rewrites the `*` that the first one
    produced, `**` ends up as `.[^/]*`: one arbitrary character followed by
    a run of non-slash characters. And because nothing is escaped, a `.` in
    the pattern is the regular-expression wildcard. The model keeps both
    behaviours. */
module Glob {

  // ---------------------------------------------------------------------
  // The regular-expression source text, built exactly as the code builds it
  // ---------------------------------------------------------------------

  /** `pattern.replace(/\*\*\/g, ".*")`: left-to-right, non-overlapping. */
  function RewriteDoubleStar(s: string): string
    decreases |s|
  {
    if |s| == 0 then ""
    else if |s| >= 2 && s[0] == '*' && s[1] == '*' then ".*" + RewriteDoubleStar(s[2..])
    else [s[0]] + RewriteDoubleStar(s[1..])
  }

  /** `.replace(/\*\/g, "[^/]*")`. */
  function RewriteStar(s: string): string
    decreases |s|
  {
    if |s| == 0 then ""
    else (if s[0] == '*' then "[^/]*" else [s[0]]) + RewriteStar(s[1..])
  }

  /** `.replace(/\?/g, "[^/]")`. */
  function RewriteQuestion(s: string): string
    decreases |s|
  {
    if |s| == 0 then ""
    else (if s[0] == '?' then "[^/]" else [s[0]]) + RewriteQuestion(s[1..])
  }

  /** The text handed to `new RegExp`: the rewritten pattern between the
      anchors. Nothing is escaped, so a pattern without `*` and `?` is used
      as a regular expression verbatim. */
  function RegexSource(pattern: string): (r: string)
    ensures |r| >= 2 && r[0] == '^' && r[|r| - 1] == '$'
    ensures (forall i :: 0 <= i < |pattern| ==> pattern[i] != '*' && pattern[i] != '?') ==>
              r == "^" + pattern + "$"
  {
    WithoutWildcardsUnchanged(pattern);
    "^" + RewriteQuestion(RewriteStar(RewriteDoubleStar(pattern))) + "$"
  }

  /** Text without `*` and `?` passes the three replacements unchanged. */
  lemma WithoutWildcardsUnchanged(s: string)
    ensures (forall i :: 0 <= i < |s| ==> s[i] != '*' && s[i] != '?') ==>
              RewriteQuestion(RewriteStar(RewriteDoubleStar(s))) == s
  {
    if forall i :: 0 <= i < |s| ==> s[i] != '*' && s[i] != '?' {
      WithoutStarUnchanged(s);
      WithoutQuestionUnchanged(s);
    }
  }

  /** Text without `*` is left alone by both star replacements. */
  lemma {:induction false} WithoutStarUnchanged(s: string)
    requires forall i :: 0 <= i < |s| ==> s[i] != '*'
    ensures RewriteDoubleStar(s) == s && RewriteStar(s) == s
    decreases |s|
  {
    if |s| > 0 {
      WithoutStarUnchanged(s[1..]);
      assert s == [s[0]] + s[1..];
    }
  }

  // ---------------------------------------------------------------------
  // The same expression as a token sequence
  // ---------------------------------------------------------------------

  /** The building blocks the rewritten text is made of: a literal character,
      the `.` wildcard, `[^/]` and `[^/]*`. */
  datatype Token = Lit(c: char) | AnyChar | NotSlash | NotSlashRun

  function CharToken(c: char): Token
  {
    if c == '*' then NotSlashRun
    else if c == '?' then NotSlash
    else if c == '.' then AnyChar
    else Lit(c)
  }

  /** Reads a glob pattern directly as the token sequence its regular
      expression consists of. */
  function Compile(pattern: string): seq<Token>
    decreases |pattern|
  {
    if |pattern| == 0 then []
    else if |pattern| >= 2 && pattern[0] == '*' && pattern[1] == '*' then
      [AnyChar, NotSlashRun] + Compile(pattern[2..])
    else [CharToken(pattern[0])] + Compile(pattern[1..])
  }

  /** One token per pattern character: a character other than `*` is read
      on its own, and a `*` is a run of non-slashes or, as the first half of
      `**`, the `.` wildcard. */
  lemma {:induction false} CompileTokenwise(pattern: string)
    ensures |Compile(pattern)| == |pattern|
    ensures forall i :: 0 <= i < |pattern| && pattern[i] != '*' ==> Compile(pattern)[i] == CharToken(pattern[i])
    ensures forall i :: 0 <= i < |pattern| && pattern[i] == '*' ==>
              Compile(pattern)[i] == AnyChar || Compile(pattern)[i] == NotSlashRun
    decreases |pattern|
  {
    if |pattern| >= 2 && pattern[0] == '*' && pattern[1] == '*' {
      CompileTokenwise(pattern[2..]);
      assert forall i :: 2 <= i < |pattern| ==> pattern[i] == pattern[2..][i - 2];
    } else if |pattern| > 0 {
      CompileTokenwise(pattern[1..]);
      assert forall i :: 1 <= i < |pattern| ==> pattern[i] == pattern[1..][i - 1];
    }
  }

  function RenderToken(t: Token): string
  {
    match t
    case Lit(c) => [c]
    case AnyChar => "."
    case NotSlash => "[^/]"
    case NotSlashRun => "[^/]*"
  }

  function Render(ts: seq<Token>): string
    decreases |ts|
  {
    if |ts| == 0 then "" else RenderToken(ts[0]) + Render(ts[1..])
  }

  lemma {:induction false} RewriteStarAppend(a: string, b: string)
    ensures RewriteStar(a + b) == RewriteStar(a) + RewriteStar(b)
    decreases |a|
  {
    if |a| == 0 {
      assert a + b == b;
    } else {
      assert (a + b)[0] == a[0];
      assert (a + b)[1..] == a[1..] + b;
      RewriteStarAppend(a[1..], b);
    }
  }

  lemma {:induction false} RewriteQuestionAppend(a: string, b: string)
    ensures RewriteQuestion(a + b) == RewriteQuestion(a) + RewriteQuestion(b)
    decreases |a|
  {
    if |a| == 0 {
      assert a + b == b;
    } else {
      assert (a + b)[0] == a[0];
      assert (a + b)[1..] == a[1..] + b;
      RewriteQuestionAppend(a[1..], b);
    }
  }

  lemma {:induction false} RenderAppend(a: seq<Token>, b: seq<Token>)
    ensures Render(a + b) == Render(a) + Render(b)
    decreases |a|
  {
    if |a| == 0 {
      assert a + b == b;
    } else {
      assert (a + b)[0] == a[0];
      assert (a + b)[1..] == a[1..] + b;
      RenderAppend(a[1..], b);
    }
  }

  lemma DoubleStarRendering()
    ensures RewriteQuestion(RewriteStar(".*")) == ".[^/]*"
    ensures Render([AnyChar, NotSlashRun]) == ".[^/]*"
  {
    DotStarRewritten();
    DoubleStarTextKept();
    DoubleStarTokensRendered();
  }

  lemma DoubleStarTextKept()
    ensures RewriteQuestion(".[^/]*") == ".[^/]*"
  {
    WithoutQuestionUnchanged(".[^/]*");
  }

  lemma DotStarRewritten()
    ensures RewriteStar(".*") == ".[^/]*"
  {
    StarRewritten();
    assert RewriteStar(".") == "." + RewriteStar("");
    RewriteStarAppend(".", "*");
    assert "." + "*" == ".*";
    assert "." + "[^/]*" == ".[^/]*";
  }

  lemma StarRewritten()
    ensures RewriteStar("*") == "[^/]*"
  {
    assert RewriteStar("*") == "[^/]*" + RewriteStar("*"[1..]);
    assert "*"[1..] == "";
  }

  lemma DoubleStarTokensRendered()
    ensures Render([AnyChar, NotSlashRun]) == ".[^/]*"
  {
    var ts := [AnyChar, NotSlashRun];
    assert ts[1..] == [NotSlashRun];
    NotSlashRunRendered();
    assert Render(ts) == "." + Render([NotSlashRun]);
    assert "." + "[^/]*" == ".[^/]*";
  }

  lemma NotSlashRunRendered()
    ensures Render([NotSlashRun]) == "[^/]*"
  {
    assert [NotSlashRun][1..] == [];
    assert Render([NotSlashRun]) == "[^/]*" + Render([]);
  }

  /** Text without `?` is left alone by the `?` replacement. */
  lemma {:induction false} WithoutQuestionUnchanged(s: string)
    requires forall i :: 0 <= i < |s| ==> s[i] != '?'
    ensures RewriteQuestion(s) == s
    decreases |s|
  {
    if |s| > 0 {
      WithoutQuestionUnchanged(s[1..]);
      assert s == [s[0]] + s[1..];
    }
  }

  lemma CharRendering(c: char)
    ensures RewriteQuestion(RewriteStar([c])) == RenderToken(CharToken(c))
    ensures Render([CharToken(c)]) == RenderToken(CharToken(c))
  {
    if c == '*' {
      assert RewriteStar([c]) == "[^/]*";
      assert RewriteQuestion("[^/]*") == "[^/]*";
    } else if c == '?' {
      assert RewriteStar([c]) == [c];
    } else {
      assert RewriteStar([c]) == [c];
    }
  }

  /** The three text replacements produce exactly the rendering of the
      compiled tokens, so matching can be reasoned about on tokens. In
      particular `**` renders as `.[^/]*` and `.` is copied unescaped. */
  lemma {:induction false} CompileMatchesRegexSource(pattern: string)
    ensures RegexSource(pattern) == "^" + Render(Compile(pattern)) + "$"
    ensures RewriteQuestion(RewriteStar(RewriteDoubleStar(pattern))) == Render(Compile(pattern))
    decreases |pattern|
  {
    if |pattern| == 0 {
    } else if |pattern| >= 2 && pattern[0] == '*' && pattern[1] == '*' {
      var rest := RewriteDoubleStar(pattern[2..]);
      CompileMatchesRegexSource(pattern[2..]);
      RewriteStarAppend(".*", rest);
      RewriteQuestionAppend(RewriteStar(".*"), RewriteStar(rest));
      DoubleStarRendering();
      RenderAppend([AnyChar, NotSlashRun], Compile(pattern[2..]));
    } else {
      var c := pattern[0];
      var rest := RewriteDoubleStar(pattern[1..]);
      CompileMatchesRegexSource(pattern[1..]);
      RewriteStarAppend([c], rest);
      RewriteQuestionAppend(RewriteStar([c]), RewriteStar(rest));
      CharRendering(c);
      RenderAppend([CharToken(c)], Compile(pattern[1..]));
    }
  }

  // ---------------------------------------------------------------------
  // Matching
  // ---------------------------------------------------------------------

  /** ECMAScript line terminators: the only characters `.` does not match
      (the expression is built without the `s` flag). */
  predicate IsLineTerminator(c: char)
  {
    c == '\n' || c == '\r' || c == '\U{2028}' || c == '\U{2029}'
  }

  /** Whether a single-character token accepts `c`. */
  predicate Accepts(t: Token, c: char)
  {
    match t
    case Lit(d) => c == d
    case AnyChar => !IsLineTerminator(c)
    case NotSlash => c != '/'
    case NotSlashRun => c != '/'
  }

  /** Whether the anchored expression `^ts$` matches all of `s`. A full-string
      match of a backtracking engine succeeds exactly when some way of
      splitting `s` over the tokens exists, which is what this states. */
  predicate Matches(ts: seq<Token>, s: string)
    decreases |s|, |ts|
  {
    if |ts| == 0 then |s| == 0
    else if ts[0] == NotSlashRun then
      Matches(ts[1..], s) || (|s| > 0 && s[0] != '/' && Matches(ts, s[1..]))
    else |s| > 0 && Accepts(ts[0], s[0]) && Matches(ts[1..], s[1..])
  }

  /** Without `[^/]*` runs, a match is character by character: the path has
      one character per token and each token accepts its character. */
  lemma {:induction false} FixedTokensMatchPointwise(ts: seq<Token>, s: string)
    requires forall i :: 0 <= i < |ts| ==> ts[i] != NotSlashRun
    ensures Matches(ts, s) <==> |s| == |ts| && forall i :: 0 <= i < |s| ==> Accepts(ts[i], s[i])
    decreases |ts|
  {
    if |ts| > 0 && |s| > 0 {
      FixedTokensMatchPointwise(ts[1..], s[1..]);
      if |s| == |ts| {
        assert forall i :: 1 <= i < |s| ==> ts[1..][i - 1] == ts[i] && s[1..][i - 1] == s[i];
      }
    }
  }

  /** `matchesPattern(filePath, pattern)`. */
  predicate MatchesPattern(path: string, pattern: string)
  {
    Matches(Compile(pattern), path)
  }

  predicate SlashFree(s: string)
  {
    forall i :: 0 <= i < |s| ==> s[i] != '/'
  }

  lemma SlashFreeCons(c: char, t: string)
    requires c != '/' && SlashFree(t)
    ensures SlashFree([c] + t)
  {
  }

  lemma SlashFreeTail(c: char, t: string)
    requires SlashFree([c] + t)
    ensures c != '/' && SlashFree(t)
  {
    assert ([c] + t)[0] == c;
    forall i | 0 <= i < |t|
      ensures t[i] != '/'
    {
      assert ([c] + t)[i + 1] == t[i];
    }
  }

  /** `[^/]*` followed by `ts` matches `s` exactly when some slash-free
      prefix of `s` can be skipped and `ts` matches the rest. */
  lemma NotSlashRunSplits(ts: seq<Token>, s: string)
    ensures Matches([NotSlashRun] + ts, s) <==>
            exists k :: 0 <= k <= |s| && SlashFree(s[..k]) && Matches(ts, s[k..])
  {
    if Matches([NotSlashRun] + ts, s) {
      var k := NotSlashRunForward(ts, s);
    }
    if exists k :: 0 <= k <= |s| && SlashFree(s[..k]) && Matches(ts, s[k..]) {
      var k :| 0 <= k <= |s| && SlashFree(s[..k]) && Matches(ts, s[k..]);
      NotSlashRunBackward(ts, s, k);
    }
  }

  /** The slash-free prefix a match of `[^/]*` + `ts` skips. */
  lemma {:induction false} NotSlashRunForward(ts: seq<Token>, s: string) returns (k: nat)
    requires Matches([NotSlashRun] + ts, s)
    ensures k <= |s| && SlashFree(s[..k]) && Matches(ts, s[k..])
    decreases |s|
  {
    var run := [NotSlashRun] + ts;
    assert run[0] == NotSlashRun && run[1..] == ts;
    if Matches(ts, s) {
      k := 0;
      assert s[..0] == [] && s[0..] == s;
    } else {
      var j := NotSlashRunForward(ts, s[1..]);
      k := j + 1;
      assert s[1..][j..] == s[k..];
      assert s[..k] == [s[0]] + s[1..][..j];
      SlashFreeCons(s[0], s[1..][..j]);
    }
  }

  /** Skipping a slash-free prefix before a match of `ts` matches
      `[^/]*` + `ts`. */
  lemma {:induction false} NotSlashRunBackward(ts: seq<Token>, s: string, k: nat)
    requires k <= |s| && SlashFree(s[..k]) && Matches(ts, s[k..])
    ensures Matches([NotSlashRun] + ts, s)
    decreases k
  {
    var run := [NotSlashRun] + ts;
    assert run[0] == NotSlashRun && run[1..] == ts;
    if k == 0 {
      assert s[0..] == s;
    } else {
      assert s[..k][0] == s[0];
      assert s[1..][k - 1..] == s[k..];
      assert s[..k] == [s[0]] + s[1..][..k - 1];
      SlashFreeTail(s[0], s[1..][..k - 1]);
      NotSlashRunBackward(ts, s[1..], k - 1);
    }
  }

  /** A pattern beginning with `**` + `/` compiles to `.`, `[^/]*`, `/` and
      the rest: it matches exactly when the path starts with one
      non-line-terminator character, continues with slash-free characters up
      to a `/` at some position `k >= 1`, and the rest of the pattern matches
      what follows that slash. Such a pattern never matches a path without a
      `/`, and never looks past the first slash after position 0. */
  lemma DoubleStarSlashSplits(rest: string, s: string)
    ensures MatchesPattern(s, "**/" + rest) <==>
            exists k :: 1 <= k < |s| && !IsLineTerminator(s[0]) && SlashFree(s[1..k])
                        && s[k] == '/' && MatchesPattern(s[k + 1..], rest)
  {
    if MatchesPattern(s, "**/" + rest) {
      DoubleStarSlashForward(rest, s);
    }
    if exists k :: 1 <= k < |s| && !IsLineTerminator(s[0]) && SlashFree(s[1..k])
                   && s[k] == '/' && MatchesPattern(s[k + 1..], rest) {
      var k :| 1 <= k < |s| && !IsLineTerminator(s[0]) && SlashFree(s[1..k])
               && s[k] == '/' && MatchesPattern(s[k + 1..], rest);
      DoubleStarSlashBackward(rest, s, k);
    }
  }

  /** `**` + `/` + `rest` compiles to any character, a slash-free run, a
      literal slash and the compiled `rest`. */
  lemma DoubleStarSlashCompiles(rest: string)
    ensures var ts := Compile("**/" + rest);
            ts[0] == AnyChar && ts[1..] == [NotSlashRun] + ([Lit('/')] + Compile(rest))
  {
    var p := "**/" + rest;
    assert p[2..] == "/" + rest;
    assert ("/" + rest)[1..] == rest;
    var tail := [Lit('/')] + Compile(rest);
    assert Compile(p) == [AnyChar, NotSlashRun] + tail;
  }

  lemma DoubleStarSlashForward(rest: string, s: string)
    requires MatchesPattern(s, "**/" + rest)
    ensures exists k :: 1 <= k < |s| && !IsLineTerminator(s[0]) && SlashFree(s[1..k])
                        && s[k] == '/' && MatchesPattern(s[k + 1..], rest)
  {
    DoubleStarSlashCompiles(rest);
    var tail := [Lit('/')] + Compile(rest);
    assert |s| > 0;
    NotSlashRunSplits(tail, s[1..]);
    var j :| 0 <= j <= |s[1..]| && SlashFree(s[1..][..j]) && Matches(tail, s[1..][j..]);
    var k := j + 1;
    assert tail[0] == Lit('/') && tail[1..] == Compile(rest);
    assert s[1..][j..] == s[k..];
    assert s[1..][..j] == s[1..k];
    assert s[k + 1..] == s[k..][1..];
    assert 1 <= k < |s| && !IsLineTerminator(s[0]) && SlashFree(s[1..k])
           && s[k] == '/' && MatchesPattern(s[k + 1..], rest);
  }

  lemma DoubleStarSlashBackward(rest: string, s: string, k: nat)
    requires 1 <= k < |s| && !IsLineTerminator(s[0]) && SlashFree(s[1..k])
             && s[k] == '/' && MatchesPattern(s[k + 1..], rest)
    ensures MatchesPattern(s, "**/" + rest)
  {
    DoubleStarSlashCompiles(rest);
    var tail := [Lit('/')] + Compile(rest);
    NotSlashRunSplits(tail, s[1..]);
    assert s[1..][..k - 1] == s[1..k];
    assert s[1..][k - 1..] == s[k..];
    assert tail[0] == Lit('/') && tail[1..] == Compile(rest);
    assert s[k..][1..] == s[k + 1..];
    assert Matches(tail, s[1..][k - 1..]);
  }

  /** Corollary: a `**` + `/` pattern only matches paths containing a `/`
      after the first character. */
  lemma DoubleStarSlashNeedsSlash(rest: string, s: string)
    requires MatchesPattern(s, "**/" + rest)
    ensures exists k :: 0 < k < |s| && s[k] == '/'
  {
    DoubleStarSlashSplits(rest, s);
  }

  predicate Wildcard(c: char)
  {
    c == '*' || c == '?'
  }

  /** A pattern without `*` and `?` compiles to one single-character token per
      pattern character, so it only matches paths of its own length. */
  lemma {:induction false} FixedWidthPattern(pattern: string, s: string)
    requires forall i :: 0 <= i < |pattern| ==> !Wildcard(pattern[i])
    requires MatchesPattern(s, pattern)
    ensures |s| == |pattern|
    decreases |pattern|
  {
    if |pattern| > 0 {
      var ts := Compile(pattern);
      assert ts == [CharToken(pattern[0])] + Compile(pattern[1..]);
      assert ts[1..] == Compile(pattern[1..]);
      FixedWidthPattern(pattern[1..], s[1..]);
    }
  }

  /** A pattern without `*` and `?` matches its own text (its `.` characters
      match themselves as wildcards). */
  lemma {:induction false} LiteralMatchesItself(pattern: string)
    requires forall i :: 0 <= i < |pattern| ==> !Wildcard(pattern[i]) && !IsLineTerminator(pattern[i])
    ensures MatchesPattern(pattern, pattern)
    decreases |pattern|
  {
    if |pattern| > 0 {
      var ts := Compile(pattern);
      assert ts == [CharToken(pattern[0])] + Compile(pattern[1..]);
      assert ts[1..] == Compile(pattern[1..]);
      LiteralMatchesItself(pattern[1..]);
    }
  }

  lemma SlashFreeNeverMatchesDoubleStarSlash(rest: string, s: string)
    requires SlashFree(s)
    ensures !MatchesPattern(s, "**/" + rest)
  {
    if MatchesPattern(s, "**/" + rest) {
      DoubleStarSlashNeedsSlash(rest, s);
    }
  }

  /** The default immediate pattern for `package.json` does not match the
      root-level `package.json`. */
  lemma RootPackageJsonNotMatched()
    ensures !MatchesPattern("package.json", "**/package.json")
  {
    assert "**/package.json" == "**/" + "package.json";
    assert SlashFree("package.json");
    SlashFreeNeverMatchesDoubleStarSlash("package.json", "package.json");
  }

  lemma DoubleStarSlashIntro(rest: string, s: string, k: nat)
    requires 1 <= k < |s| && !IsLineTerminator(s[0]) && SlashFree(s[1..k]) && s[k] == '/'
    requires MatchesPattern(s[k + 1..], rest)
    ensures MatchesPattern(s, "**/" + rest)
  {
    DoubleStarSlashSplits(rest, s);
  }

  predicate PlainName(name: string)
  {
    forall i :: 0 <= i < |name| ==> !Wildcard(name[i]) && !IsLineTerminator(name[i])
  }

  /** `**` + `/` + `name`, for a name without wildcards, matches the name
      exactly one directory below the root. */
  lemma OneLevelDownMatched(dir: string, name: string)
    requires |dir| > 0 && SlashFree(dir) && !IsLineTerminator(dir[0])
    requires PlainName(name)
    ensures MatchesPattern(dir + "/" + name, "**/" + name)
  {
    var s := dir + "/" + name;
    LiteralMatchesItself(name);
    assert s[|dir| + 1..] == name;
    assert s[1..|dir|] == dir[1..];
    DoubleStarSlashIntro(name, s, |dir|);
  }

  /** ... but not two or more directories below it. */
  lemma TwoLevelsDownNotMatched(dir: string, sub: string, name: string)
    requires |dir| > 0 && SlashFree(dir)
    requires PlainName(name)
    ensures !MatchesPattern(dir + "/" + sub + "/" + name, "**/" + name)
  {
    var s := dir + "/" + sub + "/" + name;
    var tail := sub + "/" + name;
    assert s == dir + "/" + tail;
    if MatchesPattern(s, "**/" + name) {
      DoubleStarSlashForward(name, s);
      var k :| 1 <= k < |s| && !IsLineTerminator(s[0]) && SlashFree(s[1..k])
               && s[k] == '/' && MatchesPattern(s[k + 1..], name);
      FirstSlashAfterDir(dir, tail, k);
      assert s[k + 1..] == tail;
      FixedWidthPattern(name, s[k + 1..]);
      assert false;
    }
  }

  /** In `dir/tail` with a slash-free `dir`, the first slash after position
      0 is the one after `dir`. */
  lemma FirstSlashAfterDir(dir: string, tail: string, k: nat)
    requires |dir| > 0 && SlashFree(dir)
    requires 1 <= k < |dir + "/" + tail| && SlashFree((dir + "/" + tail)[1..k]) && (dir + "/" + tail)[k] == '/'
    ensures k == |dir|
  {
    var s := dir + "/" + tail;
    assert forall j :: 0 <= j < |dir| ==> s[j] == dir[j];
    assert s[|dir|] == '/';
    assert forall j :: 1 <= j < k ==> s[1..k][j - 1] == s[j];
  }

  /** Root-level `package.json` is not matched by the default immediate
      pattern for it, a `package.json` one directory down is, and one two
      directories down is not. */
  lemma PackageJsonDepths()
    ensures !MatchesPattern("package.json", "**/package.json")
    ensures MatchesPattern("src/package.json", "**/package.json")
    ensures !MatchesPattern("src/app/package.json", "**/package.json")
  {
    PackageJsonAtRoot();
    PackageJsonOneDown();
    PackageJsonTwoDown();
  }

  lemma PackageJsonAtRoot()
    ensures !MatchesPattern("package.json", "**/package.json")
  {
    PackageJsonName();
    PackageJsonPaths();
    SlashFreeNeverMatchesDoubleStarSlash("package.json", "package.json");
  }

  lemma PackageJsonOneDown()
    ensures MatchesPattern("src/package.json", "**/package.json")
  {
    PackageJsonName();
    PackageJsonPaths();
    assert SlashFree("src");
    OneLevelDownMatched("src", "package.json");
  }

  lemma PackageJsonTwoDown()
    ensures !MatchesPattern("src/app/package.json", "**/package.json")
  {
    PackageJsonName();
    PackageJsonPaths();
    assert SlashFree("src");
    TwoLevelsDownNotMatched("src", "app", "package.json");
  }

  lemma PackageJsonName()
    ensures PlainName("package.json") && SlashFree("package.json")
  {
  }

  lemma PackageJsonPaths()
    ensures "**/" + "package.json" == "**/package.json"
    ensures "src" + "/" + "package.json" == "src/package.json"
    ensures "src" + "/" + "app" + "/" + "package.json" == "src/app/package.json"
  {
  }

  /** The tokens of `*.log`, one character at a time. */
  lemma StarDotLogCompiles()
    ensures Compile("*.log") == [NotSlashRun, AnyChar, Lit('l'), Lit('o'), Lit('g')]
  {
    assert Compile("g") == [Lit('g')] by {
      assert "g"[1..] == "";
    }
    assert Compile("og") == [Lit('o')] + Compile("g") by {
      assert "og"[1..] == "g";
    }
    assert Compile("log") == [Lit('l')] + Compile("og") by {
      assert "log"[1..] == "og";
    }
    assert Compile(".log") == [AnyChar] + Compile("log") by {
      assert ".log"[1..] == "log";
    }
    assert Compile("*.log") == [NotSlashRun] + Compile(".log") by {
      assert "*.log"[1..] == ".log";
    }
  }

  lemma StarDotLogMatches(stem: string, c: char)
    requires SlashFree(stem) && c != '/' && !IsLineTerminator(c)
    ensures MatchesPattern(stem + [c] + "log", "*.log")
  {
    var name := stem + [c] + "log";
    var ts := [AnyChar, Lit('l'), Lit('o'), Lit('g')];
    StarDotLogCompiles();
    var tail := [c] + "log";
    assert Matches(ts, tail) by {
      assert tail[1..] == "log";
      assert Matches(ts[3..], "g");
      assert Matches(ts[2..], "og");
      assert Matches(ts[1..], "log");
    }
    assert name[|stem|..] == tail;
    assert name[..|stem|] == stem;
    NotSlashRunSplits(ts, name);
  }

  /** The unescaped `.` of the default ignore pattern for `.log` files lets it
      match any name of at least four characters ending in `log`, such as
      `catalog`. */
  lemma UnescapedDotMatchesAnyCharacter(dir: string, stem: string, c: char)
    requires |dir| > 0 && SlashFree(dir) && !IsLineTerminator(dir[0])
    requires SlashFree(stem) && c != '/' && !IsLineTerminator(c)
    ensures MatchesPattern(dir + "/" + stem + [c] + "log", "**/*.log")
  {
    var name := stem + [c] + "log";
    var s := dir + "/" + name;
    StarDotLogMatches(stem, c);
    assert s[|dir| + 1..] == name;
    assert s[1..|dir|] == dir[1..];
    DoubleStarSlashIntro("*.log", s, |dir|);
    assert "**/" + "*.log" == "**/*.log";
    assert s == dir + "/" + stem + [c] + "log";
  }

  lemma CatalogIsIgnoredAsLog()
    ensures MatchesPattern("lib/catalog", "**/*.log")
  {
    assert SlashFree("lib") && SlashFree("cat");
    UnescapedDotMatchesAnyCharacter("lib", "cat", 'a');
    assert "lib" + "/" + "cat" + ['a'] + "log" == "lib/catalog";
  }
}

=== FILE: orchestrator.dfy ===
/** The file-sync orchestrator (file-sync.ts): configuration defaults,
    restoring a sandbox from the store, the initial local-versus-remote
    diff, the lifecycle guards, and the statistics kept from the queue's
    reports. The local tree is a map from relative path to what reading
    that file gives; store reads are a function from key to response. */
module Orchestrator {
  import opened Base
  import opened Seqs
  import Watcher
  import Gitignore
  import Queue
  import ObjectStore

  // ------------------------------------------------------ configuration

  /** The caller's options; an absent number takes its default. */
  datatype SyncConfig = SyncConfig(
    sandboxId: string,
    rootDir: string,
    batchSize: Option<nat>,
    batchInterval: Option<nat>,
    maxRetries: Option<nat>,
    ignorePaths: seq<string>,
    immediateSync: seq<string>)

  const DefaultBatchSize: nat := 10
  const DefaultBatchInterval: nat := 30000
  const DefaultMaxRetries: nat := 3

  /** What the constructor derives: the watcher's and the queue's settings. */
  datatype Setup = Setup(sandboxId: string, rootDir: string, watcher: Watcher.WatcherConfig, queue: Queue.QueueConfig)

  function OrDefault(o: Option<nat>, d: nat): (r: nat)
    ensures o.None? ==> r == d
    ensures o.Some? ==> r == o.value
  {
    if o.Some? then o.value else d
  }

  /** The constructor: defaults for the queue settings, and the watcher's
      ignore list extended by the caller's patterns and then the
      `.gitignore` translation (`gitignore` is the file's text, if it could
      be read). */
  function Construct(cfg: SyncConfig, gitignore: Option<string>): (s: Setup)
    ensures s.sandboxId == cfg.sandboxId && s.rootDir == cfg.rootDir
    ensures s.queue == Queue.QueueConfig(cfg.sandboxId, OrDefault(cfg.batchSize, DefaultBatchSize),
                                         OrDefault(cfg.batchInterval, DefaultBatchInterval),
                                         OrDefault(cfg.maxRetries, DefaultMaxRetries))
    ensures s.watcher.rootDir == cfg.rootDir
    ensures |s.watcher.immediateSync| == 15 + |cfg.immediateSync|
    ensures s.watcher.immediateSync[15..] == cfg.immediateSync
    ensures s.watcher.ignorePaths ==
              Watcher.DefaultIgnorePatterns + (cfg.ignorePaths + Gitignore.ReadGitignorePatterns(gitignore))
    ensures s.watcher.immediateSync == Watcher.DefaultImmediatePatterns + cfg.immediateSync
  {
    var ignore := Gitignore.MergeIgnorePatterns(cfg.ignorePaths, gitignore);
    Setup(cfg.sandboxId, cfg.rootDir,
          Watcher.Configure(cfg.rootDir, ignore, cfg.immediateSync),
          Queue.QueueConfig(cfg.sandboxId, OrDefault(cfg.batchSize, DefaultBatchSize),
                            OrDefault(cfg.batchInterval, DefaultBatchInterval),
                            OrDefault(cfg.maxRetries, DefaultMaxRetries)))
  }

  /** A path is ignored by the constructed watcher iff a built-in pattern,
      one of the caller's patterns, or a translated `.gitignore` pattern
      matches it. */
  lemma ConstructedIgnores(cfg: SyncConfig, gitignore: Option<string>, path: string)
    ensures Watcher.IsIgnored(Construct(cfg, gitignore).watcher, path) <==>
              Watcher.AnyMatches(Watcher.DefaultIgnorePatterns, path) ||
              Watcher.AnyMatches(cfg.ignorePaths, path) ||
              Watcher.AnyMatches(Gitignore.ReadGitignorePatterns(gitignore), path)
  {
    var w := Construct(cfg, gitignore).watcher;
    var git := Gitignore.ReadGitignorePatterns(gitignore);
    assert w.ignorePaths == Watcher.DefaultIgnorePatterns + (cfg.ignorePaths + git);
    Watcher.AnyMatchesExists(w.ignorePaths, path);
    Watcher.AnyMatchesAppend(Watcher.DefaultIgnorePatterns, cfg.ignorePaths + git, path);
    Watcher.AnyMatchesAppend(cfg.ignorePaths, git, path);
  }

  /** The queue priority of a path: immediate iff an immediate-sync pattern
      matches it. */
  function PriorityFor(w: Watcher.WatcherConfig, path: string): (p: Queue.Priority)
    ensures p == Queue.Immediate <==> Watcher.IsImmediateSync(w, path)
  {
    if Watcher.IsImmediateSync(w, path) then Queue.Immediate else Queue.Batch
  }

  // ------------------------------------------------------------ restore

  /** A local file: readable with its content, or present but unreadable. */
  datatype LocalEntry = Readable(content: Bytes) | Unreadable

  type LocalFiles = map<string, LocalEntry>

  /** The local copy already holds what the listing describes. */
  predicate UpToDate(hash: Hasher, fs: LocalFiles, file: ObjectStore.RemoteFile)
  {
    file.path in fs && fs[file.path].Readable? && hash(fs[file.path].content) == file.hash
  }

  datatype RestoreOutcome = Skipped | Restored(content: Bytes) | Failed(message: string)

  /** `restoreFile`: an empty path or an unset root is an error; a local
      file that exists, is readable and has the listed hash is kept; any
      other file is downloaded, and a download that brings nothing back is
      an error. */
  function RestoreFile(setup: Setup, hash: Hasher, get: string -> ObjectStore.GetResponse,
                       fs: LocalFiles, file: ObjectStore.RemoteFile): (r: RestoreOutcome)
    ensures file.path == "" ==> r == Failed("File path is undefined")
    ensures file.path != "" && setup.rootDir == "" ==> r == Failed("Root directory is undefined")
    ensures r.Skipped? <==> file.path != "" && setup.rootDir != "" && UpToDate(hash, fs, file)
    ensures r.Restored? <==>
              file.path != "" && setup.rootDir != "" && !UpToDate(hash, fs, file) &&
              ObjectStore.DownloadFile(get(ObjectStore.Key(setup.sandboxId, file.path))).Ok? &&
              ObjectStore.DownloadFile(get(ObjectStore.Key(setup.sandboxId, file.path))).value.Some?
    ensures r.Restored? ==>
              ObjectStore.DownloadFile(get(ObjectStore.Key(setup.sandboxId, file.path))) == Ok(Some(r.content))
  {
    if file.path == "" then Failed("File path is undefined")
    else if setup.rootDir == "" then Failed("Root directory is undefined")
    else if UpToDate(hash, fs, file) then Skipped
    else match ObjectStore.DownloadFile(get(ObjectStore.Key(setup.sandboxId, file.path)))
      case Err(e) => Failed(e)
      case Ok(None) => Failed("No content received for file: " + file.path)
      case Ok(Some(content)) => Restored(content)
  }

  /** The local tree after one restore: only a download writes. */
  function Apply(fs: LocalFiles, path: string, o: RestoreOutcome): (r: LocalFiles)
    ensures o.Restored? ==> r == fs[path := Readable(o.content)]
    ensures !o.Restored? ==> r == fs
  {
    if o.Restored? then fs[path := Readable(o.content)] else fs
  }

  datatype RestoreError = RestoreError(path: string, message: string)

  datatype RestoreRun = RestoreRun(fs: LocalFiles, restored: nat, errors: seq<RestoreError>)

  /** Restoring the listed files one after the other; a failure is recorded
      and the remaining files are still restored. A skipped file counts as
      restored. */
  function RestoreAll(setup: Setup, hash: Hasher, get: string -> ObjectStore.GetResponse,
                      fs: LocalFiles, files: seq<ObjectStore.RemoteFile>): (r: RestoreRun)
    ensures r.restored + |r.errors| == |files|
    ensures forall p :: (forall i :: 0 <= i < |files| ==> files[i].path != p) ==>
              (p in r.fs <==> p in fs) && (p in fs ==> r.fs[p] == fs[p])
    decreases |files|
  {
    if |files| == 0 then RestoreRun(fs, 0, [])
    else
      var o := RestoreFile(setup, hash, get, fs, files[0]);
      var rest := RestoreAll(setup, hash, get, Apply(fs, files[0].path, o), files[1..]);
      match o
      case Failed(msg) => RestoreRun(rest.fs, rest.restored, [RestoreError(files[0].path, msg)] + rest.errors)
      case _ => RestoreRun(rest.fs, rest.restored + 1, rest.errors)
  }

  predicate DistinctPaths(files: seq<ObjectStore.RemoteFile>)
  {
    forall i, j :: 0 <= i < j < |files| ==> files[i].path != files[j].path
  }

  /** With distinct listed paths, each file the store can deliver ends up
      locally: either the local copy was already up to date and is kept, or
      it is replaced by the downloaded content. */
  lemma {:induction false} RestoreBringsFile(setup: Setup, hash: Hasher, get: string -> ObjectStore.GetResponse,
                                             fs: LocalFiles, files: seq<ObjectStore.RemoteFile>, i: nat)
    requires DistinctPaths(files) && i < |files|
    requires files[i].path != "" && setup.rootDir != ""
    requires ObjectStore.DownloadFile(get(ObjectStore.Key(setup.sandboxId, files[i].path))).Ok?
    requires ObjectStore.DownloadFile(get(ObjectStore.Key(setup.sandboxId, files[i].path))).value.Some?
    ensures var p := files[i].path;
            var r := RestoreAll(setup, hash, get, fs, files).fs;
            p in r &&
            r[p] == (if UpToDate(hash, fs, files[i]) then fs[p]
                     else Readable(ObjectStore.DownloadFile(get(ObjectStore.Key(setup.sandboxId, p))).value.value))
    decreases |files|
  {
    var p := files[i].path;
    var o := RestoreFile(setup, hash, get, fs, files[0]);
    var fs1 := Apply(fs, files[0].path, o);
    assert DistinctPaths(files[1..]) by {
      forall a, b | 0 <= a < b < |files[1..]| ensures files[1..][a].path != files[1..][b].path {
        assert files[1..][a] == files[a + 1] && files[1..][b] == files[b + 1];
      }
    }
    if i == 0 {
      assert forall k :: 0 <= k < |files[1..]| ==> files[1..][k].path != p by {
        forall k | 0 <= k < |files[1..]| ensures files[1..][k].path != p {
          assert files[1..][k] == files[k + 1];
        }
      }
    } else {
      assert files[1..][i - 1] == files[i];
      assert files[0].path != p;
      assert UpToDate(hash, fs1, files[i]) == UpToDate(hash, fs, files[i]);
      RestoreBringsFile(setup, hash, get, fs1, files[1..], i - 1);
    }
  }

  /** Some listed file is the package manifest. */
  function ListsManifest(files: seq<ObjectStore.RemoteFile>): (r: bool)
    ensures r <==> exists i :: 0 <= i < |files| && files[i].path == "package.json"
  {
    if |files| == 0 then false
    else if files[0].path == "package.json" then true
    else
      var r := ListsManifest(files[1..]);
      assert forall i :: 1 <= i < |files| ==> files[1..][i - 1] == files[i];
      r
  }

  /** `detectPackageManager`: the first lockfile present, in the order pnpm,
      yarn, npm, decides; without any the answer is npm. */
  function DetectPackageManager(fs: LocalFiles): (r: string)
    ensures r == "pnpm" <==> "pnpm-lock.yaml" in fs
    ensures r == "yarn" <==> "pnpm-lock.yaml" !in fs && "yarn.lock" in fs
    ensures r == "npm" <==> "pnpm-lock.yaml" !in fs && "yarn.lock" !in fs
  {
    if "pnpm-lock.yaml" in fs then "pnpm"
    else if "yarn.lock" in fs then "yarn"
    else if "package-lock.json" in fs then "npm"
    else "npm"
  }

  /** An error handed to the caller's error callback, with its context. */
  datatype ErrorReport = ErrorReport(message: string, context: string)

  datatype RestoreReport = RestoreReport(
    fs: LocalFiles,
    restored: nat,
    errors: seq<RestoreError>,
    packageManager: Option<string>,
    reported: seq<ErrorReport>)

  /** `restoreFromR2`: a failed listing is reported under "R2 restore" and
      swallowed; an empty listing does nothing; otherwise every listed file
      is restored, per-file failures are collected, and when the listing
      holds `package.json` the package manager is chosen from the restored
      tree. */
  function RestoreFromStore(setup: Setup, hash: Hasher, get: string -> ObjectStore.GetResponse,
                            fs: LocalFiles, listing: Result<seq<ObjectStore.RemoteFile>>): (r: RestoreReport)
    ensures listing.Err? ==> r == RestoreReport(fs, 0, [], None, [ErrorReport(listing.error, "R2 restore")])
    ensures listing.Ok? ==> r.reported == [] && r.restored + |r.errors| == |listing.value|
    ensures listing.Ok? ==>
              (r.packageManager.Some? <==> exists i :: 0 <= i < |listing.value| && listing.value[i].path == "package.json")
    ensures r.packageManager.Some? ==> r.packageManager.value == DetectPackageManager(r.fs)
    ensures listing.Ok? ==> RestoreRun(r.fs, r.restored, r.errors) == RestoreAll(setup, hash, get, fs, listing.value)
    ensures forall p :: (listing.Err? || forall i :: 0 <= i < |listing.value| ==> listing.value[i].path != p) ==>
              (p in r.fs <==> p in fs) && (p in fs ==> r.fs[p] == fs[p])
  {
    match listing
    case Err(e) => RestoreReport(fs, 0, [], None, [ErrorReport(e, "R2 restore")])
    case Ok(files) =>
      if |files| == 0 then RestoreReport(fs, 0, [], None, [])
      else
        var run := RestoreAll(setup, hash, get, fs, files);
        var pm := if ListsManifest(files) then Some(DetectPackageManager(run.fs)) else None;
        RestoreReport(run.fs, run.restored, run.errors, pm, [])
  }

  /** A file the store delivers ends up in the restored tree: an up-to-date
      local copy is kept, anything else is replaced by the download. */
  lemma RestoreFromStoreBringsFile(setup: Setup, hash: Hasher, get: string -> ObjectStore.GetResponse,
                                   fs: LocalFiles, files: seq<ObjectStore.RemoteFile>, i: nat)
    requires DistinctPaths(files) && i < |files|
    requires files[i].path != "" && setup.rootDir != ""
    requires ObjectStore.DownloadFile(get(ObjectStore.Key(setup.sandboxId, files[i].path))).Ok?
    requires ObjectStore.DownloadFile(get(ObjectStore.Key(setup.sandboxId, files[i].path))).value.Some?
    ensures var p := files[i].path;
            var r := RestoreFromStore(setup, hash, get, fs, Ok(files)).fs;
            p in r &&
            r[p] == (if UpToDate(hash, fs, files[i]) then fs[p]
                     else Readable(ObjectStore.DownloadFile(get(ObjectStore.Key(setup.sandboxId, p))).value.value))
  {
    RestoreBringsFile(setup, hash, get, fs, files, i);
  }

  // ------------------------------------------------------- initial sync

  /** The hash the listing gives a path; the lookup table built from the
      listing keeps the last entry of each path. */
  function RemoteHash(remote: seq<ObjectStore.RemoteFile>, path: string): (r: Option<string>)
    ensures r.None? <==> forall j :: 0 <= j < |remote| ==> remote[j].path != path
    decreases |remote|
  {
    if |remote| == 0 then None
    else if remote[|remote| - 1].path == path then Some(remote[|remote| - 1].hash)
    else
      var r := RemoteHash(remote[..|remote| - 1], path);
      assert forall j :: 0 <= j < |remote| - 1 ==> remote[..|remote| - 1][j] == remote[j];
      r
  }

  /** When the listing has an entry for the path, the hash found is that of
      its last entry. */
  lemma {:induction false} RemoteHashIsLastEntry(remote: seq<ObjectStore.RemoteFile>, path: string)
    requires RemoteHash(remote, path).Some?
    ensures exists j :: 0 <= j < |remote| && remote[j].path == path &&
                        remote[j].hash == RemoteHash(remote, path).value &&
                        forall k :: j < k < |remote| ==> remote[k].path != path
    decreases |remote|
  {
    var n := |remote| - 1;
    if remote[n].path == path {
      assert remote[n].hash == RemoteHash(remote, path).value;
    } else {
      var front := remote[..n];
      assert RemoteHash(remote, path) == RemoteHash(front, path);
      RemoteHashIsLastEntry(front, path);
      var j :| 0 <= j < |front| && front[j].path == path &&
               front[j].hash == RemoteHash(front, path).value &&
               forall k :: j < k < |front| ==> front[k].path != path;
      assert remote[j] == front[j];
      assert forall k :: j < k < n ==> remote[k] == front[k];
    }
  }

  /** A local file must be uploaded when the store has no entry for its
      path or the entry's hash differs from the local one. */
  predicate NeedsUpload(c: Watcher.FileChange, remote: seq<ObjectStore.RemoteFile>)
  {
    var h := RemoteHash(remote, c.path);
    h.None? || c.hash != Some(h.value)
  }

  function Uploads(local: seq<Watcher.FileChange>, remote: seq<ObjectStore.RemoteFile>): (r: seq<Watcher.FileChange>)
    ensures |r| <= |local|
    ensures forall i :: 0 <= i < |r| ==> r[i] in local && NeedsUpload(r[i], remote)
    ensures forall i :: 0 <= i < |local| && NeedsUpload(local[i], remote) ==> local[i] in r
  {
    if |local| == 0 then []
    else if NeedsUpload(local[0], remote) then [local[0]] + Uploads(local[1..], remote)
    else Uploads(local[1..], remote)
  }

  /** The uploads keep the scan order: the uploads of two consecutive parts
      of the scan are the uploads of the first part followed by those of the
      second. */
  lemma {:induction false} UploadsInScanOrder(a: seq<Watcher.FileChange>, b: seq<Watcher.FileChange>,
                                              remote: seq<ObjectStore.RemoteFile>)
    ensures Uploads(a + b, remote) == Uploads(a, remote) + Uploads(b, remote)
    decreases |a|
  {
    if |a| == 0 {
      assert a + b == b;
    } else {
      assert (a + b)[0] == a[0];
      assert (a + b)[1..] == a[1..] + b;
      UploadsInScanOrder(a[1..], b, remote);
    }
  }

  /** A single file is uploaded exactly when it needs it. */
  lemma UploadsSingle(c: Watcher.FileChange, remote: seq<ObjectStore.RemoteFile>)
    ensures Uploads([c], remote) == if NeedsUpload(c, remote) then [c] else []
  {
    assert [c][1..] == [];
  }

  function LocalPaths(local: seq<Watcher.FileChange>): (r: set<string>)
    ensures forall i :: 0 <= i < |local| ==> local[i].path in r
    ensures forall p :: p in r ==> exists i :: 0 <= i < |local| && local[i].path == p
  {
    set i | 0 <= i < |local| :: local[i].path
  }

  /** The removal the initial sync queues for a remote-only path. */
  function UnlinkOf(path: string): Watcher.FileChange
  {
    Watcher.FileChange(path, Watcher.Unlink, None, None, None)
  }

  function Deletions(localPaths: set<string>, remote: seq<ObjectStore.RemoteFile>): (r: seq<Watcher.FileChange>)
    ensures |r| <= |remote|
    ensures forall i :: 0 <= i < |r| ==> r[i] == UnlinkOf(r[i].path) && r[i].path !in localPaths
    ensures forall i :: 0 <= i < |r| ==> exists j :: 0 <= j < |remote| && remote[j].path == r[i].path
    ensures forall j :: 0 <= j < |remote| && remote[j].path !in localPaths ==> UnlinkOf(remote[j].path) in r
  {
    if |remote| == 0 then []
    else
      var rest := Deletions(localPaths, remote[1..]);
      assert forall j :: 1 <= j < |remote| ==> remote[1..][j - 1] == remote[j];
      if remote[0].path !in localPaths then [UnlinkOf(remote[0].path)] + rest else rest
  }

  /** The changes the initial sync queues: new or changed local files in
      scan order, then removals of remote-only paths in listing order. */
  function Diff(local: seq<Watcher.FileChange>, remote: seq<ObjectStore.RemoteFile>): (r: seq<Watcher.FileChange>)
    ensures forall i :: 0 <= i < |local| && NeedsUpload(local[i], remote) ==> local[i] in r
    ensures forall j :: 0 <= j < |remote| && remote[j].path !in LocalPaths(local) ==> UnlinkOf(remote[j].path) in r
    ensures forall k :: 0 <= k < |r| ==>
              (r[k] in local && NeedsUpload(r[k], remote)) ||
              (r[k] == UnlinkOf(r[k].path) && r[k].path !in LocalPaths(local) &&
               exists j :: 0 <= j < |remote| && remote[j].path == r[k].path)
    ensures |Uploads(local, remote)| <= |r| && r[..|Uploads(local, remote)|] == Uploads(local, remote)
    ensures forall k :: |Uploads(local, remote)| <= k < |r| ==>
              r[k] == UnlinkOf(r[k].path) && r[k].path !in LocalPaths(local)
  {
    Uploads(local, remote) + Deletions(LocalPaths(local), remote)
  }

  /** A tree and a listing that mirror each other (same paths, equal hashes)
      need no sync at all. */
  lemma MirroredStateQueuesNothing(local: seq<Watcher.FileChange>, remote: seq<ObjectStore.RemoteFile>)
    requires forall i :: 0 <= i < |local| ==> local[i].hash == RemoteHash(remote, local[i].path)
    requires forall i :: 0 <= i < |local| ==> local[i].hash.Some?
    requires forall j :: 0 <= j < |remote| ==> remote[j].path in LocalPaths(local)
    ensures Diff(local, remote) == []
  {
  }

  /** A file that exists only locally is uploaded, and a path that exists
      only remotely is removed from the store. */
  lemma OneSidedPathsAreSynced(local: seq<Watcher.FileChange>, remote: seq<ObjectStore.RemoteFile>, i: nat, j: nat)
    requires i < |local| && j < |remote|
    requires forall k :: 0 <= k < |remote| ==> remote[k].path != local[i].path
    requires remote[j].path !in LocalPaths(local)
    ensures local[i] in Diff(local, remote)
    ensures UnlinkOf(remote[j].path) in Diff(local, remote)
  {
  }

  /** Queueing the changes one after the other, each with its priority. */
  function QueueAll(w: Watcher.WatcherConfig, q: Queue.QueueState, changes: seq<Watcher.FileChange>): (r: Queue.Step)
    ensures r.state.stopped == q.stopped
    ensures q.stopped ==> r == Queue.Step(q, [])
    decreases |changes|
  {
    if |changes| == 0 then Queue.Step(q, [])
    else
      var first := Queue.AddFile(q, changes[0], PriorityFor(w, changes[0].path));
      var rest := QueueAll(w, first.state, changes[1..]);
      Queue.Step(rest.state, first.dispatched + rest.dispatched)
  }

  /** An entry already queued for a path none of the changes touches is,
      after queueing them, still queued or handed to the store. */
  lemma {:induction false} QueueAllKeeps(w: Watcher.WatcherConfig, q: Queue.QueueState,
                                         changes: seq<Watcher.FileChange>, e: Queue.QueuedFile)
    requires e in q.entries
    requires forall k :: 0 <= k < |changes| ==> changes[k].path != e.change.path
    ensures var r := QueueAll(w, q, changes);
            e in r.state.entries || e in Flatten(r.dispatched)
    decreases |changes|
  {
    if |changes| > 0 {
      var first := Queue.AddFile(q, changes[0], PriorityFor(w, changes[0].path));
      Queue.AddFileKeepsOthers(q, changes[0], PriorityFor(w, changes[0].path), e);
      if e in first.state.entries {
        assert forall k :: 0 <= k < |changes[1..]| ==> changes[1..][k] == changes[k + 1];
        QueueAllKeeps(w, first.state, changes[1..], e);
        DeliveredByRest(w, q, changes, e);
      } else {
        DispatchedFirstStays(w, q, changes, e);
      }
    }
  }

  /** What the first change hands to the store stays handed over. */
  lemma DispatchedFirstStays(w: Watcher.WatcherConfig, q: Queue.QueueState,
                             changes: seq<Watcher.FileChange>, e: Queue.QueuedFile)
    requires |changes| > 0
    requires e in Flatten(Queue.AddFile(q, changes[0], PriorityFor(w, changes[0].path)).dispatched)
    ensures e in Flatten(QueueAll(w, q, changes).dispatched)
  {
    var first := Queue.AddFile(q, changes[0], PriorityFor(w, changes[0].path));
    var rest := QueueAll(w, first.state, changes[1..]);
    assert QueueAll(w, q, changes) == Queue.Step(rest.state, first.dispatched + rest.dispatched);
    FlattenAppend(first.dispatched, rest.dispatched);
  }

  /** An entry the first change leaves queued or dispatched is, after the
      remaining changes (none for its path), still queued or dispatched. */
  lemma DeliveredThroughRest(w: Watcher.WatcherConfig, q: Queue.QueueState,
                             changes: seq<Watcher.FileChange>, e: Queue.QueuedFile)
    requires |changes| > 0
    requires var first := Queue.AddFile(q, changes[0], PriorityFor(w, changes[0].path));
             e in first.state.entries || e in Flatten(first.dispatched)
    requires forall k :: 1 <= k < |changes| ==> changes[k].path != e.change.path
    ensures var r := QueueAll(w, q, changes);
            e in r.state.entries || e in Flatten(r.dispatched)
  {
    var first := Queue.AddFile(q, changes[0], PriorityFor(w, changes[0].path));
    if e in first.state.entries {
      assert forall k :: 0 <= k < |changes[1..]| ==> changes[1..][k] == changes[k + 1];
      QueueAllKeeps(w, first.state, changes[1..], e);
      DeliveredByRest(w, q, changes, e);
    } else {
      DispatchedFirstStays(w, q, changes, e);
    }
  }

  /** Every change whose path is not queued again later reaches the queue
      of a running queue: it is left pending or handed to the store, as a
      fresh entry with the priority its path calls for. */
  lemma {:induction false} QueueAllDelivers(w: Watcher.WatcherConfig, q: Queue.QueueState,
                                            changes: seq<Watcher.FileChange>, i: nat)
    requires !q.stopped && i < |changes|
    requires forall k :: i < k < |changes| ==> changes[k].path != changes[i].path
    ensures var r := QueueAll(w, q, changes);
            var e := Queue.QueuedFile(changes[i], PriorityFor(w, changes[i].path), 0);
            e in r.state.entries || e in Flatten(r.dispatched)
    decreases |changes|
  {
    var e := Queue.QueuedFile(changes[i], PriorityFor(w, changes[i].path), 0);
    if i == 0 {
      Queue.AddFileDeliversItself(q, changes[0], PriorityFor(w, changes[0].path));
      DeliveredThroughRest(w, q, changes, e);
    } else {
      var first := Queue.AddFile(q, changes[0], PriorityFor(w, changes[0].path));
      assert changes[1..][i - 1] == changes[i];
      QueueAllDelivers(w, first.state, changes[1..], i - 1);
      DeliveredByRest(w, q, changes, e);
    }
  }

  /** What the remaining changes leave queued or dispatched is left queued
      or dispatched by the whole run. */
  lemma DeliveredByRest(w: Watcher.WatcherConfig, q: Queue.QueueState,
                        changes: seq<Watcher.FileChange>, e: Queue.QueuedFile)
    requires |changes| > 0
    requires var first := Queue.AddFile(q, changes[0], PriorityFor(w, changes[0].path));
             var rest := QueueAll(w, first.state, changes[1..]);
             e in rest.state.entries || e in Flatten(rest.dispatched)
    ensures var r := QueueAll(w, q, changes);
            e in r.state.entries || e in Flatten(r.dispatched)
  {
    var first := Queue.AddFile(q, changes[0], PriorityFor(w, changes[0].path));
    var rest := QueueAll(w, first.state, changes[1..]);
    assert QueueAll(w, q, changes) == Queue.Step(rest.state, first.dispatched + rest.dispatched);
    FlattenAppend(first.dispatched, rest.dispatched);
  }

  datatype Stats = Stats(totalFiles: nat, syncedFiles: nat, failedFiles: nat, queuedFiles: nat)

  const ZeroStats := Stats(0, 0, 0, 0)

  /** The outcome of an initialisation phase: completed or thrown. */
  datatype Outcome = Done | Threw(error: string)

  datatype InitialRun = InitialRun(
    queue: Queue.QueueState,
    dispatched: seq<seq<Queue.QueuedFile>>,
    stats: Stats,
    reported: seq<ErrorReport>,
    outcome: Outcome)

  /** `performInitialSync` given the scan and the listing: a failure of
      either is reported under "Initial sync" and thrown on; otherwise the
      diff is queued and, unless it was empty, the total is set to the
      number of local files. */
  function InitialSync(setup: Setup, q: Queue.QueueState, stats: Stats,
                       scan: Result<seq<Watcher.FileChange>>,
                       listing: Result<seq<ObjectStore.RemoteFile>>): (r: InitialRun)
    ensures r.outcome.Threw? <==> scan.Err? || listing.Err?
    ensures scan.Err? ==> r.outcome == Threw(scan.error)
    ensures scan.Ok? && listing.Err? ==> r.outcome == Threw(listing.error)
    ensures r.outcome.Threw? ==>
              r.queue == q && r.stats == stats && r.reported == [ErrorReport(r.outcome.error, "Initial sync")]
    ensures r.outcome.Done? ==> r.reported == []
    ensures r.outcome.Done? && Diff(scan.value, listing.value) == [] ==> r.queue == q && r.stats == stats && r.dispatched == []
    ensures r.outcome.Done? && Diff(scan.value, listing.value) != [] ==>
              r.stats == stats.(totalFiles := |scan.value|) &&
              Queue.Step(r.queue, r.dispatched) == QueueAll(setup.watcher, q, Diff(scan.value, listing.value))
  {
    match scan
    case Err(e) => InitialRun(q, [], stats, [ErrorReport(e, "Initial sync")], Threw(e))
    case Ok(local) =>
      match listing
      case Err(e) => InitialRun(q, [], stats, [ErrorReport(e, "Initial sync")], Threw(e))
      case Ok(remote) =>
        var diff := Diff(local, remote);
        if |diff| == 0 then InitialRun(q, [], stats, [], Done)
        else
          var queued := QueueAll(setup.watcher, q, diff);
          InitialRun(queued.state, queued.dispatched, stats.(totalFiles := |local|), [], Done)
  }

  // ---------------------------------------------------------- lifecycle

  /** The orchestrator's own state and the parts it drives. */
  datatype Engine = Engine(
    initialized: bool,
    running: bool,
    watcher: Watcher.WatcherState,
    queue: Queue.QueueState,
    stats: Stats)

  const Constructed := Engine(false, false, Watcher.Idle, Queue.Fresh, ZeroStats)

  /** What the local tree shows the directory walk, read by read. */
  function Walked(fs: LocalFiles, paths: seq<string>): (r: seq<Watcher.Found>)
    ensures |r| == |paths|
    ensures forall i :: 0 <= i < |paths| ==> r[i].path == paths[i]
    ensures forall i :: 0 <= i < |paths| ==>
              (r[i].read.ReadOk? <==> paths[i] in fs && fs[paths[i]].Readable?)
    ensures forall i :: 0 <= i < |paths| && r[i].read.ReadOk? ==>
              r[i].read == Watcher.ReadOk(fs[paths[i]].content, |fs[paths[i]].content|)
  {
    if |paths| == 0 then []
    else
      var p := paths[0];
      var read := if p in fs && fs[p].Readable? then Watcher.ReadOk(fs[p].content, |fs[p].content|) else Watcher.ReadFailed;
      [Watcher.Found(p, read)] + Walked(fs, paths[1..])
  }

  /** `initialize`: a no-op once initialized. Otherwise the sandbox is first
      restored from the store (whose listing failure is only reported),
      then the restored tree is scanned and diffed against a second listing.
      A failure there is reported under "Initial sync" and again under
      "FileSync initialization" and thrown on; the engine counts as
      initialized only when both phases completed. `walk` is the directory
      walk of the restored tree, or its failure. */
  /** The scan of the restored tree, or the walk's error. */
  method ScanWalk(setup: Setup, hash: Hasher, fs: LocalFiles, walk: Result<seq<string>>)
    returns (scan: Result<seq<Watcher.FileChange>>)
    ensures walk.Err? ==> scan == Err(walk.error)
    ensures walk.Ok? ==> scan == Ok(Watcher.Scanned(setup.watcher.rootDir, hash, Walked(fs, walk.value)))
  {
    match walk {
      case Err(err) =>
        scan := Err(err);
      case Ok(paths) =>
        var changes := Watcher.ScanExistingFiles(setup.watcher, hash, Walked(fs, paths));
        scan := Ok(changes);
    }
  }

  method Initialize(setup: Setup, hash: Hasher, get: string -> ObjectStore.GetResponse, e: Engine,
                    fs: LocalFiles, restoreListing: Result<seq<ObjectStore.RemoteFile>>,
                    walk: Result<seq<string>>, syncListing: Result<seq<ObjectStore.RemoteFile>>)
    returns (r: Engine, fsOut: LocalFiles, dispatched: seq<seq<Queue.QueuedFile>>,
             reported: seq<ErrorReport>, outcome: Outcome)
    ensures e.initialized ==> r == e && fsOut == fs && dispatched == [] && reported == [] && outcome == Done
    ensures !e.initialized ==> fsOut == RestoreFromStore(setup, hash, get, fs, restoreListing).fs
    ensures !e.initialized ==> (outcome.Done? <==> walk.Ok? && syncListing.Ok?)
    ensures !e.initialized && walk.Err? ==> outcome == Threw(walk.error)
    ensures !e.initialized && walk.Ok? && syncListing.Err? ==> outcome == Threw(syncListing.error)
    ensures !e.initialized ==> (r.initialized <==> outcome.Done?)
    ensures !e.initialized && restoreListing.Err? ==> |reported| > 0 && reported[0] == ErrorReport(restoreListing.error, "R2 restore")
    ensures !e.initialized && outcome.Threw? ==>
              |reported| >= 2 && reported[|reported| - 1] == ErrorReport(outcome.error, "FileSync initialization") &&
              reported[|reported| - 2] == ErrorReport(outcome.error, "Initial sync")
    ensures !e.initialized && outcome.Done? ==>
              walk.Ok? &&
              var run := InitialSync(setup, e.queue, e.stats,
                                     Ok(Watcher.Scanned(setup.watcher.rootDir, hash, Walked(fsOut, walk.value))),
                                     syncListing);
              r.queue == run.queue && r.stats == run.stats && dispatched == run.dispatched
    ensures r.running == e.running && r.watcher == e.watcher
  {
    if e.initialized {
      return e, fs, [], [], Done;
    }
    var restore := RestoreFromStore(setup, hash, get, fs, restoreListing);
    fsOut := restore.fs;
    reported := restore.reported;
    var scan := ScanWalk(setup, hash, fsOut, walk);
    var run := InitialSync(setup, e.queue, e.stats, scan, syncListing);
    reported := reported + run.reported;
    dispatched := run.dispatched;
    outcome := run.outcome;
    if outcome.Threw? {
      reported := reported + [ErrorReport(outcome.error, "FileSync initialization")];
      r := e;
    } else {
      r := e.(initialized := true, queue := run.queue, stats := run.stats);
    }
  }

  datatype EngineStep = EngineStep(engine: Engine, dispatched: seq<seq<Queue.QueuedFile>>)

  /** `start`: refused before initialisation, a no-op while running;
      otherwise the queue is started, then the watcher, and the engine runs. */
  function Start(e: Engine): (r: Result<EngineStep>)
    ensures r.Err? <==> !e.initialized
    ensures e.initialized && e.running ==> r == Ok(EngineStep(e, []))
    ensures e.initialized && !e.running ==>
              r.Ok? && r.value.engine.running && !r.value.engine.queue.stopped &&
              r.value.engine.watcher == Watcher.Start(e.watcher) &&
              Queue.Step(r.value.engine.queue, r.value.dispatched) == Queue.Start(e.queue)
  {
    if !e.initialized then Err("FileSync must be initialized before starting")
    else if e.running then Ok(EngineStep(e, []))
    else
      var q := Queue.Start(e.queue);
      Ok(EngineStep(e.(queue := q.state, watcher := Watcher.Start(e.watcher), running := true), q.dispatched))
  }

  /** `stop` when the queue's flush terminates: a no-op unless running;
      otherwise the watcher is stopped, every queued file is flushed to the
      store, and only then is the queue stopped. */
  method Stop(setup: Setup, e: Engine) returns (r: EngineStep)
    requires setup.queue.batchSize > 0 && !e.queue.processing
    ensures !e.running ==> r == EngineStep(e, [])
    ensures e.running ==>
              !r.engine.running && r.engine.watcher == Watcher.Stop(e.watcher) &&
              r.engine.queue.stopped && r.engine.queue.entries == [] && !r.engine.queue.timerArmed
    ensures e.running && !e.queue.stopped ==> multiset(Flatten(r.dispatched)) == multiset(e.queue.entries)
    ensures r.engine.initialized == e.initialized && r.engine.stats == e.stats
  {
    if !e.running {
      return EngineStep(e, []);
    }
    var w := Watcher.Stop(e.watcher);
    var flushed := Queue.Flush(setup.queue, e.queue);
    var q := Queue.Stop(flushed.state);
    r := EngineStep(e.(watcher := w, queue := q, running := false), flushed.dispatched);
  }

  /** `cleanup`: stops a running engine; the store is left as it is. */
  method Cleanup(setup: Setup, e: Engine) returns (r: EngineStep)
    requires setup.queue.batchSize > 0 && !e.queue.processing
    ensures !r.engine.running
    ensures !e.running ==> r == EngineStep(e, [])
    ensures e.running ==>
              r.engine.watcher == Watcher.Stop(e.watcher) &&
              r.engine.queue.stopped && r.engine.queue.entries == [] && !r.engine.queue.timerArmed
    ensures e.running && !e.queue.stopped ==> multiset(Flatten(r.dispatched)) == multiset(e.queue.entries)
    ensures r.engine.initialized == e.initialized && r.engine.stats == e.stats
  {
    r := Stop(setup, e);
  }

  /** `isActive`: running and the watcher has seen its ready event. */
  function IsActive(e: Engine): (r: bool)
    ensures r ==> e.running && e.watcher.watching
    ensures !r ==> !e.running || !e.watcher.watching
  {
    e.running && e.watcher.watching
  }

  /** A freshly started engine is not yet active: the watcher only becomes
      active with its ready event. */
  lemma ActiveOnlyAfterReady(e: Engine)
    requires e.initialized && !e.running && !e.watcher.watching
    ensures Start(e).Ok? && !IsActive(Start(e).value.engine)
    ensures IsActive(Start(e).value.engine.(watcher := Watcher.OnReady(Start(e).value.engine.watcher)))
  {
  }

  // -------------------------------------------------------------- stats

  /** `handleFileChange`: the change is queued with its path's priority and
      the queued counter goes up, whether or not the queue accepted it. */
  function OnFileChange(setup: Setup, e: Engine, change: Watcher.FileChange): (r: EngineStep)
    ensures r.engine.stats == e.stats.(queuedFiles := e.stats.queuedFiles + 1)
    ensures Queue.Step(r.engine.queue, r.dispatched) == Queue.AddFile(e.queue, change, PriorityFor(setup.watcher, change.path))
    ensures r.engine.running == e.running && r.engine.initialized == e.initialized && r.engine.watcher == e.watcher
  {
    var added := Queue.AddFile(e.queue, change, PriorityFor(setup.watcher, change.path));
    EngineStep(e.(queue := added.state, stats := e.stats.(queuedFiles := e.stats.queuedFiles + 1)), added.dispatched)
  }

  /** `handleSyncResult`: one more success or failure, and one fewer queued
      file, never going below zero. */
  function HandleSyncResult(s: Stats, success: bool): (r: Stats)
    ensures success ==> r.syncedFiles == s.syncedFiles + 1 && r.failedFiles == s.failedFiles
    ensures !success ==> r.failedFiles == s.failedFiles + 1 && r.syncedFiles == s.syncedFiles
    ensures r.queuedFiles == if s.queuedFiles > 0 then s.queuedFiles - 1 else 0
    ensures r.totalFiles == s.totalFiles
  {
    var counted := if success then s.(syncedFiles := s.syncedFiles + 1) else s.(failedFiles := s.failedFiles + 1);
    counted.(queuedFiles := if s.queuedFiles > 0 then s.queuedFiles - 1 else 0)
  }

  /** The queue's callbacks for an attempt: success and giving up are
      reported, a scheduled retry is not. */
  function OnSyncOutcome(s: Stats, o: Queue.SyncOutcome): (r: Stats)
    ensures o.RetryAfter? ==> r == s
    ensures o.Synced? ==> r == HandleSyncResult(s, true)
    ensures o.GaveUp? ==> r == HandleSyncResult(s, false)
  {
    match o
    case Synced => HandleSyncResult(s, true)
    case GaveUp => HandleSyncResult(s, false)
    case RetryAfter(_, _) => s
  }

  /** `getStats`: the stored counters, with the queued count taken from the
      queue itself. */
  function GetStats(e: Engine): (r: Stats)
    ensures r.totalFiles == e.stats.totalFiles && r.syncedFiles == e.stats.syncedFiles
    ensures r.failedFiles == e.stats.failedFiles
    ensures r.queuedFiles == |e.queue.entries|
  {
    e.stats.(queuedFiles := Queue.Status(e.queue).totalFiles)
  }

  /** A change arriving while the queue is stopped raises the stored
      counter, but the reported statistics stay the same. */
  lemma ChangeWhileStoppedIsInvisible(setup: Setup, e: Engine, change: Watcher.FileChange)
    requires e.queue.stopped
    ensures OnFileChange(setup, e, change).engine.stats.queuedFiles == e.stats.queuedFiles + 1
    ensures GetStats(OnFileChange(setup, e, change).engine) == GetStats(e)
  {
  }
}

=== FILE: queue.dfy ===
/** The sync queue (sync-queue.ts): a per-path deduplicating dispatcher with
    two priorities, batching behind a single timer, and bounded retries with
    exponential backoff. Each entry point is a transition on an immutable
    queue state; what it hands to the store is returned as the groups of
    files synced together. Timer and retry firings are explicit transitions,
    and whether a store call succeeded is an input. */
module Queue {
  import opened Base
  import opened Seqs
  import opened Watcher
  import ObjectStore

  datatype Priority = Immediate | Batch

  /** A queued change; the time it was queued is not modelled. */
  datatype QueuedFile = QueuedFile(change: FileChange, priority: Priority, retryCount: nat)

  datatype QueueConfig = QueueConfig(sandboxId: string, batchSize: nat, batchInterval: nat, maxRetries: nat)

  /** The queue's fields: the pending entries, whether a batch timer is
      armed, whether a batch is being processed, and whether it is stopped. */
  datatype QueueState = QueueState(entries: seq<QueuedFile>, timerArmed: bool, processing: bool, stopped: bool)

  /** A freshly constructed queue. */
  const Fresh := QueueState([], false, false, false)

  /** A transition's new state and the groups of files it syncs, in order;
      the files of one group are synced concurrently. */
  datatype Step = Step(state: QueueState, dispatched: seq<seq<QueuedFile>>)

  /** At most this many immediate files are synced at once. */
  const ImmediateConcurrency: nat := 5
  /** At most this many batch files are synced at once. */
  const BatchConcurrency: nat := 3

  function Min(a: nat, b: nat): nat
  {
    if a < b then a else b
  }

  // --------------------------------------------------------- selections

  /** The entries of one priority, in queue order. */
  function OfPriority(qs: seq<QueuedFile>, p: Priority): (r: seq<QueuedFile>)
    ensures |r| <= |qs|
    ensures forall i :: 0 <= i < |r| ==> r[i].priority == p && r[i] in qs
    ensures forall i :: 0 <= i < |qs| && qs[i].priority == p ==> qs[i] in r
  {
    if |qs| == 0 then []
    else if qs[0].priority == p then [qs[0]] + OfPriority(qs[1..], p)
    else OfPriority(qs[1..], p)
  }

  lemma {:induction false} OfPriorityAppend(a: seq<QueuedFile>, b: seq<QueuedFile>, p: Priority)
    ensures OfPriority(a + b, p) == OfPriority(a, p) + OfPriority(b, p)
  {
    if |a| == 0 {
      assert a + b == b;
    } else {
      assert (a + b)[0] == a[0] && (a + b)[1..] == a[1..] + b;
      OfPriorityAppend(a[1..], b, p);
    }
  }

  /** Every entry has one of the two priorities: the queue splits into its
      immediate and its batch entries, nothing lost and nothing added. */
  lemma {:induction false} PriorityPartition(qs: seq<QueuedFile>)
    ensures multiset(qs) == multiset(OfPriority(qs, Immediate)) + multiset(OfPriority(qs, Batch))
    ensures |qs| == |OfPriority(qs, Immediate)| + |OfPriority(qs, Batch)|
  {
    if |qs| > 0 {
      PriorityPartition(qs[1..]);
      assert qs == [qs[0]] + qs[1..];
    }
  }

  lemma {:induction false} OfPriorityIdempotent(qs: seq<QueuedFile>, p: Priority)
    ensures OfPriority(OfPriority(qs, p), p) == OfPriority(qs, p)
  {
    if |qs| > 0 {
      OfPriorityIdempotent(qs[1..], p);
      if qs[0].priority == p {
        var r := OfPriority(qs, p);
        assert r[0] == qs[0] && r[1..] == OfPriority(qs[1..], p);
      }
    }
  }

  lemma {:induction false} OfOtherPriorityEmpty(qs: seq<QueuedFile>, p: Priority, o: Priority)
    requires p != o
    ensures OfPriority(OfPriority(qs, p), o) == []
  {
    if |qs| > 0 {
      OfOtherPriorityEmpty(qs[1..], p, o);
      if qs[0].priority == p {
        var r := OfPriority(qs, p);
        assert r[0] == qs[0] && r[1..] == OfPriority(qs[1..], p);
      }
    }
  }

  /** The queue without every entry for `path`, others in their order. */
  function WithoutPath(qs: seq<QueuedFile>, path: string): (r: seq<QueuedFile>)
    ensures |r| <= |qs|
    ensures forall i :: 0 <= i < |r| ==> r[i].change.path != path && r[i] in qs
    ensures forall i :: 0 <= i < |qs| && qs[i].change.path != path ==> qs[i] in r
  {
    if |qs| == 0 then []
    else if qs[0].change.path == path then WithoutPath(qs[1..], path)
    else [qs[0]] + WithoutPath(qs[1..], path)
  }

  lemma {:induction false} WithoutPathAppend(a: seq<QueuedFile>, b: seq<QueuedFile>, path: string)
    ensures WithoutPath(a + b, path) == WithoutPath(a, path) + WithoutPath(b, path)
  {
    if |a| == 0 {
      assert a + b == b;
    } else {
      assert (a + b)[0] == a[0] && (a + b)[1..] == a[1..] + b;
      WithoutPathAppend(a[1..], b, path);
    }
  }

  lemma {:induction false} WithoutAbsentPath(qs: seq<QueuedFile>, path: string)
    requires forall i :: 0 <= i < |qs| ==> qs[i].change.path != path
    ensures WithoutPath(qs, path) == qs
  {
    if |qs| > 0 {
      WithoutAbsentPath(qs[1..], path);
      assert qs == [qs[0]] + qs[1..];
    }
  }

  /** No two entries are for the same path. */
  predicate UniquePaths(qs: seq<QueuedFile>)
  {
    forall i, j :: 0 <= i < j < |qs| ==> qs[i].change.path != qs[j].change.path
  }

  // ------------------------------------------------------------ addFile

  /** The enqueue step of `addFile`: every entry for the path is dropped and
      one fresh entry, never retried yet, is appended. */
  function Enqueue(qs: seq<QueuedFile>, change: FileChange, p: Priority): (r: seq<QueuedFile>)
    ensures |r| > 0 && r[|r| - 1] == QueuedFile(change, p, 0)
    ensures r[..|r| - 1] == WithoutPath(qs, change.path)
    ensures forall i :: 0 <= i < |r| - 1 ==> r[i].change.path != change.path
    ensures UniquePaths(qs) ==> UniquePaths(r)
  {
    var kept := WithoutPath(qs, change.path);
    var r := kept + [QueuedFile(change, p, 0)];
    assert r[..|r| - 1] == kept;
    assert UniquePaths(qs) ==> UniquePaths(kept) by {
      if UniquePaths(qs) {
        WithoutPathUnique(qs, change.path);
      }
    }
    r
  }

  /** Dropping a path's entries keeps the remaining paths distinct. */
  lemma {:induction false} WithoutPathUnique(qs: seq<QueuedFile>, path: string)
    requires UniquePaths(qs)
    ensures UniquePaths(WithoutPath(qs, path))
  {
    if |qs| > 0 {
      var tl := qs[1..];
      assert UniquePaths(tl) by {
        forall a, b | 0 <= a < b < |tl| ensures tl[a].change.path != tl[b].change.path {
          assert tl[a] == qs[a + 1] && tl[b] == qs[b + 1];
        }
      }
      WithoutPathUnique(tl, path);
      var rt := WithoutPath(tl, path);
      if qs[0].change.path != path {
        var r := [qs[0]] + rt;
        assert WithoutPath(qs, path) == r;
        forall i, j | 0 <= i < j < |r| ensures r[i].change.path != r[j].change.path {
          assert r[j] == rt[j - 1];
          if i == 0 {
            HeadPathUnique(qs, rt[j - 1]);
          } else {
            assert r[i] == rt[i - 1];
          }
        }
      }
    }
  }

  lemma HeadPathUnique(qs: seq<QueuedFile>, x: QueuedFile)
    requires UniquePaths(qs) && |qs| > 0 && x in qs[1..]
    ensures x.change.path != qs[0].change.path
  {
    var k :| 0 <= k < |qs| - 1 && qs[1..][k] == x;
    assert qs[k + 1] == x;
  }

  /** Queueing the same path twice keeps only the second change. */
  lemma LastWriteWins(qs: seq<QueuedFile>, c1: FileChange, p1: Priority, c2: FileChange, p2: Priority)
    requires c1.path == c2.path
    ensures Enqueue(Enqueue(qs, c1, p1), c2, p2) == Enqueue(qs, c2, p2)
  {
    var kept := WithoutPath(qs, c1.path);
    WithoutPathAppend(kept, [QueuedFile(c1, p1, 0)], c1.path);
    WithoutAbsentPath(kept, c1.path);
    assert WithoutPath([QueuedFile(c1, p1, 0)], c1.path) == [];
  }

  /** Arming the batch timer: nothing happens while a timer is armed or a
      batch is being processed, so there is never more than one timer. */
  function ScheduleBatch(st: QueueState): (r: QueueState)
    ensures r.entries == st.entries && r.processing == st.processing && r.stopped == st.stopped
    ensures r.timerArmed <==> st.timerArmed || !st.processing
  {
    if st.timerArmed || st.processing then st else st.(timerArmed := true)
  }

  /** `processImmediateFiles`: all immediate entries leave the queue and are
      synced in groups of at most five; the batch entries stay, in order. */
  function ProcessImmediate(st: QueueState): (r: Step)
    ensures Flatten(r.dispatched) == OfPriority(st.entries, Immediate)
    ensures forall i :: 0 <= i < |r.dispatched| ==> 0 < |r.dispatched[i]| <= ImmediateConcurrency
    ensures |OfPriority(st.entries, Immediate)| == 0 ==> r == Step(st, [])
    ensures |OfPriority(st.entries, Immediate)| > 0 ==>
              r.state == st.(entries := OfPriority(st.entries, Batch))
  {
    var immediate := OfPriority(st.entries, Immediate);
    if |immediate| == 0 then Step(st, [])
    else
      Step(st.(entries := OfPriority(st.entries, Batch)),
           Chunks(immediate, Min(|immediate|, ImmediateConcurrency)))
  }

  /** `addFile`: ignored by a stopped queue; otherwise the change is queued
      and either the immediate entries are synced at once or the batch
      timer is armed. */
  function AddFile(st: QueueState, change: FileChange, p: Priority): (r: Step)
    ensures st.stopped ==> r == Step(st, [])
    ensures r.state.stopped == st.stopped
    ensures !st.stopped && p == Batch ==>
              r.dispatched == [] && r.state == ScheduleBatch(st.(entries := Enqueue(st.entries, change, p)))
    ensures !st.stopped && p == Immediate ==>
              QueuedFile(change, Immediate, 0) in Flatten(r.dispatched) &&
              Flatten(r.dispatched) == OfPriority(Enqueue(st.entries, change, p), Immediate) &&
              (forall i :: 0 <= i < |r.dispatched| ==> 0 < |r.dispatched[i]| <= ImmediateConcurrency) &&
              r.state == st.(entries := OfPriority(Enqueue(st.entries, change, p), Batch)) &&
              forall i :: 0 <= i < |r.state.entries| ==> r.state.entries[i].change.path != change.path
  {
    if st.stopped then Step(st, [])
    else
      var queued := st.(entries := Enqueue(st.entries, change, p));
      if p == Immediate then
        var e := queued.entries;
        assert e[|e| - 1] in OfPriority(e, Immediate);
        var batch := OfPriority(e, Batch);
        forall i | 0 <= i < |batch| ensures batch[i].change.path != change.path {
          var k :| 0 <= k < |e| && e[k] == batch[i];
          assert k != |e| - 1;
        }
        ProcessImmediate(queued)
      else
        Step(ScheduleBatch(queued), [])
  }

  /** An entry for another path survives `addFile`: it is still queued or
      has just been handed to the store. */
  lemma AddFileKeepsOthers(st: QueueState, change: FileChange, p: Priority, e: QueuedFile)
    requires e in st.entries && e.change.path != change.path
    ensures var r := AddFile(st, change, p);
            e in r.state.entries || e in Flatten(r.dispatched)
  {
    if !st.stopped {
      var queued := Enqueue(st.entries, change, p);
      EnqueueKeepsOthers(st.entries, change, p, e);
      var k :| 0 <= k < |queued| && queued[k] == e;
      if p == Immediate {
        if e.priority == Immediate {
          assert e in OfPriority(queued, Immediate);
        } else {
          assert e in OfPriority(queued, Batch);
        }
      }
    }
  }

  /** Queueing a change keeps the entries of other paths. */
  lemma EnqueueKeepsOthers(qs: seq<QueuedFile>, change: FileChange, p: Priority, e: QueuedFile)
    requires e in qs && e.change.path != change.path
    ensures e in Enqueue(qs, change, p)
  {
    var r := Enqueue(qs, change, p);
    assert e in WithoutPath(qs, change.path);
    assert r == r[..|r| - 1] + [r[|r| - 1]];
  }

  /** On a running queue the added change itself is afterwards queued or
      handed to the store, as a fresh entry with its priority. */
  lemma AddFileDeliversItself(st: QueueState, change: FileChange, p: Priority)
    requires !st.stopped
    ensures var r := AddFile(st, change, p);
            QueuedFile(change, p, 0) in r.state.entries || QueuedFile(change, p, 0) in Flatten(r.dispatched)
  {
    if p == Batch {
      var qs := Enqueue(st.entries, change, p);
      assert qs[|qs| - 1] == QueuedFile(change, p, 0);
    }
  }

  // -------------------------------------------------- processBatchFiles

  lemma TakeCons(x: QueuedFile, xs: seq<QueuedFile>, n: nat)
    requires n > 0
    ensures Take([x] + xs, n) == [x] + Take(xs, n - 1)
  {
  }

  /** The queue once the first `n` batch entries are taken out; removal is by
      position, the entries being distinct objects. */
  function DropBatch(qs: seq<QueuedFile>, n: nat): (r: seq<QueuedFile>)
    ensures OfPriority(r, Immediate) == OfPriority(qs, Immediate)
    ensures OfPriority(r, Batch) == OfPriority(qs, Batch)[Min(n, |OfPriority(qs, Batch)|)..]
    ensures multiset(qs) == multiset(Take(OfPriority(qs, Batch), n)) + multiset(r)
    ensures |r| == |qs| - Min(n, |OfPriority(qs, Batch)|)
  {
    if |qs| == 0 then []
    else if n > 0 && qs[0].priority == Batch then
      var rest := DropBatch(qs[1..], n - 1);
      DropBatchTaken(qs, n, rest);
      rest
    else
      var rest := DropBatch(qs[1..], n);
      DropBatchKept(qs, n, rest);
      [qs[0]] + rest
  }

  /** The step of `DropBatch` that takes the head, a batch entry, out. */
  lemma DropBatchTaken(qs: seq<QueuedFile>, n: nat, rest: seq<QueuedFile>)
    requires |qs| > 0 && n > 0 && qs[0].priority == Batch
    requires OfPriority(rest, Immediate) == OfPriority(qs[1..], Immediate)
    requires OfPriority(rest, Batch) == OfPriority(qs[1..], Batch)[Min(n - 1, |OfPriority(qs[1..], Batch)|)..]
    requires multiset(qs[1..]) == multiset(Take(OfPriority(qs[1..], Batch), n - 1)) + multiset(rest)
    requires |rest| == |qs[1..]| - Min(n - 1, |OfPriority(qs[1..], Batch)|)
    ensures OfPriority(rest, Immediate) == OfPriority(qs, Immediate)
    ensures OfPriority(rest, Batch) == OfPriority(qs, Batch)[Min(n, |OfPriority(qs, Batch)|)..]
    ensures multiset(qs) == multiset(Take(OfPriority(qs, Batch), n)) + multiset(rest)
    ensures |rest| == |qs| - Min(n, |OfPriority(qs, Batch)|)
  {
    var b := OfPriority(qs[1..], Batch);
    assert OfPriority(qs, Batch) == [qs[0]] + b;
    assert OfPriority(qs, Immediate) == OfPriority(qs[1..], Immediate);
    TakeCons(qs[0], b, n);
    assert Min(n, |b| + 1) == Min(n - 1, |b|) + 1;
    assert ([qs[0]] + b)[Min(n - 1, |b|) + 1..] == b[Min(n - 1, |b|)..];
    assert qs == [qs[0]] + qs[1..];
    MultisetCons(qs[0], qs[1..], Take(b, n - 1), rest);
  }

  lemma MultisetCons<T>(x: T, xs: seq<T>, taken: seq<T>, rest: seq<T>)
    requires multiset(xs) == multiset(taken) + multiset(rest)
    ensures multiset([x] + xs) == multiset([x] + taken) + multiset(rest)
    ensures multiset([x] + xs) == multiset(taken) + multiset([x] + rest)
  {
  }

  /** The step of `DropBatch` that keeps the head. */
  lemma DropBatchKept(qs: seq<QueuedFile>, n: nat, rest: seq<QueuedFile>)
    requires |qs| > 0 && (n == 0 || qs[0].priority != Batch)
    requires OfPriority(rest, Immediate) == OfPriority(qs[1..], Immediate)
    requires OfPriority(rest, Batch) == OfPriority(qs[1..], Batch)[Min(n, |OfPriority(qs[1..], Batch)|)..]
    requires multiset(qs[1..]) == multiset(Take(OfPriority(qs[1..], Batch), n)) + multiset(rest)
    requires |rest| == |qs[1..]| - Min(n, |OfPriority(qs[1..], Batch)|)
    ensures var r := [qs[0]] + rest;
            OfPriority(r, Immediate) == OfPriority(qs, Immediate) &&
            OfPriority(r, Batch) == OfPriority(qs, Batch)[Min(n, |OfPriority(qs, Batch)|)..] &&
            multiset(qs) == multiset(Take(OfPriority(qs, Batch), n)) + multiset(r) &&
            |r| == |qs| - Min(n, |OfPriority(qs, Batch)|)
  {
    assert qs == [qs[0]] + qs[1..];
    MultisetCons(qs[0], qs[1..], Take(OfPriority(qs[1..], Batch), n), rest);
    if qs[0].priority == Batch {
      DropBatchKeptBatch(qs, rest);
    } else {
      DropBatchKeptImmediate(qs, n, rest);
    }
  }

  lemma DropBatchKeptBatch(qs: seq<QueuedFile>, rest: seq<QueuedFile>)
    requires |qs| > 0 && qs[0].priority == Batch
    requires OfPriority(rest, Immediate) == OfPriority(qs[1..], Immediate)
    requires OfPriority(rest, Batch) == OfPriority(qs[1..], Batch)
    ensures var r := [qs[0]] + rest;
            OfPriority(r, Immediate) == OfPriority(qs, Immediate) &&
            OfPriority(r, Batch) == OfPriority(qs, Batch) &&
            Take(OfPriority(qs, Batch), 0) == [] && Take(OfPriority(qs[1..], Batch), 0) == []
  {
    var r := [qs[0]] + rest;
    assert r[0] == qs[0] && r[1..] == rest;
    assert OfPriority(qs, Batch) == [qs[0]] + OfPriority(qs[1..], Batch);
    assert OfPriority(r, Batch) == [qs[0]] + OfPriority(rest, Batch);
  }

  lemma DropBatchKeptImmediate(qs: seq<QueuedFile>, n: nat, rest: seq<QueuedFile>)
    requires |qs| > 0 && qs[0].priority == Immediate
    requires OfPriority(rest, Immediate) == OfPriority(qs[1..], Immediate)
    ensures var r := [qs[0]] + rest;
            OfPriority(r, Immediate) == OfPriority(qs, Immediate) &&
            OfPriority(r, Batch) == OfPriority(rest, Batch) &&
            OfPriority(qs, Batch) == OfPriority(qs[1..], Batch)
  {
    var r := [qs[0]] + rest;
    assert r[0] == qs[0] && r[1..] == rest;
    assert OfPriority(qs, Immediate) == [qs[0]] + OfPriority(qs[1..], Immediate);
    assert OfPriority(r, Immediate) == [qs[0]] + OfPriority(rest, Immediate);
  }

  /** The first half of `processBatchFiles`, up to the syncs: nothing while a
      batch is running or the queue is stopped; otherwise the timer is
      cleared, processing starts, and the first `batchSize` batch entries
      leave the queue to be synced in groups of at most three. With no batch
      entry processing ends at once. */
  function BeginBatch(cfg: QueueConfig, st: QueueState): (r: Step)
    ensures st.processing || st.stopped ==> r == Step(st, [])
    ensures !st.processing && !st.stopped ==>
              !r.state.timerArmed && r.state.stopped == st.stopped &&
              Flatten(r.dispatched) == Take(OfPriority(st.entries, Batch), cfg.batchSize) &&
              r.state.entries == DropBatch(st.entries, cfg.batchSize) &&
              (r.state.processing <==> |r.dispatched| > 0)
    ensures forall i :: 0 <= i < |r.dispatched| ==> 0 < |r.dispatched[i]| <= BatchConcurrency
  {
    if st.processing || st.stopped then Step(st, [])
    else
      var running := st.(timerArmed := false, processing := true);
      var picked := Take(OfPriority(st.entries, Batch), cfg.batchSize);
      if |picked| == 0 then
        assert DropBatch(st.entries, cfg.batchSize) == st.entries by {
          DropNothing(st.entries, cfg.batchSize);
        }
        Step(running.(processing := false), [])
      else
        Step(running.(entries := DropBatch(st.entries, cfg.batchSize)),
             Chunks(picked, Min(|picked|, BatchConcurrency)))
  }

  lemma DropNothing(qs: seq<QueuedFile>, n: nat)
    requires n == 0 || |OfPriority(qs, Batch)| == 0
    ensures DropBatch(qs, n) == qs
  {
    if n == 0 {
      DropZero(qs);
    } else {
      DropFromNoBatch(qs, n);
    }
  }

  lemma {:induction false} DropZero(qs: seq<QueuedFile>)
    ensures DropBatch(qs, 0) == qs
  {
    if |qs| > 0 {
      var tail := qs[1..];
      DropZero(tail);
      DropBatchKeepsHead(qs, 0);
      assert DropBatch(qs, 0) == [qs[0]] + tail;
      assert forall i :: 0 <= i < |qs| ==> qs[i] == ([qs[0]] + tail)[i];
    }
  }

  lemma {:induction false} DropFromNoBatch(qs: seq<QueuedFile>, n: nat)
    requires |OfPriority(qs, Batch)| == 0
    ensures DropBatch(qs, n) == qs
  {
    if |qs| > 0 {
      var tail := qs[1..];
      assert qs[0] in qs;
      assert qs[0].priority != Batch;
      assert OfPriority(qs, Batch) == OfPriority(tail, Batch);
      DropFromNoBatch(tail, n);
      DropBatchKeepsHead(qs, n);
      assert DropBatch(qs, n) == [qs[0]] + tail;
      assert forall i :: 0 <= i < |qs| ==> qs[i] == ([qs[0]] + tail)[i];
    }
  }

  lemma DropBatchKeepsHead(qs: seq<QueuedFile>, n: nat)
    requires |qs| > 0 && (n == 0 || qs[0].priority != Batch)
    ensures DropBatch(qs, n) == [qs[0]] + DropBatch(qs[1..], n)
  {
  }

  predicate HasBatch(qs: seq<QueuedFile>)
  {
    |OfPriority(qs, Batch)| > 0
  }

  /** The second half of `processBatchFiles`, after the syncs: when batch
      entries remain it asks for the timer, but it does so before clearing
      the processing flag, so the request is refused. */
  function EndBatch(st: QueueState): (r: QueueState)
    requires st.processing
    ensures r.entries == st.entries && r.stopped == st.stopped && !r.processing
    ensures r.timerArmed == st.timerArmed
  {
    var asked := if HasBatch(st.entries) then ScheduleBatch(st) else st;
    asked.(processing := false)
  }

  /** `processBatchFiles` run to completion without other events in between. */
  function ProcessBatch(cfg: QueueConfig, st: QueueState): (r: Step)
    ensures st.processing || st.stopped ==> r == Step(st, [])
    ensures !st.processing && !st.stopped ==>
              r.state == st.(entries := DropBatch(st.entries, cfg.batchSize), timerArmed := false) &&
              Flatten(r.dispatched) == Take(OfPriority(st.entries, Batch), cfg.batchSize)
    ensures forall i :: 0 <= i < |r.dispatched| ==> 0 < |r.dispatched[i]| <= BatchConcurrency
  {
    var b := BeginBatch(cfg, st);
    if b.state.processing && !st.processing then Step(EndBatch(b.state), b.dispatched) else b
  }

  /** When more batch entries are queued than one batch takes, the batch
      ends with entries left, no timer armed and nothing running: the rest
      waits for the next event that arms the timer. */
  lemma OverflowIsNotRescheduled(cfg: QueueConfig, st: QueueState)
    requires !st.processing && !st.stopped
    requires |OfPriority(st.entries, Batch)| > cfg.batchSize
    ensures var r := ProcessBatch(cfg, st).state;
            HasBatch(r.entries) && !r.timerArmed && !r.processing
  {
  }

  // ----------------------------------------------------------- syncFile

  function Pow2(n: nat): (r: nat)
    ensures r >= 1
  {
    if n == 0 then 1 else 2 * Pow2(n - 1)
  }

  /** The store call made for a change. */
  datatype StoreOp = PutOp(key: string, content: Bytes) | DeleteOp(key: string)

  /** What follows an attempt: success, a retry of the updated entry after a
      delay in milliseconds, or giving up (reported as a failed sync and an
      error). */
  datatype SyncOutcome = Synced | RetryAfter(file: QueuedFile, delay: nat) | GaveUp

  datatype SyncAttempt = SyncAttempt(op: Option<StoreOp>, outcome: SyncOutcome)

  /** `syncFile`: a removal deletes the key and anything else uploads the
      content; a change without content makes no store call and fails. A
      failure is retried while the retry count is below the maximum, with
      the count one higher and a delay of 2 to that count seconds. */
  function SyncFile(cfg: QueueConfig, qf: QueuedFile, storeOk: bool): (r: SyncAttempt)
    ensures qf.change.kind == Unlink ==> r.op == Some(DeleteOp(ObjectStore.Key(cfg.sandboxId, qf.change.path)))
    ensures qf.change.kind != Unlink ==> (r.op.Some? <==> qf.change.content.Some?)
    ensures qf.change.kind != Unlink && r.op.Some? ==>
              r.op.value == PutOp(ObjectStore.Key(cfg.sandboxId, qf.change.path), qf.change.content.value)
    ensures r.outcome.Synced? <==> r.op.Some? && storeOk
    ensures r.outcome.RetryAfter? <==> !(r.op.Some? && storeOk) && qf.retryCount < cfg.maxRetries
    ensures r.outcome.RetryAfter? ==>
              r.outcome.file == qf.(retryCount := qf.retryCount + 1) &&
              r.outcome.delay == Pow2(qf.retryCount + 1) * 1000
  {
    var key := ObjectStore.Key(cfg.sandboxId, qf.change.path);
    var op :=
      if qf.change.kind == Unlink then Some(DeleteOp(key))
      else if qf.change.content.Some? then Some(PutOp(key, qf.change.content.value))
      else None;
    if op.Some? && storeOk then SyncAttempt(op, Synced)
    else if qf.retryCount < cfg.maxRetries then
      var next := qf.(retryCount := qf.retryCount + 1);
      SyncAttempt(op, RetryAfter(next, Pow2(next.retryCount) * 1000))
    else SyncAttempt(op, GaveUp)
  }

  /** The delays of the retries of a file whose every attempt fails. */
  function FailureDelays(cfg: QueueConfig, qf: QueuedFile): seq<nat>
    decreases cfg.maxRetries - qf.retryCount
  {
    match SyncFile(cfg, qf, false).outcome
    case RetryAfter(next, d) => [d] + FailureDelays(cfg, next)
    case _ => []
  }

  /** A file that always fails is retried until the count reaches the
      maximum, waiting 2, 4, 8, ... seconds, and then given up: a fresh
      entry is attempted `maxRetries + 1` times and reported failed once. */
  lemma {:induction false} AlwaysFailing(cfg: QueueConfig, qf: QueuedFile)
    requires qf.retryCount <= cfg.maxRetries
    ensures |FailureDelays(cfg, qf)| == cfg.maxRetries - qf.retryCount
    ensures forall i :: 0 <= i < |FailureDelays(cfg, qf)| ==>
              FailureDelays(cfg, qf)[i] == Pow2(qf.retryCount + i + 1) * 1000
    ensures SyncFile(cfg, qf.(retryCount := cfg.maxRetries), false).outcome == GaveUp
    decreases cfg.maxRetries - qf.retryCount
  {
    if qf.retryCount < cfg.maxRetries {
      var next := qf.(retryCount := qf.retryCount + 1);
      AlwaysFailing(cfg, next);
      var ds := FailureDelays(cfg, qf);
      assert ds == [Pow2(qf.retryCount + 1) * 1000] + FailureDelays(cfg, next);
      assert next.(retryCount := cfg.maxRetries) == qf.(retryCount := cfg.maxRetries);
    }
  }

  /** A change without content is retried like any failed store call. */
  lemma MissingContentIsRetried(cfg: QueueConfig, qf: QueuedFile, storeOk: bool)
    requires qf.change.kind != Unlink && qf.change.content.None?
    requires qf.retryCount < cfg.maxRetries
    ensures SyncFile(cfg, qf, storeOk).outcome.RetryAfter?
  {
  }

  /** The retry timer: unless the queue was stopped meanwhile, the entry is
      appended as it is (no deduplication) and processed by its priority. */
  function RetryFire(st: QueueState, qf: QueuedFile): (r: Step)
    ensures st.stopped ==> r == Step(st, [])
    ensures !st.stopped && qf.priority == Batch ==>
              r == Step(ScheduleBatch(st.(entries := st.entries + [qf])), [])
    ensures !st.stopped && qf.priority == Immediate ==>
              Flatten(r.dispatched) == OfPriority(st.entries, Immediate) + [qf] &&
              r.state == st.(entries := OfPriority(st.entries, Batch))
  {
    if st.stopped then Step(st, [])
    else
      var back := st.(entries := st.entries + [qf]);
      if qf.priority == Immediate then
        OfPriorityAppend(st.entries, [qf], Batch);
        assert OfPriority([qf], Batch) == [];
        OfPriorityAppend(st.entries, [qf], Immediate);
        assert OfPriority([qf], Immediate) == [qf];
        ProcessImmediate(back)
      else
        Step(ScheduleBatch(back), [])
  }

  /** Because a retried entry is appended without deduplication, the queue
      can hold two entries for one path: a batch entry retried while a newer
      change for its path is queued. */
  lemma RetryCanDuplicatePath(st: QueueState, qf: QueuedFile, i: nat)
    requires !st.stopped && qf.priority == Batch
    requires i < |st.entries| && st.entries[i].change.path == qf.change.path
    ensures !UniquePaths(RetryFire(st, qf).state.entries)
  {
    var e := RetryFire(st, qf).state.entries;
    assert e[i] == st.entries[i] && e[|st.entries|] == qf;
  }

  // ------------------------------------------------ stop, start, status

  /** `stop`: the queue is stopped, emptied and its timer cleared; a batch
      already running keeps its processing flag. */
  function Stop(st: QueueState): (r: QueueState)
    ensures r.stopped && r.entries == [] && !r.timerArmed
    ensures r.processing == st.processing
  {
    st.(stopped := true, entries := [], timerArmed := false)
  }

  /** A stopped queue takes no file, neither new nor retried. */
  lemma StoppedQueueTakesNothing(st: QueueState, change: FileChange, p: Priority, qf: QueuedFile)
    ensures AddFile(Stop(st), change, p) == Step(Stop(st), [])
    ensures RetryFire(Stop(st), qf) == Step(Stop(st), [])
  {
  }

  /** `start`: the queue runs again; entries left over are processed, the
      immediate ones synced at once and the timer armed for the rest. */
  function Start(st: QueueState): (r: Step)
    ensures !r.state.stopped
    ensures |st.entries| == 0 ==> r == Step(st.(stopped := false), [])
    ensures |st.entries| > 0 ==>
              Flatten(r.dispatched) == OfPriority(st.entries, Immediate) &&
              r.state.entries == OfPriority(st.entries, Batch) &&
              (r.state.timerArmed <==> st.timerArmed || !st.processing)
    ensures r.state.processing == st.processing
    ensures forall i :: 0 <= i < |r.dispatched| ==> 0 < |r.dispatched[i]| <= ImmediateConcurrency
  {
    var running := st.(stopped := false);
    if |running.entries| > 0 then
      var a := ProcessImmediate(running);
      assert |OfPriority(st.entries, Immediate)| == 0 ==> OfPriority(st.entries, Batch) == st.entries by {
        if |OfPriority(st.entries, Immediate)| == 0 {
          WithoutImmediates(st.entries);
        }
      }
      Step(ScheduleBatch(a.state), a.dispatched)
    else Step(running, [])
  }

  lemma {:induction false} WithoutImmediates(qs: seq<QueuedFile>)
    requires |OfPriority(qs, Immediate)| == 0
    ensures OfPriority(qs, Batch) == qs
  {
    if |qs| > 0 {
      WithoutImmediates(qs[1..]);
      assert qs == [qs[0]] + qs[1..];
    }
  }

  /** Stopping and starting again leaves an idle, empty queue. */
  lemma RestartAfterStop(st: QueueState)
    ensures Start(Stop(st)) == Step(QueueState([], false, st.processing, false), [])
  {
  }

  datatype QueueStatus = QueueStatus(totalFiles: nat, immediateFiles: nat, batchFiles: nat,
                                     isProcessing: bool, isStopped: bool)

  /** `getQueueStatus`: the entry counts always add up. */
  function Status(st: QueueState): (r: QueueStatus)
    ensures r.totalFiles == |st.entries|
    ensures r.totalFiles == r.immediateFiles + r.batchFiles
    ensures r.immediateFiles == |OfPriority(st.entries, Immediate)|
    ensures r.isProcessing == st.processing && r.isStopped == st.stopped
  {
    PriorityPartition(st.entries);
    QueueStatus(|st.entries|, |OfPriority(st.entries, Immediate)|, |OfPriority(st.entries, Batch)|,
                st.processing, st.stopped)
  }

  // -------------------------------------------------------------- flush

  /** Immediate processing neither loses nor invents an entry. */
  lemma ProcessImmediateConserves(st: QueueState)
    ensures var r := ProcessImmediate(st);
            multiset(st.entries) == multiset(Flatten(r.dispatched)) + multiset(r.state.entries) &&
            r.state.processing == st.processing && r.state.stopped == st.stopped
  {
    PriorityPartition(st.entries);
  }

  /** Batch processing neither loses nor invents an entry. */
  lemma ProcessBatchConserves(cfg: QueueConfig, st: QueueState)
    ensures var r := ProcessBatch(cfg, st);
            multiset(st.entries) == multiset(Flatten(r.dispatched)) + multiset(r.state.entries)
  {
  }

  /** One pass of `flush`'s loop: while entries remain and the queue runs,
      the immediate entries are synced, then one batch. */
  function FlushPass(cfg: QueueConfig, st: QueueState): (r: Step)
    ensures |st.entries| == 0 || st.stopped ==> r == Step(st, [])
    ensures multiset(st.entries) == multiset(Flatten(r.dispatched)) + multiset(r.state.entries)
    ensures r.state.stopped == st.stopped
    ensures !st.processing ==> !r.state.processing
  {
    if |st.entries| == 0 || st.stopped then Step(st, [])
    else
      var a := ProcessImmediate(st);
      var b := ProcessBatch(cfg, a.state);
      ProcessImmediateConserves(st);
      ProcessBatchConserves(cfg, a.state);
      FlattenAppend(a.dispatched, b.dispatched);
      Step(b.state, a.dispatched + b.dispatched)
  }

  /** With no batch running and batches of at least one entry, every pass
      over a non-empty running queue shortens it. */
  lemma FlushPassProgresses(cfg: QueueConfig, st: QueueState)
    requires !st.processing && !st.stopped && cfg.batchSize > 0 && |st.entries| > 0
    ensures |FlushPass(cfg, st).state.entries| < |st.entries|
  {
    PriorityPartition(st.entries);
    var a := ProcessImmediate(st);
    if |OfPriority(st.entries, Immediate)| == 0 {
      WithoutImmediates(st.entries);
      assert a.state == st;
    } else {
      assert |a.state.entries| < |st.entries|;
    }
  }

  /** While another batch is running, a pass over a queue holding only batch
      entries changes nothing: the loop would go round without end. */
  lemma FlushStallsWhileProcessing(cfg: QueueConfig, st: QueueState)
    requires st.processing && |OfPriority(st.entries, Immediate)| == 0
    ensures FlushPass(cfg, st) == Step(st, [])
  {
  }

  /** With a batch size of zero a batch never takes anything, so a pass over
      batch entries makes no progress either. */
  lemma FlushStallsWithEmptyBatches(cfg: QueueConfig, st: QueueState)
    requires cfg.batchSize == 0 && |OfPriority(st.entries, Immediate)| == 0
    ensures FlushPass(cfg, st).state.entries == st.entries
    ensures Flatten(FlushPass(cfg, st).dispatched) == []
  {
    if |st.entries| > 0 && !st.stopped && !st.processing {
      DropNothing(st.entries, 0);
      WithoutImmediates(st.entries);
      FlattenAppend<QueuedFile>([], []);
    }
  }

  /** `flush` when no batch is running and batches take at least one entry:
      the timer is cleared and passes repeat until the queue is empty or
      stopped. Every entry is synced exactly once. */
  method Flush(cfg: QueueConfig, st: QueueState) returns (r: Step)
    requires cfg.batchSize > 0 && !st.processing
    ensures r.state.entries == [] || st.stopped
    ensures r.state.stopped == st.stopped && !r.state.processing
    ensures multiset(st.entries) == multiset(Flatten(r.dispatched)) + multiset(r.state.entries)
  {
    var cur := st.(timerArmed := false);
    var sent: seq<seq<QueuedFile>> := [];
    while |cur.entries| > 0 && !cur.stopped
      invariant cur.stopped == st.stopped && !cur.processing
      invariant multiset(st.entries) == multiset(Flatten(sent)) + multiset(cur.entries)
      decreases |cur.entries|
    {
      var pass := FlushPass(cfg, cur);
      FlushPassProgresses(cfg, cur);
      FlattenAppend(sent, pass.dispatched);
      sent := sent + pass.dispatched;
      cur := pass.state;
    }
    r := Step(cur, sent);
  }
}

=== FILE: seqs.dfy ===
/** Sequence helpers shared by the queue, the restore loop and the bucket
    cleanup, which all slice a list into fixed-size groups. */
module Seqs {

  /** Concatenation of a sequence of sequences. */
  function Flatten<T>(xss: seq<seq<T>>): (r: seq<T>)
    ensures |xss| == 0 ==> r == []
  {
    if |xss| == 0 then [] else xss[0] + Flatten(xss[1..])
  }

  lemma {:induction false} FlattenAppend<T>(a: seq<seq<T>>, b: seq<seq<T>>)
    ensures Flatten(a + b) == Flatten(a) + Flatten(b)
  {
    if |a| == 0 {
      assert a + b == b;
    } else {
      assert (a + b)[1..] == a[1..] + b;
      FlattenAppend(a[1..], b);
    }
  }

  /** `chunkArray` (sync-queue.ts) and the `slice(i, i + n)` loops of the
      restore and cleanup code: consecutive slices of length `n`, the last one
      possibly shorter. */
  function Chunks<T>(xs: seq<T>, n: nat): (r: seq<seq<T>>)
    requires n >= 1
    ensures Flatten(r) == xs
    ensures forall i :: 0 <= i < |r| ==> 0 < |r[i]| <= n
    ensures forall i :: 0 <= i < |r| - 1 ==> |r[i]| == n
    ensures |r| == 0 <==> |xs| == 0
    decreases |xs|
  {
    if |xs| == 0 then []
    else
      var k := if n < |xs| then n else |xs|;
      var rest := Chunks(xs[k..], n);
      assert xs == xs[..k] + xs[k..];
      assert ([xs[..k]] + rest)[1..] == rest;
      [xs[..k]] + rest
  }

  /** The elements of `xs` satisfying `keep`, in their original order
      (`Array.prototype.filter`). */
  function Filter<T>(xs: seq<T>, keep: T -> bool): (r: seq<T>)
    ensures |r| <= |xs|
    ensures forall i :: 0 <= i < |r| ==> r[i] in xs && keep(r[i])
    ensures forall i :: 0 <= i < |xs| && keep(xs[i]) ==> xs[i] in r
    decreases |xs|
  {
    if |xs| == 0 then []
    else if keep(xs[0]) then [xs[0]] + Filter(xs[1..], keep)
    else Filter(xs[1..], keep)
  }

  lemma {:induction false} FilterAppend<T>(a: seq<T>, b: seq<T>, keep: T -> bool)
    ensures Filter(a + b, keep) == Filter(a, keep) + Filter(b, keep)
  {
    if |a| == 0 {
      assert a + b == b;
    } else {
      assert (a + b)[0] == a[0];
      assert (a + b)[1..] == a[1..] + b;
      FilterAppend(a[1..], b, keep);
    }
  }

  /** `Array.prototype.map`. */
  function Map<A, B>(xs: seq<A>, f: A -> B): (r: seq<B>)
    ensures |r| == |xs|
    ensures forall i :: 0 <= i < |xs| ==> r[i] == f(xs[i])
  {
    seq(|xs|, i requires 0 <= i < |xs| => f(xs[i]))
  }

  lemma MapAppend<A, B>(a: seq<A>, b: seq<A>, f: A -> B)
    ensures Map(a + b, f) == Map(a, f) + Map(b, f)
  {
    assert forall i :: 0 <= i < |a| ==> (a + b)[i] == a[i];
    assert forall i :: |a| <= i < |a| + |b| ==> (a + b)[i] == b[i - |a|];
  }

  /** Mapping, then filtering: an image that passes the filter is kept, and
      whatever is kept is the image of some element. */
  lemma FilterMapMembers<A, B>(xs: seq<A>, f: A -> B, keep: B -> bool)
    ensures forall i :: 0 <= i < |xs| && keep(f(xs[i])) ==> f(xs[i]) in Filter(Map(xs, f), keep)
    ensures forall y :: y in Filter(Map(xs, f), keep) ==> exists i :: 0 <= i < |xs| && y == f(xs[i])
  {
    var m := Map(xs, f);
    forall y | y in Filter(m, keep) ensures exists i :: 0 <= i < |xs| && y == f(xs[i]) {
      var j :| 0 <= j < |Filter(m, keep)| && Filter(m, keep)[j] == y;
      var i :| 0 <= i < |m| && m[i] == y;
    }
  }

  /** The first `n` elements (`slice(0, n)`). */
  function Take<T>(xs: seq<T>, n: nat): (r: seq<T>)
    ensures |r| == if n < |xs| then n else |xs|
    ensures r <= xs
  {
    if n < |xs| then xs[..n] else xs
  }
}

=== FILE: store.dfy ===
// The object-store client of the sandbox worker: the key scheme, paginated
// listing with prefix stripping, not-found handling for reads, upload
// metadata and batched cleanup. The store itself is a map from key to
// stored object; the responses of the store service are inputs.
module ObjectStore {
  import opened Base
  import opened Seqs

  /** Every key of a sandbox starts with the sandbox id and a slash. */
  function Prefix(sandboxId: string): (r: string)
    ensures |r| == |sandboxId| + 1 && r[|sandboxId|] == '/'
  {
    sandboxId + "/"
  }

  /** The key under which a file of a sandbox is stored. */
  function Key(sandboxId: string, path: string): (r: string)
    ensures |r| == |sandboxId| + 1 + |path|
    ensures r[..|sandboxId| + 1] == Prefix(sandboxId) && r[|sandboxId| + 1..] == path
  {
    Prefix(sandboxId) + path
  }

  /** What remains of a key once `n` leading characters are cut off; like
      taking a substring from `n`, it is empty when the key is shorter. */
  function CutFront(key: string, n: nat): (r: string)
    ensures |key| >= n ==> r == key[n..]
    ensures |key| < n ==> r == ""
  {
    if |key| >= n then key[n..] else ""
  }

  // ---------------------------------------------------------------- listing

  /** One object as a listing page describes it; every field may be absent. */
  datatype ListedObject = ListedObject(key: Option<string>, etag: Option<string>, size: Option<nat>)

  /** One file of a sandbox as the listing reports it. */
  datatype RemoteFile = RemoteFile(path: string, hash: string, size: nat)

  /** The service's answer to one listing request. */
  datatype ListResponse =
    | ListPage(contents: Option<seq<ListedObject>>, nextToken: Option<string>)
    | ListFailed(name: string)

  /** The text with every double quote removed. */
  function StripQuotes(s: string): (r: string)
    ensures |r| <= |s|
    ensures forall i :: 0 <= i < |r| ==> r[i] != '"'
    ensures (forall i :: 0 <= i < |s| ==> s[i] != '"') ==> r == s
  {
    if |s| == 0 then ""
    else if s[0] == '"' then StripQuotes(s[1..])
    else [s[0]] + StripQuotes(s[1..])
  }

  lemma {:induction false} StripQuotesAppend(a: string, b: string)
    ensures StripQuotes(a + b) == StripQuotes(a) + StripQuotes(b)
    decreases |a|
  {
    if |a| == 0 {
      assert a + b == b;
    } else {
      assert (a + b)[0] == a[0] && (a + b)[1..] == a[1..] + b;
      StripQuotesAppend(a[1..], b);
    }
  }

  /** An entity tag as the service quotes it loses exactly its quotes. */
  lemma QuotedTagUnquoted(tag: string)
    requires forall i :: 0 <= i < |tag| ==> tag[i] != '"'
    ensures StripQuotes("\"" + tag + "\"") == tag
  {
    StripQuotesAppend("\"" + tag, "\"");
    StripQuotesAppend("\"", tag);
  }

  /** The file a listed object stands for, or None when the object has no
      key, an empty key, or is the bare sandbox prefix. The hash is the
      entity tag without quotes (empty when absent) and the size defaults
      to 0. */
  function Entry(prefix: string, o: ListedObject): (r: Option<RemoteFile>)
    ensures r.None? <==> (o.key.None? || o.key.value == "" || o.key.value == prefix)
    ensures r.Some? ==> r.value.path == CutFront(o.key.value, |prefix|)
    ensures r.Some? ==> r.value.hash == (if o.etag.Some? then StripQuotes(o.etag.value) else "")
    ensures r.Some? ==> r.value.size == (if o.size.Some? then o.size.value else 0)
  {
    match o.key
    case None => None
    case Some(k) =>
      if k == "" || k == prefix then None
      else
        var hash := if o.etag.Some? then StripQuotes(o.etag.value) else "";
        var size := if o.size.Some? then o.size.value else 0;
        Some(RemoteFile(CutFront(k, |prefix|), hash, size))
  }

  /** The files one page contributes, in page order. */
  function PageFiles(prefix: string, objs: seq<ListedObject>): (r: seq<RemoteFile>)
    ensures |r| <= |objs|
    ensures forall i :: 0 <= i < |objs| && Entry(prefix, objs[i]).Some? ==> Entry(prefix, objs[i]).value in r
    ensures forall f :: f in r ==> exists i :: 0 <= i < |objs| && Entry(prefix, objs[i]) == Some(f)
  {
    if |objs| == 0 then []
    else
      var rest := PageFiles(prefix, objs[1..]);
      assert forall i :: 1 <= i < |objs| ==> objs[1..][i - 1] == objs[i];
      match Entry(prefix, objs[0])
      case None => rest
      case Some(f) => [f] + rest
  }

  /** The files of a response that is a page; a page without contents has none. */
  function ResponseFiles(prefix: string, resp: ListResponse): seq<RemoteFile>
    requires resp.ListPage?
  {
    match resp.contents
    case None => []
    case Some(objs) => PageFiles(prefix, objs)
  }

  /** A continuation token that asks for another page: present and non-empty. */
  predicate Continues(token: Option<string>)
  {
    token.Some? && token.value != ""
  }

  /** The pages of a listing that goes on after them. */
  predicate ContinuingPages(pages: seq<ListResponse>)
  {
    forall j :: 0 <= j < |pages| ==> pages[j].ListPage? && Continues(pages[j].nextToken)
  }

  /** All files of the given pages, concatenated in page order. */
  function Collected(prefix: string, pages: seq<ListResponse>): (r: seq<RemoteFile>)
    requires forall j :: 0 <= j < |pages| ==> pages[j].ListPage?
    ensures |pages| == 0 ==> r == []
  {
    if |pages| == 0 then []
    else ResponseFiles(prefix, pages[0]) + Collected(prefix, pages[1..])
  }

  /** Listing all files under a prefix, where `pages` are the service's
      answers to the successive requests. A failed request fails the whole
      listing; running out of answers before the last page is reported as
      an error as well. */
  function ListFrom(prefix: string, pages: seq<ListResponse>): (r: Result<seq<RemoteFile>>)
    ensures |pages| > 0 && pages[0].ListFailed? ==> r == Err(pages[0].name)
    ensures r.Ok? ==> |pages| > 0 && pages[0].ListPage?
    decreases |pages|
  {
    if |pages| == 0 then Err("listing ended before its last page")
    else match pages[0]
      case ListFailed(name) => Err(name)
      case ListPage(_, next) =>
        var here := ResponseFiles(prefix, pages[0]);
        if Continues(next) then
          match ListFrom(prefix, pages[1..])
          case Ok(rest) => Ok(here + rest)
          case Err(e) => Err(e)
        else Ok(here)
  }

  /** The listing of one sandbox's files: the listing under its key prefix.
      A failed first request fails it, and a single last page gives that
      page's files. */
  function ListFiles(sandboxId: string, pages: seq<ListResponse>): (r: Result<seq<RemoteFile>>)
    ensures |pages| == 0 ==> r.Err?
    ensures |pages| > 0 && pages[0].ListFailed? ==> r == Err(pages[0].name)
    ensures |pages| > 0 && pages[0].ListPage? && !Continues(pages[0].nextToken) ==>
              r == Ok(ResponseFiles(Prefix(sandboxId), pages[0]))
  {
    ListFrom(Prefix(sandboxId), pages)
  }

  /** When page `k` is the first without a continuation token and every
      earlier request succeeded, the listing is the concatenation of the
      pages up to and including `k`; later answers are never requested. */
  lemma {:induction false} ListingStopsAtLastPage(prefix: string, pages: seq<ListResponse>, k: nat)
    requires k < |pages| && ContinuingPages(pages[..k])
    requires pages[k].ListPage? && !Continues(pages[k].nextToken)
    ensures ListFrom(prefix, pages) == Ok(Collected(prefix, pages[..k + 1]))
    decreases k
  {
    if k == 0 {
      assert pages[..1][1..] == [] && pages[..1][0] == pages[0];
      var here := ResponseFiles(prefix, pages[0]);
      assert Collected(prefix, pages[..1]) == here + Collected(prefix, []);
      assert here + [] == here;
      assert ListFrom(prefix, pages) == Ok(here);
    } else {
      assert pages[..k][0] == pages[0];
      assert pages[1..][..k - 1] == pages[..k][1..];
      assert pages[1..][..k - 1] == pages[..k][1..];
      assert pages[1..][k - 1] == pages[k];
      ListingStopsAtLastPage(prefix, pages[1..], k - 1);
      assert pages[..k + 1][1..] == pages[1..][..k];
    }
  }

  /** A failed request after only continuing pages fails the listing with
      that request's error. */
  lemma {:induction false} ListingFailsAtFailedPage(prefix: string, pages: seq<ListResponse>, k: nat)
    requires k < |pages| && ContinuingPages(pages[..k])
    requires pages[k].ListFailed?
    ensures ListFrom(prefix, pages) == Err(pages[k].name)
    decreases k
  {
    if k > 0 {
      assert pages[..k][0] == pages[0];
      assert pages[1..][..k - 1] == pages[..k][1..];
      assert pages[1..][k - 1] == pages[k];
      ListingFailsAtFailedPage(prefix, pages[1..], k - 1);
    }
  }

  /** The request loop of the listing. */
  method ListAll(sandboxId: string, pages: seq<ListResponse>) returns (r: Result<seq<RemoteFile>>)
    ensures r == ListFiles(sandboxId, pages)
  {
    var prefix := Prefix(sandboxId);
    var files: seq<RemoteFile> := [];
    var i := 0;
    assert forall rest: seq<RemoteFile> :: files + rest == rest;
    while true
      invariant 0 <= i <= |pages|
      invariant ContinuingPages(pages[..i])
      invariant ListFrom(prefix, pages) == (match ListFrom(prefix, pages[i..])
                                            case Ok(rest) => Ok(files + rest)
                                            case Err(e) => Err(e))
      decreases |pages| - i
    {
      if i == |pages| {
        return Err("listing ended before its last page");
      }
      var resp := pages[i];
      assert pages[i..][0] == resp && pages[i..][1..] == pages[i + 1..];
      if resp.ListFailed? {
        return Err(resp.name);
      }
      var here := ResponseFiles(prefix, resp);
      if !Continues(resp.nextToken) {
        return Ok(files + here);
      }
      assert ListFrom(prefix, pages[i..]) == (match ListFrom(prefix, pages[i + 1..])
                                               case Ok(rest) => Ok(here + rest)
                                               case Err(e) => Err(e));
      assert forall rest :: files + (here + rest) == (files + here) + rest;
      files := files + here;
      assert pages[..i + 1] == pages[..i] + [resp];
      i := i + 1;
    }
  }

  /** The key of a non-empty path lists as that path again: it is neither
      empty nor the bare prefix, and cutting the prefix gives the path back.
      The bare prefix itself (an empty path) is skipped. */
  lemma KeyRoundTrip(sandboxId: string, path: string, etag: Option<string>, size: Option<nat>)
    ensures var o := ListedObject(Some(Key(sandboxId, path)), etag, size);
            var e := Entry(Prefix(sandboxId), o);
            (e.Some? <==> path != "") && (e.Some? ==> e.value.path == path)
  {
    var k := Key(sandboxId, path);
    if path == "" {
      assert k == Prefix(sandboxId);
    } else {
      assert |k| != |Prefix(sandboxId)|;
    }
  }

  // ------------------------------------------------------- single objects

  /** An object in the store: its bytes and the metadata recorded on upload. */
  datatype StoredObject = StoredObject(body: Bytes, hash: string, size: nat)

  type Bucket = map<string, StoredObject>

  /** Uploading writes the object under the file's key, recording the hash
      of the content and its length; no other key changes. */
  function UploadFile(bucket: Bucket, hash: Hasher, sandboxId: string, path: string, content: Bytes): (r: Bucket)
    ensures Key(sandboxId, path) in r
    ensures r[Key(sandboxId, path)] == StoredObject(content, hash(content), |content|)
    ensures forall k :: k != Key(sandboxId, path) ==> (k in r <==> k in bucket)
    ensures forall k :: k in bucket && k != Key(sandboxId, path) ==> r[k] == bucket[k]
  {
    bucket[Key(sandboxId, path) := StoredObject(content, hash(content), |content|)]
  }

  /** Deleting removes the file's key, whether or not it was there. */
  function DeleteFile(bucket: Bucket, sandboxId: string, path: string): (r: Bucket)
    ensures Key(sandboxId, path) !in r
    ensures forall k :: k != Key(sandboxId, path) ==> (k in r <==> k in bucket)
    ensures forall k :: k in r ==> r[k] == bucket[k]
  {
    bucket - {Key(sandboxId, path)}
  }

  /** The service's answer to a read of one key. */
  datatype GetResponse = GotBody(body: Bytes) | GotNoBody | GetError(name: string)

  /** The error name the service gives for an absent key. */
  const NoSuchKey: string := "NoSuchKey"

  /** How the store answers a read. */
  function GetObject(bucket: Bucket, key: string): (r: GetResponse)
    ensures r.GotBody? <==> key in bucket
    ensures r.GotBody? ==> r.body == bucket[key].body
    ensures !r.GotBody? ==> r == GetError(NoSuchKey)
  {
    if key in bucket then GotBody(bucket[key].body) else GetError(NoSuchKey)
  }

  /** Downloading: the bytes of the body; nothing when the answer has no
      body or the key does not exist; any other error is passed on. */
  function DownloadFile(resp: GetResponse): (r: Result<Option<Bytes>>)
    ensures r.Ok? && r.value.Some? <==> resp.GotBody?
    ensures resp.GotBody? ==> r == Ok(Some(resp.body))
    ensures r.Err? <==> resp.GetError? && resp.name != NoSuchKey
    ensures r.Err? ==> r.error == resp.name
  {
    match resp
    case GotBody(body) => Ok(Some(body))
    case GotNoBody => Ok(None)
    case GetError(name) => if name == NoSuchKey then Ok(None) else Err(name)
  }

  /** Existence test: any successful read means the file exists, the
      not-found error means it does not, and other errors are passed on. */
  function FileExists(resp: GetResponse): (r: Result<bool>)
    ensures r == Ok(true) <==> !resp.GetError?
    ensures r == Ok(false) <==> resp == GetError(NoSuchKey)
    ensures r.Err? ==> resp.GetError? && r.error == resp.name
  {
    match resp
    case GetError(name) => if name == NoSuchKey then Ok(false) else Err(name)
    case _ => Ok(true)
  }

  /** What is uploaded under a path downloads unchanged, and exists. */
  lemma UploadThenDownload(bucket: Bucket, hash: Hasher, sandboxId: string, path: string, content: Bytes)
    ensures var b := UploadFile(bucket, hash, sandboxId, path, content);
            DownloadFile(GetObject(b, Key(sandboxId, path))) == Ok(Some(content)) &&
            FileExists(GetObject(b, Key(sandboxId, path))) == Ok(true)
  {
  }

  /** After a delete the file downloads as nothing and does not exist. */
  lemma DeleteThenDownload(bucket: Bucket, sandboxId: string, path: string)
    ensures var b := DeleteFile(bucket, sandboxId, path);
            DownloadFile(GetObject(b, Key(sandboxId, path))) == Ok(None) &&
            FileExists(GetObject(b, Key(sandboxId, path))) == Ok(false)
  {
  }

  /** The files of two sandboxes never share a key unless the sandbox ids
      and the paths agree, as long as neither id contains a slash. */
  lemma KeysSeparateSandboxes(a: string, p: string, b: string, q: string)
    requires forall i :: 0 <= i < |a| ==> a[i] != '/'
    requires forall i :: 0 <= i < |b| ==> b[i] != '/'
    ensures Key(a, p) == Key(b, q) <==> a == b && p == q
  {
    if Key(a, p) == Key(b, q) {
      assert a == Key(a, p)[..|a|];
      assert b == Key(b, q)[..|b|];
      assert p == Key(a, p)[|a| + 1..];
    }
  }

  // ------------------------------------------------------------- cleanup

  /** Deletions are sent in groups of this many. */
  const CleanupBatchSize: nat := 10

  function KeysOf(sandboxId: string, files: seq<RemoteFile>): (r: seq<string>)
    ensures |r| == |files|
    ensures forall i :: 0 <= i < |files| ==> r[i] == Key(sandboxId, files[i].path)
  {
    if |files| == 0 then [] else [Key(sandboxId, files[0].path)] + KeysOf(sandboxId, files[1..])
  }

  /** Cleanup of a sandbox given its listing: the groups of keys deleted
      together. A failed listing fails the cleanup; an empty one deletes
      nothing; otherwise every listed file's key is deleted once, in listing
      order, at most ten at a time. */
  function Cleanup(sandboxId: string, listing: Result<seq<RemoteFile>>): (r: Result<seq<seq<string>>>)
    ensures r.Err? <==> listing.Err?
    ensures r.Err? ==> r.error == listing.error
    ensures r.Ok? ==> Flatten(r.value) == KeysOf(sandboxId, listing.value)
    ensures r.Ok? ==> forall i :: 0 <= i < |r.value| ==> 0 < |r.value[i]| <= CleanupBatchSize
    ensures r.Ok? ==> (|r.value| == 0 <==> |listing.value| == 0)
  {
    match listing
    case Err(e) => Err(e)
    case Ok(files) => if |files| == 0 then Ok([]) else Ok(Chunks(KeysOf(sandboxId, files), CleanupBatchSize))
  }

  /** Applying a sequence of deletions to the store. */
  function DeleteKeys(bucket: Bucket, keys: seq<string>): (r: Bucket)
    ensures forall k :: k in r <==> k in bucket && k !in keys
    ensures forall k :: k in r ==> r[k] == bucket[k]
    decreases |keys|
  {
    if |keys| == 0 then bucket
    else
      assert forall k :: k in keys <==> k == keys[0] || k in keys[1..];
      DeleteKeys(bucket - {keys[0]}, keys[1..])
  }

  /** Once a cleanup's deletions are carried out, no listed file is left in
      the store and every other object is as it was. */
  lemma CleanupEmptiesListedFiles(bucket: Bucket, sandboxId: string, files: seq<RemoteFile>)
    ensures var r := Cleanup(sandboxId, Ok(files));
            var after := DeleteKeys(bucket, Flatten(r.value));
            (forall i :: 0 <= i < |files| ==> Key(sandboxId, files[i].path) !in after) &&
            (forall k :: k in bucket && k !in KeysOf(sandboxId, files) ==> k in after && after[k] == bucket[k])
  {
    var keys := KeysOf(sandboxId, files);
    assert forall i :: 0 <= i < |files| ==> keys[i] in keys;
  }
}

=== FILE: watcher.dfy ===
/** The local file watcher (file-watcher.ts): its default pattern lists,
    the ignore and immediate-sync classification, the shaping of change
    events, the initial tree scan and the start/ready/stop guards. The OS
    notification library, the directory walker and file reads are inputs. */
module Watcher {
  import opened Base
  import opened Glob

  datatype ChangeKind = Add | Change | Unlink

  /** `FileChange`: `hash`, `size` and `content` are the optional fields. */
  datatype FileChange = FileChange(
    path: string,
    kind: ChangeKind,
    hash: Option<string>,
    size: Option<nat>,
    content: Option<Bytes>)

  /** What reading a file (content, then `stat`) gave: the content and the
      size `stat` reported, or a failure of either call. */
  datatype ReadResult = ReadOk(content: Bytes, statSize: nat) | ReadFailed

  /** The effective configuration after the constructor's merge. */
  datatype WatcherConfig = WatcherConfig(
    rootDir: string,
    ignorePaths: seq<string>,
    immediateSync: seq<string>)

  const DefaultIgnorePatterns: seq<string> := [
    "**/node_modules/**", "**/.git/**", "**/.next/**", "**/dist/**",
    "**/build/**", "**/.cache/**", "**/coverage/**", "**/.nyc_output/**",
    "**/tmp/**", "**/temp/**", "**/*.log", "**/.DS_Store",
    "**/Thumbs.db", "**/.env*", "**/*.tmp", "**/*.temp",
    "**/*.swp", "**/*.swo"
  ]

  const DefaultImmediatePatterns: seq<string> := [
    "**/package.json", "**/package-lock.json", "**/pnpm-lock.yaml",
    "**/yarn.lock", "**/tsconfig.json", "**/tsconfig.*.json",
    "**/.env.example", "**/next.config.*", "**/vite.config.*",
    "**/webpack.config.*", "**/tailwind.config.*", "**/postcss.config.*",
    "**/.eslintrc.*", "**/.prettierrc.*", "/tmp/worker.log"
  ]

  /** The constructor: the built-in lists come first, the caller's after. */
  function Configure(rootDir: string, ignorePaths: seq<string>, immediateSync: seq<string>): (c: WatcherConfig)
    ensures c.rootDir == rootDir
    ensures |c.ignorePaths| == 18 + |ignorePaths|
    ensures c.ignorePaths[..18] == DefaultIgnorePatterns && c.ignorePaths[18..] == ignorePaths
    ensures |c.immediateSync| == 15 + |immediateSync|
    ensures c.immediateSync[..15] == DefaultImmediatePatterns && c.immediateSync[15..] == immediateSync
  {
    WatcherConfig(rootDir, DefaultIgnorePatterns + ignorePaths, DefaultImmediatePatterns + immediateSync)
  }

  /** Whether some pattern of the list matches, scanning in order. */
  predicate AnyMatches(patterns: seq<string>, path: string)
    decreases |patterns|
  {
    |patterns| > 0 && (MatchesPattern(path, patterns[0]) || AnyMatches(patterns[1..], path))
  }

  lemma {:induction false} AnyMatchesExists(patterns: seq<string>, path: string)
    ensures AnyMatches(patterns, path) <==>
            exists i :: 0 <= i < |patterns| && MatchesPattern(path, patterns[i])
    decreases |patterns|
  {
    if |patterns| > 0 {
      AnyMatchesExists(patterns[1..], path);
      if exists i :: 0 <= i < |patterns| && MatchesPattern(path, patterns[i]) {
        var i :| 0 <= i < |patterns| && MatchesPattern(path, patterns[i]);
        if i > 0 {
          assert patterns[1..][i - 1] == patterns[i];
        }
      }
      if AnyMatches(patterns[1..], path) {
        var i :| 0 <= i < |patterns[1..]| && MatchesPattern(path, patterns[1..][i]);
        assert patterns[i + 1] == patterns[1..][i];
      }
    }
  }

  lemma {:induction false} AnyMatchesAppend(a: seq<string>, b: seq<string>, path: string)
    ensures AnyMatches(a + b, path) <==> AnyMatches(a, path) || AnyMatches(b, path)
    decreases |a|
  {
    if |a| > 0 {
      assert (a + b)[0] == a[0];
      assert (a + b)[1..] == a[1..] + b;
      AnyMatchesAppend(a[1..], b, path);
    } else {
      assert a + b == b;
    }
  }

  /** `isIgnored`: true iff some ignore pattern matches the path. */
  function IsIgnored(cfg: WatcherConfig, path: string): (r: bool)
    ensures r <==> exists i :: 0 <= i < |cfg.ignorePaths| && MatchesPattern(path, cfg.ignorePaths[i])
  {
    AnyMatchesExists(cfg.ignorePaths, path);
    AnyMatches(cfg.ignorePaths, path)
  }

  /** `isImmediateSync`: true iff some immediate-sync pattern matches. */
  function IsImmediateSync(cfg: WatcherConfig, path: string): (r: bool)
    ensures r <==> exists i :: 0 <= i < |cfg.immediateSync| && MatchesPattern(path, cfg.immediateSync[i])
  {
    AnyMatchesExists(cfg.immediateSync, path);
    AnyMatches(cfg.immediateSync, path)
  }

  /** A pattern whose first character is an ordinary character only matches
      paths starting with that character. */
  lemma LeadingLiteral(pattern: string, path: string)
    requires |pattern| > 0 && !Wildcard(pattern[0]) && pattern[0] != '.'
    requires MatchesPattern(path, pattern)
    ensures |path| > 0 && path[0] == pattern[0]
  {
    assert Compile(pattern) == [CharToken(pattern[0])] + Compile(pattern[1..]);
  }

  lemma DefaultIgnoresStartWithDoubleStarSlash()
    ensures AllDoubleStarSlash(DefaultIgnorePatterns)
  {
  }

  lemma DefaultImmediatesStartWithDoubleStarSlash()
    ensures |DefaultImmediatePatterns| == 15
    ensures AllDoubleStarSlash(DefaultImmediatePatterns[..14])
    ensures DefaultImmediatePatterns[14] == "/tmp/worker.log"
  {
  }

  predicate AllDoubleStarSlash(patterns: seq<string>)
  {
    forall i :: 0 <= i < |patterns| ==> |patterns[i]| >= 3 && patterns[i] == "**/" + patterns[i][3..]
  }

  lemma {:induction false} DoubleStarSlashListsSkipRootFiles(patterns: seq<string>, path: string)
    requires AllDoubleStarSlash(patterns) && SlashFree(path)
    ensures !AnyMatches(patterns, path)
    decreases |patterns|
  {
    if |patterns| > 0 {
      SlashFreeNeverMatchesDoubleStarSlash(patterns[0][3..], path);
      assert AllDoubleStarSlash(patterns[1..]) by {
        forall i | 0 <= i < |patterns[1..]|
          ensures |patterns[1..][i]| >= 3 && patterns[1..][i] == "**/" + patterns[1..][i][3..]
        {
          assert patterns[1..][i] == patterns[i + 1];
        }
      }
      DoubleStarSlashListsSkipRootFiles(patterns[1..], path);
    }
  }

  /** None of the built-in ignore patterns matches a path without a `/`: a
      root-level `.env` or `debug.log` is not ignored by the built-in list. */
  lemma DefaultIgnoresSkipRootFiles(path: string)
    requires SlashFree(path)
    ensures !AnyMatches(DefaultIgnorePatterns, path)
  {
    DefaultIgnoresStartWithDoubleStarSlash();
    DoubleStarSlashListsSkipRootFiles(DefaultIgnorePatterns, path);
  }

  lemma LeadingSlashSkipsRootFiles(pattern: string, path: string)
    requires |pattern| > 0 && pattern[0] == '/' && SlashFree(path)
    ensures !AnyMatches([pattern], path)
  {
    if MatchesPattern(path, pattern) {
      LeadingLiteral(pattern, path);
    }
    assert [pattern][1..] == [];
  }

  /** A list of double-star-slash patterns closed by one absolute pattern matches no
      path without a `/`. */
  lemma DoubleStarSlashThenLeadingSlash(patterns: seq<string>, path: string)
    requires |patterns| > 0 && SlashFree(path)
    requires AllDoubleStarSlash(patterns[..|patterns| - 1])
    requires |patterns[|patterns| - 1]| > 0 && patterns[|patterns| - 1][0] == '/'
    ensures !AnyMatches(patterns, path)
  {
    var head := patterns[..|patterns| - 1];
    var last := patterns[|patterns| - 1];
    DoubleStarSlashListsSkipRootFiles(head, path);
    LeadingSlashSkipsRootFiles(last, path);
    assert patterns == head + [last];
    AnyMatchesAppend(head, [last], path);
  }

  /** Nor does any built-in immediate pattern: a root-level `package.json`
      is not immediate under the built-in list. */
  lemma DefaultImmediatesSkipRootFiles(path: string)
    requires SlashFree(path)
    ensures !AnyMatches(DefaultImmediatePatterns, path)
  {
    DefaultImmediatesStartWithDoubleStarSlash();
    DoubleStarSlashThenLeadingSlash(DefaultImmediatePatterns, path);
  }

  /** Under the built-in lists and no caller patterns, a root-level path is
      classified as neither ignored nor immediate; `src/package.json` is
      immediate. */
  lemma RootFilesUnderDefaults(rootDir: string, path: string)
    requires SlashFree(path)
    ensures !IsIgnored(Configure(rootDir, [], []), path)
    ensures !IsImmediateSync(Configure(rootDir, [], []), path)
  {
    var cfg := Configure(rootDir, [], []);
    assert cfg.ignorePaths == DefaultIgnorePatterns;
    assert cfg.immediateSync == DefaultImmediatePatterns;
    DefaultIgnoresSkipRootFiles(path);
    DefaultImmediatesSkipRootFiles(path);
    AnyMatchesExists(DefaultIgnorePatterns, path);
    AnyMatchesExists(DefaultImmediatePatterns, path);
  }

  lemma NestedPackageJsonIsImmediate(rootDir: string)
    ensures IsImmediateSync(Configure(rootDir, [], []), "src/package.json")
    ensures !IsImmediateSync(Configure(rootDir, [], []), "package.json")
  {
    NestedPackageJsonMatched(rootDir);
    RootPackageJsonNotMatched(rootDir);
  }

  lemma RootPackageJsonNotMatched(rootDir: string)
    ensures !IsImmediateSync(Configure(rootDir, [], []), "package.json")
  {
    assert SlashFree("package.json");
    RootFilesUnderDefaults(rootDir, "package.json");
  }

  lemma NestedPackageJsonMatched(rootDir: string)
    ensures IsImmediateSync(Configure(rootDir, [], []), "src/package.json")
  {
    var cfg := Configure(rootDir, [], []);
    PackageJsonOneDown();
    assert cfg.immediateSync[0] == "**/package.json";
    assert MatchesPattern("src/package.json", cfg.immediateSync[0]);
  }

  // ---------------------------------------------------------------------
  // Events
  // ---------------------------------------------------------------------

  /** `handleFileEvent` for a path already made relative to the root: `None`
      means no callback. `read` is what reading the file would give; it is
      not consulted for `unlink`. */
  function HandleFileEvent(cfg: WatcherConfig, hash: Hasher, path: string, kind: ChangeKind, read: ReadResult): (r: Option<FileChange>)
    ensures r.None? <==> IsIgnored(cfg, path)
    ensures r.Some? ==> r.value.path == path && r.value.kind == kind
    ensures r.Some? && (kind == Unlink || read.ReadFailed?) ==>
              r.value.content.None? && r.value.hash.None? && r.value.size.None?
    ensures r.Some? && kind != Unlink && read.ReadOk? ==>
              r.value.content == Some(read.content) && r.value.hash == Some(hash(read.content))
              && r.value.size == Some(read.statSize)
  {
    if IsIgnored(cfg, path) then None
    else
      var bare := FileChange(path, kind, None, None, None);
      if kind == Unlink then Some(bare)
      else match read
        case ReadOk(content, statSize) =>
          Some(bare.(content := Some(content), hash := Some(hash(content)), size := Some(statSize)))
        case ReadFailed => Some(bare)
  }

  /** Ignore wins over immediate: an ignored path produces no event even when
      it also matches an immediate-sync pattern. */
  lemma IgnoreTakesPrecedence(cfg: WatcherConfig, hash: Hasher, path: string, kind: ChangeKind, read: ReadResult)
    requires IsIgnored(cfg, path) && IsImmediateSync(cfg, path)
    ensures HandleFileEvent(cfg, hash, path, kind, read) == None
  {
  }

  /** One entry the directory walk found, with what reading it gives. */
  datatype Found = Found(path: string, read: ReadResult)

  /** Whether `scanExistingFiles` reports an entry: the path is non-empty,
      the root directory is set, and the read succeeded. */
  predicate Reported(rootDir: string, f: Found)
  {
    |f.path| > 0 && |rootDir| > 0 && f.read.ReadOk?
  }

  /** The `add` event of a readable entry: its path, content, content hash
      and size. */
  function AddChange(hash: Hasher, f: Found): (r: FileChange)
    requires f.read.ReadOk?
    ensures r.path == f.path && WellHashedAdd(hash, r)
    ensures r.content == Some(f.read.content) && r.size == Some(f.read.statSize)
  {
    FileChange(f.path, Add, Some(hash(f.read.content)), Some(f.read.statSize), Some(f.read.content))
  }

  predicate WellHashedAdd(hash: Hasher, c: FileChange)
  {
    c.kind == Add && c.content.Some? && c.hash == Some(hash(c.content.value)) && c.size.Some?
  }

  /** The changes a scan reports for the walk's entries, in walk order:
      every entry the walk found becomes an `add` change with its content,
      hash and size, except empty paths and unreadable files (and everything
      when the root is unset). */
  function Scanned(rootDir: string, hash: Hasher, found: seq<Found>): (r: seq<FileChange>)
    ensures |r| <= |found|
    decreases |found|
  {
    if |found| == 0 then []
    else
      var last := found[|found| - 1];
      Scanned(rootDir, hash, found[..|found| - 1]) + (if Reported(rootDir, last) then [AddChange(hash, last)] else [])
  }

  /** Everything the scan reports is the `add` change of a reported entry. */
  lemma {:induction false} ScannedSound(rootDir: string, hash: Hasher, found: seq<Found>)
    ensures forall c :: c in Scanned(rootDir, hash, found) ==>
              WellHashedAdd(hash, c) &&
              exists i :: 0 <= i < |found| && Reported(rootDir, found[i]) && c == AddChange(hash, found[i])
    decreases |found|
  {
    if |found| > 0 {
      var init := found[..|found| - 1];
      ScannedSound(rootDir, hash, init);
      forall c | c in Scanned(rootDir, hash, found)
        ensures exists i :: 0 <= i < |found| && Reported(rootDir, found[i]) && c == AddChange(hash, found[i])
      {
        if c in Scanned(rootDir, hash, init) {
          var i :| 0 <= i < |init| && Reported(rootDir, init[i]) && c == AddChange(hash, init[i]);
          assert found[i] == init[i];
        } else {
          assert c == AddChange(hash, found[|found| - 1]);
        }
      }
    }
  }

  /** Every reported entry's `add` change is in the scan's report. */
  lemma {:induction false} ScannedComplete(rootDir: string, hash: Hasher, found: seq<Found>)
    ensures forall i :: 0 <= i < |found| && Reported(rootDir, found[i]) ==> AddChange(hash, found[i]) in Scanned(rootDir, hash, found)
    decreases |found|
  {
    if |found| > 0 {
      var init := found[..|found| - 1];
      ScannedComplete(rootDir, hash, init);
      assert forall i :: 0 <= i < |init| ==> init[i] == found[i];
    }
  }

  /** `scanExistingFiles` over the walker's result: the entries are visited
      in walk order and skipped entries do not abort the scan, so the result
      is the scan's report of the walk. */
  method ScanExistingFiles(cfg: WatcherConfig, hash: Hasher, found: seq<Found>) returns (changes: seq<FileChange>)
    ensures changes == Scanned(cfg.rootDir, hash, found)
    ensures forall c :: c in changes ==>
              WellHashedAdd(hash, c) &&
              exists i :: 0 <= i < |found| && Reported(cfg.rootDir, found[i]) && c == AddChange(hash, found[i])
    ensures forall i :: 0 <= i < |found| && Reported(cfg.rootDir, found[i]) ==> AddChange(hash, found[i]) in changes
  {
    changes := [];
    var n := 0;
    while n < |found|
      invariant n <= |found|
      invariant changes == Scanned(cfg.rootDir, hash, found[..n])
    {
      assert found[..n + 1][..n] == found[..n];
      var f := found[n];
      if |f.path| == 0 {
        // an empty entry is skipped with a warning
      } else if |cfg.rootDir| == 0 {
        // the per-entry error for an unset root is caught and logged
      } else if f.read.ReadOk? {
        changes := changes + [AddChange(hash, f)];
      }
      n := n + 1;
    }
    assert found[..n] == found;
    ScannedSound(cfg.rootDir, hash, found);
    ScannedComplete(cfg.rootDir, hash, found);
  }

  // ---------------------------------------------------------------------
  // Lifecycle
  // ---------------------------------------------------------------------

  /** `open`: a watcher handle exists; `watching`: the ready event was seen. */
  datatype WatcherState = WatcherState(open: bool, watching: bool)

  const Idle := WatcherState(false, false)

  /** `start`: a no-op while watching; otherwise opens a watch, but the state
      becomes watching only on the ready event. */
  function Start(w: WatcherState): (r: WatcherState)
    ensures w.watching ==> r == w
    ensures !w.watching ==> r.open && !r.watching
  {
    if w.watching then w else WatcherState(true, false)
  }

  /** The `ready` event of an open watch. */
  function OnReady(w: WatcherState): (r: WatcherState)
    ensures r.watching <==> w.watching || w.open
    ensures r.open == w.open
  {
    if w.open then w.(watching := true) else w
  }

  /** `stop`: a no-op unless a watch is open and ready; otherwise closes it. */
  function Stop(w: WatcherState): (r: WatcherState)
    ensures !(w.open && w.watching) ==> r == w
    ensures w.open && w.watching ==> r == Idle
  {
    if !w.open || !w.watching then w else Idle
  }

  /** Stopping before the ready event leaves the watch open, so a later ready
      event still turns watching on. */
  lemma StopBeforeReadyLeavesWatchOpen()
    ensures Stop(Start(Idle)) == Start(Idle)
    ensures OnReady(Stop(Start(Idle))).watching
  {
  }
}
